=== FILE: README.md ===
# A Dafny model of the Esprima JavaScript content-assist engine

`esprimaJsContentAssist.js` computes code-completion proposals for a cursor
position in a JavaScript buffer. Given the parsed tree, the cursor offset, the
identifier prefix typed so far and the buffer text, the engine:

1. classifies the position (`shouldVisit`) with a first walk that collects the
   nodes enclosing the cursor, deciding between a *member* completion (after a
   dot) and a *top* completion (at the start of an expression), and, for an
   empty prefix at the start of a statement, splices a synthetic empty
   identifier into the tree;
2. walks the tree a second time (`proposalCollector` /
   `proposalCollectorPostOp`), maintaining a type environment of descriptors
   linked by `$$prototype`, a stack of scopes, and an inferred type per node;
3. when it reaches the identifier under the cursor, or leaves a member
   expression whose dot precedes the cursor, proposes every member of the
   relevant type and its prototypes whose name starts with the prefix
   (`createProposals`, `calculateFunctionProposal`);
4. sorts the proposals by description.

The model is pure and functional. The tree is an immutable datatype, and the
`inferredType`/`target` decorations are kept in a map keyed by node identity.
The environment is a value threaded through the walk. The engine ends a walk by
throwing the string `"done"`, and that becomes an explicit `Stop` outcome. Every
other JavaScript exception (reading a field of a missing object, recursing
without end) becomes a `Fault` carried by `Result`.

Modules, in dependency order:

| file | module | models |
|---|---|---|
| base.dfy | Base | `Option`, `Result`, the faults the engine can raise |
| strings.dfy | Strings | prefix test, string `<`, decimal rendering of the name counter, `toUpperCase` on a first character, joining |
| offsets.dfy | Offsets | `inRange`, `isBefore`, `isAfter`, `afterDot` |
| ast.dfy | Ast | the parser's tree, the visitor's child discovery and ordering, `findRightMost` |
| visitor.dfy | Visitor | `visit` with explicit `Continue`/`Stop`/`Failed` outcomes |
| bags.dfy | Bags | JavaScript objects as insertion-ordered property bags |
| catalog.dfy | Catalog | the built-in type catalog `Types` |
| typeenv.dfy | TypeEnv | the `data` record: descriptors, scope stack, name counter, and their operations |
| proposals.dfy | Proposals | `calculateFunctionProposal`, `createProposals`, sorting by description |
| classifier.dfy | Classifier | `shouldVisit` and its `findParent` walk |
| inference.dfy | Inference | `proposalCollector`, `proposalCollectorPostOp`, `computeProposals` |

## Model

| member | source | states |
|---|---|---|
| Offsets.PositionTrichotomy | esprimaJsContentAssist.js:388-409 | for a present range, at least one of `isBefore`, `inRange`, `isAfter` holds; `inRange` excludes both others; `isBefore` and `isAfter` hold together only for an inverted range (end + 1 < start) |
| Offsets.MissingRangeIsBeforeAndAfter | esprimaJsContentAssist.js:394-409 | a node without a range is both before and after every offset |
| Offsets.ScanDot | esprimaJsContentAssist.js:436-439 | the scan stops at or after its start, never passes a dot, and stops at a dot or at the search end |
| Offsets.AfterDot | esprimaJsContentAssist.js:421-446 | `afterDot` is false outside the member, inside the object, or before the property's start; when true, a dot lies between the object's last character and the cursor |
| Offsets.AfterDotCharacterised | esprimaJsContentAssist.js:421-446 | `afterDot` holds if and only if the three guards pass and the first dot after the object lies strictly before the cursor |
| Offsets.ScanDotFindsFirstDot | esprimaJsContentAssist.js:436-439 | when a dot is within reach, the scan stops exactly at the first one |
| Ast.AfterDotAt | esprimaJsContentAssist.js:421-436 | on a member-expression node, `afterDot` faults on a missing range in the order the code reads the ranges; otherwise it agrees with `Offsets.AfterDot` |
| Ast.SortSlots | esprimaJsContentAssist.js:314-326 | the sorted children are a permutation of the discovered ones, ordered by the comparator |
| Ast.Children | esprimaJsContentAssist.js:284-326 | the visited children are a permutation of the node's node-valued fields (and its target), each smaller than the parent, in non-decreasing range start, with every unranged child before every ranged one |
| Ast.FindRightMost | esprimaJsContentAssist.js:343-354 | the result is an identifier; an identifier is its own right-most segment; anything but an identifier or member expression has none; the found identifier's target is the object it is the property of |
| Visitor.VisitSkipsOwnPost | esprimaJsContentAssist.js:281-337 | unless the operation descends and the children's walk goes on to the end, the node's own post-operation does not run: any post-operation that agrees on the node's proper descendants (the slots reached through `Children`) gives the same outcome |
| Visitor.VisitPostLocal | esprimaJsContentAssist.js:281-337 | a walk runs the post-operation only on the node and the slots reached from it through `Children`: post-operations that agree there give the same outcome |
| Visitor.VisitFromPostLocal | esprimaJsContentAssist.js:329-334 | the loop over the children runs the post-operation only on the parent's proper descendants: post-operations that agree there give the same outcome |
| Visitor.NotBelowItself | esprimaJsContentAssist.js:329-334 | no node is its own proper descendant, so the loop over the children never runs the parent's own post-operation |
| Visitor.VisitKeeps | esprimaJsContentAssist.js:281-337 | a property of the walk's state that every operation and post-operation keeps holds of the state any walk ends in |
| Visitor.VisitFromKeeps | esprimaJsContentAssist.js:329-331 | the loop over the children, stopping at the first child whose walk does not continue, keeps any such property |
| Catalog.Seed | esprimaJsContentAssist.js:20-268 | the catalog has exactly the thirteen built-in type names; `Object` has no prototype and every other type has prototype `Object` |
| Strings.NatToStringInjective | esprimaJsContentAssist.js:779-781 | different counter values render to different decimal strings |
| Strings.FirstCharIsUpperMeaning | esprimaJsContentAssist.js:603 | a name counts as capitalised exactly when it is empty or its first character is not a lower-case letter |
| TypeEnv.CounterNameInjective | esprimaJsContentAssist.js:779-781 | `"Object~" + n` names are distinct for distinct counters |
| TypeEnv.NewScope | esprimaJsContentAssist.js:783-793 | pushes the fresh name `Object~<count>`, whose empty descriptor has the previous top as prototype; the counter advances and no other descriptor changes |
| TypeEnv.NewScopeFresh | esprimaJsContentAssist.js:783-793 | in a valid environment the pushed name was not a type name before |
| TypeEnv.ValidNewScope | esprimaJsContentAssist.js:783-793 | `newScope` keeps the environment invariant (every prototype chain ends, fresh names are unused, the stack names descriptors) |
| TypeEnv.NewObject | esprimaJsContentAssist.js:796-810 | opens a new scope, creates the object type (the given truthy name or a fresh one) with prototype `Object` and no members, and binds `this` to it in the new scope |
| TypeEnv.ValidNewObject | esprimaJsContentAssist.js:796-810 | `newObject` keeps the invariant for every name except `Object` and names containing `~` |
| TypeEnv.ObjectConstructorMakesCycle | esprimaJsContentAssist.js:796-810 | `newObject("Object")` makes `Object` its own prototype |
| TypeEnv.SelfPrototypedObjectOverflows | esprimaJsContentAssist.js:889-894 | on that cycle, a lookup of a name nothing binds never ends, and reports a stack overflow |
| TypeEnv.PopScope | esprimaJsContentAssist.js:813-819 | removes exactly the top scope and nulls `this` in its descriptor; no descriptor is deleted and nothing else changes; faults on an empty stack or a missing descriptor |
| TypeEnv.ValidPopScope | esprimaJsContentAssist.js:813-819 | `popScope` keeps the invariant |
| TypeEnv.Scope | esprimaJsContentAssist.js:826-829 | a truthy target type is the scope; otherwise the innermost scope on the stack, and no scope exactly when the stack is empty |
| TypeEnv.AddVariable | esprimaJsContentAssist.js:835-837 | binds the name to the type (or `Object`) in the scope's descriptor and changes nothing else; faults exactly when the scope names no descriptor |
| TypeEnv.ValidAddVariable | esprimaJsContentAssist.js:835-837 | `addVariable` keeps the invariant |
| TypeEnv.AddFunction | esprimaJsContentAssist.js:870-874 | succeeds exactly when the scope names a descriptor with `$$args`; then binds the name to the type (or `Object`) in it, records the parameter names under the name in `$$args`, and leaves its other members, the other descriptors, the stack and the counter as they were; otherwise faults on the missing descriptor or the missing `$$args` |
| TypeEnv.ValidAddFunction | esprimaJsContentAssist.js:870-874 | `addFunction` keeps the invariant |
| TypeEnv.AddOrSetVariable | esprimaJsContentAssist.js:848-867 | as written: only the scope's own descriptor is searched; a name the scope does not bind, that is a string property, in a scope with a prototype, leaves the environment unchanged; otherwise the name is bound in the scope; the scope's other members, its `$$args` and every other descriptor are kept; faults exactly when the scope names no descriptor |
| TypeEnv.IntendedReassigns | esprimaJsContentAssist.js:844-867 | as documented (replace the binding where the hierarchy has it, else add it), after the assignment the name resolves from the scope to the assigned type |
| TypeEnv.AsWrittenAgreesOnOwnBinding | esprimaJsContentAssist.js:853-858 | when the scope binds the name itself, the code and its documentation agree |
| TypeEnv.AsWrittenDropsStringNames | esprimaJsContentAssist.js:853-862 | assigning to a string-property name such as `length` changes nothing as written, while the documented behaviour makes the name resolve to the new type |
| TypeEnv.AsWrittenShadowsInheritedBinding | esprimaJsContentAssist.js:853-866 | as written, an inherited name is bound in the scope and the prototype keeps its binding; as documented, the prototype's binding is replaced and the scope is untouched |
| TypeEnv.Binding | esprimaJsContentAssist.js:880-887 | a truthy own member is the answer; failing that, a descriptor with a prototype answers nothing, and one without a prototype answers with its truthy `$$` alias, if any |
| TypeEnv.LookupFrom | esprimaJsContentAssist.js:878-897 | a lookup result is never empty; a descriptor that binds the name answers it; a missing descriptor faults |
| TypeEnv.LookupName | esprimaJsContentAssist.js:877-899 | with no scope the lookup faults; any type found is non-empty |
| TypeEnv.LookupFindsFirstBinding | esprimaJsContentAssist.js:877-899 | on a chain that ends, the lookup yields `v` if and only if the first descriptor on the chain that binds the name binds it to `v` |
| TypeEnv.LookupNoneIffUnbound | esprimaJsContentAssist.js:889-896 | on a chain that ends, the lookup yields `null` if and only if no descriptor on the chain binds the name |
| TypeEnv.LookupTerminates | esprimaJsContentAssist.js:877-899 | a lookup along a chain that ends within the step budget does not fault |
| TypeEnv.ValidLookupSucceeds | esprimaJsContentAssist.js:877-899 | in a valid environment a lookup from an existing type never faults |
| TypeEnv.InitialValid | esprimaJsContentAssist.js:772-774 | the starting environment satisfies the invariant |
| Proposals.TemplateFrom | esprimaJsContentAssist.js:364-374 | the loop only extends the completion, and records for each remaining parameter a position whose slice of the completion is that parameter |
| Proposals.TemplateFromJoins | esprimaJsContentAssist.js:364-374 | after the loop, the completion is the head followed by all parameters joined by `", "` |
| Proposals.Template | esprimaJsContentAssist.js:360-377 | no parameters give `name()` and no positions; otherwise the completion is `name(` + parameters joined by `", "` + `)`, with one position per parameter, in order, of the parameter's length, marking where that parameter sits in the completion |
| Proposals.Decoded | esprimaJsContentAssist.js:913-918 | the `$$` alias is stripped only at a descriptor without a prototype; other names are kept |
| Proposals.ProposalForProper | esprimaJsContentAssist.js:919-940 | a member that passes the filters yields a proposal whose completion and description start with the prefix, and which is not `this` in a member completion |
| Proposals.OwnFrom | esprimaJsContentAssist.js:908-943 | the proposals of one descriptor are exactly those of its members that pass the filters; the loop faults if and only if the descriptor has no `$$args` and some member passes |
| Proposals.Candidates | esprimaJsContentAssist.js:901-947 | the chain walk faults on a missing descriptor or a faulting descriptor; otherwise the result is the own proposals of the target type, followed, when it has a prototype, by the prototype's whole result, in order and with duplicates kept |
| Proposals.ShadowedMemberProposedTwice | esprimaJsContentAssist.js:901-947 | a member that a subtype shadows is proposed twice, once for the subtype and once for its prototype, and both copies survive sorting |
| Proposals.CandidatesAlongChain | esprimaJsContentAssist.js:901-947 | a proposal is made if and only if it is the proposal of a shown member of some descriptor on the prototype chain from the target type, inherited members included |
| Proposals.InheritedFromObject | esprimaJsContentAssist.js:943-947 | a member shown at the root `Object` is proposed at every type directly under it whose descriptor has `$$args` |
| Proposals.HasOwnPropertyProposal | esprimaJsContentAssist.js:913-931 | the root's `$$hasOwnProperty` is shown for an empty prefix, decoded and completed as `hasOwnProperty(property)` |
| Proposals.NumberProposesHasOwnProperty | esprimaJsContentAssist.js:901-947 | completing after the dot of a number proposes the inherited `hasOwnProperty(property)` of `Object` |
| Proposals.CandidatesProper | esprimaJsContentAssist.js:901-948 | every proposal the chain walk makes is proper for the request |
| Proposals.CreateProposals | esprimaJsContentAssist.js:901-948 | a falsy target type means the current scope (faulting with no scope); the proposals are exactly those of the shown members along the prototype chain from that type, and every one is proper |
| Proposals.CreateProposalsOrder | esprimaJsContentAssist.js:901-948 | the resolved type's own proposals come first; when it has a prototype, the prototype's whole result is appended after them, in order and without removing duplicates |
| Proposals.ArgumentsMemberCompletionFaults | esprimaJsContentAssist.js:905-926 | completing after `arguments.` faults, because `Arguments` has no `$$args` |
| Proposals.SortProposals | esprimaJsContentAssist.js:959-967 | the result is a permutation of the input, ascending by description |
| Classifier.FindParentPre | esprimaJsContentAssist.js:472-490 | a node whose range misses the cursor (other than the program) is skipped; an entered identifier ends the walk unpushed; any other entered node is pushed; only a property-less member expression after its dot ends the walk otherwise |
| Classifier.FindParentPost | esprimaJsContentAssist.js:458-470 | leaving the program, or a block that touches the cursor, ends the walk; leaving any other node pops it |
| Classifier.FindParentEntered | esprimaJsContentAssist.js:457-500 | every node left on the parent stack touches the cursor (or is the program) and none is an identifier |
| Classifier.FindParentVisit | esprimaJsContentAssist.js:457-490 | below any visited slot, the walk fails only on a missing range, keeps the stack a chain from the root through visited children, and, when it goes on, leaves the stack as it found it |
| Classifier.FindParent | esprimaJsContentAssist.js:492-500 | the stack the walk leaves starts at the root and each entry is a child the walk visits below the one before it; only a missing range escapes as a fault, "done" does not |
| Classifier.ParentIsNeverIdentifier | esprimaJsContentAssist.js:474-477 | the innermost entered node is never an identifier |
| Classifier.EmptyStatement | esprimaJsContentAssist.js:521-529 | the synthetic statement is an expression statement over an empty identifier, both with range `[offset, offset+1]` |
| Classifier.SpliceAppends | esprimaJsContentAssist.js:521-531 | splicing at a program or block appends the statement to its body and keeps its identity and range |
| Classifier.SpliceAbsent | esprimaJsContentAssist.js:531 | splicing leaves a tree without the target node unchanged |
| Classifier.Classify | esprimaJsContentAssist.js:502-543 | the completion is a member completion if and only if the innermost node is a member expression with the cursor on its property or after its dot; the tree gains the synthetic statement exactly for an empty prefix in a program or block; no other outcome than member or top exists |
| Classifier.ShouldVisit | esprimaJsContentAssist.js:453-544 | the only fault is a missing range, from the walk or from the innermost member expression; the completion is a member completion exactly when the innermost entry is a member expression with the cursor on its property or after its dot, and then the cursor lies inside it; the tree gains the synthetic statement exactly when the prefix is empty at a program or block, which is then a top completion |
| Classifier.TopLevelInsertion | esprimaJsContentAssist.js:512-531 | at top level with an empty prefix, the completion is a top completion and the program gains exactly the synthetic statement at its end |
| Inference.LiteralType | esprimaJsContentAssist.js:573-575 | strings, numbers and booleans have their own types; `null` and regular expressions are `Object` |
| Inference.KeyNames | esprimaJsContentAssist.js:584-593 | the declared keys are exactly the truthy identifier names of the literal's keys |
| Inference.DeclareParams | esprimaJsContentAssist.js:616-622 | every parameter name becomes an `Object` member of the scope and nothing else changes; faults only with parameters and no scope |
| Inference.EnterFunction | esprimaJsContentAssist.js:600-612 | a capitalised (or empty) name opens two scopes, and types the declaration by its name, or by a fresh `Object~<n>` for the empty name; any other name opens one scope and types it `Function`; the scopes below are kept |
| Inference.PreOp | esprimaJsContentAssist.js:551-640 | the pre-operation never proposes and never ends the walk; it skips exactly a variable declaration that starts after the cursor |
| Inference.BlockOpensScope | esprimaJsContentAssist.js:565-566 | entering a block pushes a fresh scope, which becomes the block's type |
| Inference.ObjectLiteralDeclaresKeys | esprimaJsContentAssist.js:578-593 | entering an object literal opens a scope, creates a fresh object type as the literal's type, and declares every truthy key name in it as `Object` |
| Inference.FunctionDeclarationOpensScopes | esprimaJsContentAssist.js:594-623 | entering a function declaration keeps the scopes below and pushes two scopes for a constructor name and one otherwise, typing the declaration by its name, by a fresh `Object~<n>` for the empty name, or as `Function` |
| Inference.ConstructorLeaksScope | esprimaJsContentAssist.js:603-612 | leaving a constructor whose body left the stack as it found it pops only one of the two scopes entering it pushed |
| Inference.FunctionExpressionOpensNoScope | esprimaJsContentAssist.js:563-638 | entering a function expression changes nothing |
| Inference.LeavingClosesScope | esprimaJsContentAssist.js:651-653 | leaving a block, catch clause or function pops exactly the top scope and unbinds its `this` |
| Inference.LeavingPops | esprimaJsContentAssist.js:651-653 | whenever leaving a block, catch clause or function continues, the stack was non-empty and lost exactly its innermost scope, whatever state the body left |
| Inference.DeclaratorWithoutScopeFaults | esprimaJsContentAssist.js:696-703 | with no scope left, leaving a variable declarator faults |
| Inference.TopLevelFunctionExpressionFaults | esprimaJsContentAssist.js:694-703 | leaving a top-level function expression pops the global scope, after which its declarator faults |
| Inference.MemberPost | esprimaJsContentAssist.js:654-661 | leaving a member expression only adds proper proposals, and adds none unless the cursor follows its dot |
| Inference.MemberExpressionAfterDot | esprimaJsContentAssist.js:654-661 | after its dot, a member expression proposes the members of its object's type and takes its property's type (its object's without a property) |
| Inference.CallExpressionType | esprimaJsContentAssist.js:662-663 | a call has its callee's type, or `Object` |
| Inference.BinaryExpressionType | esprimaJsContentAssist.js:682-690 | a binary expression is `Number` if and only if its operator is `+ - * /`, and `Object` otherwise |
| Inference.UnaryExpressionType | esprimaJsContentAssist.js:691-693 | unary and update expressions are `Number` |
| Inference.DeclaratorBindsName | esprimaJsContentAssist.js:696-703 | leaving a declarator succeeds exactly when the current scope has a descriptor; it then takes its initialiser's type (`Object` without one), and the declared name resolves to it in that scope |
| Inference.AssignmentExpressionType | esprimaJsContentAssist.js:705-712 | an assignment takes its right side's type, or `Object` |
| Inference.AssignmentPost | esprimaJsContentAssist.js:705-712 | leaving an assignment never ends the walk and never proposes |
| Inference.AssignmentRebindsRightMost | esprimaJsContentAssist.js:705-712 | the right-most identifier of the left side is assigned the right side's type in its target's scope: the step fails exactly when that scope has no descriptor, and otherwise the name resolves to that type from the scope, unless a string-property name is dropped; a left side without one binds nothing |
| Inference.RecordKeys | esprimaJsContentAssist.js:667-680 | taking the literal's elements in order keeps the proposals, the stack, the counter and the set of type names; names no element carries keep their members, and nodes that are no key keep their types |
| Inference.RecordKeysTypesKey | esprimaJsContentAssist.js:667-680 | after the loop, each key name has, in the literal's type, the type of the value of the last element with that key, when no key is the literal itself or that value |
| Inference.IdentifierUnderCursorProposes | esprimaJsContentAssist.js:713-718 | the identifier under the cursor ends the walk with the members of its scope (its target's type for a property) added to the proposals |
| Inference.IdentifierType | esprimaJsContentAssist.js:720-728 | any other identifier takes the type its name resolves to, or `Object` |
| Inference.PostOp | esprimaJsContentAssist.js:646-736 | the post-operation only adds proper proposals, ends the walk only at an identifier, and otherwise leaves the node with a non-empty type |
| Inference.Collect | esprimaJsContentAssist.js:950-958 | every proposal the inference walk collects is proper for the request |
| Inference.CollectProper | esprimaJsContentAssist.js:950-958 | properness of the proposals is kept by every step of the walk |
| Inference.ComputeProposals | esprimaJsContentAssist.js:752-972 | the result is the walk's proposals, permuted into ascending order of description, each starting with the prefix and replacing from the cursor offset less the prefix's length; a classifier fault escapes |
| Inference.MemberCompletionOmitsThis | esprimaJsContentAssist.js:919-923 | a member completion never proposes `this` |

## Left out

- Parsing (`parse`, esprimaJsContentAssist.js:738-744) calls into the Esprima parser. The tree is an input to the model.
- indexerService.js is not part of this model. It is storage, network and timer plumbing around the engine.
- Logging and rethrowing in `computeProposals` (:973-979) is not modelled. A fault is returned as `Err`, and the console output is dropped.
- Reflective child discovery (`for (key in node)`, :286-312) becomes an explicit list of each node kind's node-valued fields. The `range` and `errors` fields are not nodes in the datatype, so they are never descended into.
- Visitor.Visit: the children are ordered by a stable insertion sort. `Array.prototype.sort` is not required to be stable, so the relative order of children with equal range starts is one admissible order, not the only one.
- Proposals.OwnFrom: members are enumerated in insertion order. JavaScript enumerates integer-like property names first, and identifiers never are integer-like, so no reachable name is affected.
- TypeEnv.LookupName: names a plain JavaScript object inherits from `Object.prototype` (`constructor`, `toString`, ...) are not modelled. A descriptor answers only for its own members, whereas the engine's lookups, `$$args` reads and `for`-`in` filters would see those inherited properties.
- Proposals.Candidates: the same `Object.prototype` gap. `types[t]` for a type named `toString` or `constructor` finds an inherited function in the engine, where the model reports a missing descriptor.
- Inference.PreOp: the same gap for `new X()`. A constructor named after an `Object.prototype` property gives the expression a type name that the engine's `types` table appears to hold and the model's does not.
- Identifiers named `$$args` or `$$prototype` are treated as ordinary members. In the engine they would read or overwrite the descriptor's bookkeeping.
- TypeEnv.AddOrSetVariable: the string-property names are those of ECMAScript 5.1 (section 15.5.4 and Annex B.2.3 of ECMA-262). Host engines also give strings `anchor`, `big`, `bold`, `fixed`, `link`, `small`, `sub`, `sup`, `trimLeft`, `trimRight` and, in later editions, `startsWith`, `includes`, `repeat`, `at` and more; assigning to one of those is dropped by the engine but bound by the model.
- Proposals.SortProposals: JavaScript's string `<` and `.length` count UTF-16 code units, while a Dafny `char` is a Unicode scalar value. For names outside the Basic Multilingual Plane the sort order and the `escapePosition` offset can differ from the engine's.
- Strings.UpperChar: only ASCII letters change case. The constructor test on a non-ASCII first letter is not modelled.
- Inference.FunctionPre stores parameter names (`params[i].name`) in `$$args`, where the engine stores the parameter nodes. `calculateFunctionProposal` reads them back through `.name`, so the proposals agree. A parameter with an empty name is not modelled: the engine would render that node object as text.
- The `isConstructor` flag (:567-570, :605) has no effect in the engine and is not modelled.
- Classifier.FindParentPre: the check for completing on the word `function` (:478-482) reads the misspelt field `nody`, which no node has, so it never fires and is left out.
- Inference.ComputeProposals: the `return {}` branch for an invalid location (:969-972) cannot be reached, because `shouldVisit` never returns a falsy kind (see below). Only `selection.start` is an input: the engine ignores the selection's length.
- Node identities are assumed distinct. The engine decorates node objects in place, and the model keys those decorations by `NodeId`.
- TypeEnv.ChainFuel: prototype walks carry a step budget of `count + 1`. In a valid environment every chain ends within it, so the budget runs out only on a prototype cycle. There the engine recurses until the JavaScript stack overflows, which the model reports as `StackOverflow`.
- Inference.CatchPre: a catch clause always has a parameter. ECMAScript 5 requires one, so the `if (node.param)` guard (:627) is always true.
- TypeEnv.AddOrSetIntended: its own contract states only that faults and the stack and shape are preserved. The rebinding property is stated by TypeEnv.IntendedReassigns.
- No theorem covers scope-stack balance over a whole walk. The stack is not balanced as written (see below). The per-step lemmas state what each node does to it.

## The code as written

The model follows the code where it departs from its own comments. Each
departure is exhibited by a lemma:

- `shouldVisit` never answers "no completion". The branches for a variable
  declarator name and a function name (:533-540) are nested inside the
  program-or-block branch, where their conditions cannot hold. Together with
  the `nody` misspelling (:479), this means the classifier answers only
  "member" or "top" (`Classifier.Classify`).
- `addOrSetVariable` (:848-867) is documented to search the prototype
  hierarchy. It follows `current.$$prototype`, which is a type name and not a
  descriptor, so only the starting descriptor is searched. When the name is a
  property of JavaScript strings (such as `length`), the assignment is
  silently lost. `TypeEnv.AddOrSetVariable` models the code as written, and
  `TypeEnv.AddOrSetIntended` models the documented behaviour.
  `TypeEnv.AsWrittenDropsStringNames` and
  `TypeEnv.AsWrittenShadowsInheritedBinding` exhibit where they differ. The
  inference walk uses the code as written.
- The scope stack is unbalanced. A function declaration whose name starts
  with anything but a lower-case ASCII letter (an upper-case letter, `_`,
  `$`, a digit, or an empty name) pushes two scopes and pops one
  (`Inference.ConstructorLeaksScope`). A function expression pushes none and
  pops one, so `var f = function () {};` at top level empties the stack, and
  the declaration then faults (`Inference.TopLevelFunctionExpressionFaults`).
- Duplicates are kept. `createProposals` appends the prototype's proposals
  after the own ones and never removes a repeated name, so a member that a
  subtype shadows is offered twice. Whether that is intended is not stated
  in the code; the model keeps the duplicate
  (`Proposals.ShadowedMemberProposedTwice`).
- Completing after `arguments.` faults, because the `Arguments` descriptor
  has no `$$args` table (`Proposals.ArgumentsMemberCompletionFaults`).
- `function Object() {}` replaces the `Object` descriptor with one whose
  prototype is `Object`. Any later lookup of an unbound name then recurses
  forever (`TypeEnv.ObjectConstructorMakesCycle`,
  `TypeEnv.SelfPrototypedObjectOverflows`).

=== FILE: ast.dfy ===
/**
 * The abstract syntax tree the engine works on, as produced by the parser
 * (parsing itself is not modelled: the tree is an input), together with the
 * child-discovery and ordering rules of the generic visitor.
 *
 * Node identity is the `id` field: the engine decorates nodes in place with an
 * inferred type and a `target`; the model keeps those decorations in maps keyed
 * by `NodeId`. Parsed nodes carry distinct `Parsed(n)` ids; the two nodes the
 * position classifier fabricates carry the two synthetic ids.
 */
module Ast {

  import opened Base
  import opened Offsets

  datatype NodeId = Parsed(n: nat) | SyntheticStatement | SyntheticIdentifier

  /** Only the JavaScript `typeof` of a literal's value matters to the engine. */
  datatype LiteralValue = StringLiteral | NumberLiteral | BooleanLiteral | NullLiteral | RegexLiteral

  /** An identifier in a declaring position (function name, parameter, declarator name, catch parameter). */
  datatype Ident = Ident(id: NodeId, range: Option<Range>, name: string)

  datatype Node = Node(id: NodeId, range: Option<Range>, kind: Kind)

  datatype Kind =
    | Program(statements: seq<Node>)
    | BlockStatement(statements: seq<Node>)
    | ExpressionStatement(expression: Node)
    | VariableDeclaration(declarations: seq<Node>)
    | VariableDeclarator(declId: Ident, init: Option<Node>)
    | Identifier(name: string)
    | ThisExpression
    | Literal(literal: LiteralValue)
    | ArrayExpression(elements: seq<Node>)
    | ObjectExpression(entries: seq<Entry>)
    | Property(key: Node, value: Node)
    | FunctionDeclaration(funId: Ident, params: seq<Ident>, funBody: Node)
    | FunctionExpression(funIdOpt: Option<Ident>, params: seq<Ident>, funBody: Node)
      /** `property` is absent only in a malformed tree */
    | MemberExpression(obj: Node, property: Option<Node>)
    | CallExpression(callee: Node, arguments: seq<Node>)
    | NewExpression(callee: Node, arguments: seq<Node>)
    | AssignmentExpression(left: Node, right: Node)
    | BinaryExpression(operator: string, left: Node, right: Node)
    | UnaryExpression(argument: Node)
    | UpdateExpression(argument: Node)
    | CatchClause(param: Ident, catchBody: Node)
      /** every other statement or expression form: the engine has no rule for it and only descends */
    | Other(children: seq<Node>)

  /**
   * An element of an object literal's `properties` array: a proper `Property`
   * node, or a bare key/value pair without a `type` (older parser output).
   */
  datatype Entry = PropertyNode(node: Node) | KeyValue(key: Node, value: Node)

  /** The identifier node for a declaring identifier. */
  function IdentNode(i: Ident): Node {
    Node(i.id, i.range, Identifier(i.name))
  }

  /** `node.name` when the node is an identifier with a non-empty (truthy) name. */
  function NameOf(n: Node): Option<string> {
    if n.kind.Identifier? && n.kind.name != "" then Some(n.kind.name) else None
  }

  /** The key and value of an object-literal element, if it has them. */
  function EntryKeyValue(e: Entry): Option<(Node, Node)> {
    match e
    case PropertyNode(n) => if n.kind.Property? then Some((n.kind.key, n.kind.value)) else None
    case KeyValue(k, v) => Some((k, v))
  }

  // ---------------------------------------------------------------------------
  // Size measure (termination of the visitor)

  function Weight(n: Node): nat
    decreases n
  {
    1 + match n.kind
      case Program(ss) => WeightSeq(ss)
      case BlockStatement(ss) => WeightSeq(ss)
      case ExpressionStatement(e) => Weight(e)
      case VariableDeclaration(ds) => WeightSeq(ds)
      case VariableDeclarator(_, init) => 1 + (if init.Some? then Weight(init.value) else 0)
      case Identifier(_) => 0
      case ThisExpression => 0
      case Literal(_) => 0
      case ArrayExpression(es) => WeightSeq(es)
      case ObjectExpression(entries) => WeightEntries(entries)
      case Property(k, v) => Weight(k) + Weight(v)
      case FunctionDeclaration(_, params, body) => 1 + |params| + Weight(body)
      case FunctionExpression(fid, params, body) => (if fid.Some? then 1 else 0) + |params| + Weight(body)
      case MemberExpression(o, p) => Weight(o) + (if p.Some? then Weight(p.value) else 0)
      case CallExpression(c, args) => Weight(c) + WeightSeq(args)
      case NewExpression(c, args) => Weight(c) + WeightSeq(args)
      case AssignmentExpression(l, r) => Weight(l) + Weight(r)
      case BinaryExpression(_, l, r) => Weight(l) + Weight(r)
      case UnaryExpression(a) => Weight(a)
      case UpdateExpression(a) => Weight(a)
      case CatchClause(_, body) => 1 + Weight(body)
      case Other(cs) => WeightSeq(cs)
  }

  function WeightSeq(ss: seq<Node>): nat
    decreases ss
  {
    if |ss| == 0 then 0 else Weight(ss[0]) + WeightSeq(ss[1..])
  }

  function WeightEntry(e: Entry): nat
    decreases e
  {
    match e
    case PropertyNode(n) => Weight(n)
    case KeyValue(k, v) => Weight(k) + Weight(v)
  }

  function WeightEntries(es: seq<Entry>): nat
    decreases es
  {
    if |es| == 0 then 0 else WeightEntry(es[0]) + WeightEntries(es[1..])
  }

  lemma {:induction false} WeightSeqBounds(ss: seq<Node>, i: int)
    requires 0 <= i < |ss|
    ensures Weight(ss[i]) <= WeightSeq(ss)
    decreases |ss|
  {
    if i > 0 {
      WeightSeqBounds(ss[1..], i - 1);
    }
  }

  // ---------------------------------------------------------------------------
  // Child discovery

  /**
   * A node to visit together with its `target`: the object of the member
   * expression whose property it is. The inference walk sets
   * `property.target = object` before descending into a member expression, and
   * the reflective child discovery then also finds that object as a child of
   * the property.
   */
  datatype Slot = Slot(node: Node, target: Option<Node>)

  function SlotWeight(s: Slot): nat {
    Weight(s.node) + (if s.target.Some? then Weight(s.target.value) else 0)
  }

  function Plain(ss: seq<Node>): (r: seq<Slot>)
    ensures |r| == |ss|
    ensures forall i :: 0 <= i < |r| ==> r[i] == Slot(ss[i], None)
  {
    seq(|ss|, i requires 0 <= i < |ss| => Slot(ss[i], None))
  }

  function EntrySlots(es: seq<Entry>): seq<Slot>
    decreases es
  {
    if |es| == 0 then []
    else
      (match es[0]
       case PropertyNode(n) => [Slot(n, None)]
       case KeyValue(k, v) => [Slot(k, None), Slot(v, None)])
      + EntrySlots(es[1..])
  }

  lemma PlainSmaller(ss: seq<Node>)
    ensures forall c :: c in Plain(ss) ==> c.target.None? && Weight(c.node) <= WeightSeq(ss)
  {
    forall c | c in Plain(ss)
      ensures c.target.None? && Weight(c.node) <= WeightSeq(ss)
    {
      var i :| 0 <= i < |ss| && Plain(ss)[i] == c;
      WeightSeqBounds(ss, i);
    }
  }

  function ParamNodes(params: seq<Ident>): (r: seq<Slot>)
    ensures forall c :: c in r ==> c.target.None? && Weight(c.node) == 1
  {
    Plain(seq(|params|, i requires 0 <= i < |params| => IdentNode(params[i])))
  }

  /** Whether the node's fields include a sequence of nodes. */
  predicate HasNodeList(k: Kind) {
    k.Program? || k.BlockStatement? || k.VariableDeclaration? || k.ArrayExpression? || k.ObjectExpression?
    || k.CallExpression? || k.NewExpression? || k.Other?
  }

  /**
   * The node-valued fields of a node in the parser's field order, before
   * sorting. With `followTargets`, the property of a member expression carries
   * the object as its target.
   */
  function OwnSlots(n: Node, followTargets: bool): (r: seq<Slot>)
    ensures forall c :: c in r ==> SlotWeight(c) < Weight(n)
  {
    if HasNodeList(n.kind) then ListSlots(n) else FieldSlots(n, followTargets)
  }

  function ListSlots(n: Node): (r: seq<Slot>)
    ensures forall c :: c in r ==> SlotWeight(c) < Weight(n)
  {
    match n.kind
    case Program(ss) => PlainSmaller(ss); Plain(ss)
    case BlockStatement(ss) => PlainSmaller(ss); Plain(ss)
    case VariableDeclaration(ds) => PlainSmaller(ds); Plain(ds)
    case ArrayExpression(es) => PlainSmaller(es); Plain(es)
    case ObjectExpression(entries) => EntrySlotsSmaller(entries); EntrySlots(entries)
    case CallExpression(c, args) => PlainSmaller(args); [Slot(c, None)] + Plain(args)
    case NewExpression(c, args) => PlainSmaller(args); [Slot(c, None)] + Plain(args)
    case Other(cs) => PlainSmaller(cs); Plain(cs)
    case _ => []
  }

  function FieldSlots(n: Node, followTargets: bool): (r: seq<Slot>)
    ensures forall c :: c in r ==> SlotWeight(c) < Weight(n)
  {
    match n.kind
    case ExpressionStatement(e) => [Slot(e, None)]
    case VariableDeclarator(id, init) => [Slot(IdentNode(id), None)] + (if init.Some? then [Slot(init.value, None)] else [])
    case Property(k, v) => [Slot(k, None), Slot(v, None)]
    case FunctionDeclaration(_, _, _) => FunctionSlots(n)
    case FunctionExpression(_, _, _) => FunctionSlots(n)
    case MemberExpression(o, p) =>
      [Slot(o, None)] + (if p.Some? then [Slot(p.value, if followTargets then Some(o) else None)] else [])
    case AssignmentExpression(l, r) => [Slot(l, None), Slot(r, None)]
    case BinaryExpression(_, l, r) => [Slot(l, None), Slot(r, None)]
    case UnaryExpression(a) => [Slot(a, None)]
    case UpdateExpression(a) => [Slot(a, None)]
    case CatchClause(param, body) => [Slot(IdentNode(param), None), Slot(body, None)]
    case _ => []
  }

  function FunctionSlots(n: Node): (r: seq<Slot>)
    requires n.kind.FunctionDeclaration? || n.kind.FunctionExpression?
    ensures forall c :: c in r ==> SlotWeight(c) < Weight(n)
  {
    match n.kind
    case FunctionDeclaration(id, params, body) =>
      [Slot(IdentNode(id), None)] + ParamNodes(params) + [Slot(body, None)]
    case FunctionExpression(fid, params, body) =>
      (if fid.Some? then [Slot(IdentNode(fid.value), None)] else []) + ParamNodes(params) + [Slot(body, None)]
  }

  /**
   * All children of a slot before sorting: the node's own fields and, with
   * `followTargets`, the slot's target (attached after parsing, so it is the
   * last field enumerated).
   */
  function RawSlots(s: Slot, followTargets: bool): (r: seq<Slot>)
    ensures forall c :: c in r ==> SlotWeight(c) < SlotWeight(s)
  {
    OwnSlots(s.node, followTargets) + (if followTargets && s.target.Some? then [Slot(s.target.value, None)] else [])
  }

  lemma {:induction false} EntrySlotsSmaller(es: seq<Entry>)
    ensures forall c :: c in EntrySlots(es) ==> c.target.None? && Weight(c.node) <= WeightEntries(es)
    decreases es
  {
    if |es| > 0 {
      EntrySlotsSmaller(es[1..]);
    }
  }

  // ---------------------------------------------------------------------------
  // Ordering of children: ascending range start, children without a range first

  /** The visitor's comparator says `a` need not come after `b`. */
  predicate SlotLe(a: Slot, b: Slot) {
    a.node.range.None? || (b.node.range.Some? && a.node.range.value.start <= b.node.range.value.start)
  }

  predicate SortedSlots(s: seq<Slot>) {
    forall i, j :: 0 <= i < j < |s| ==> SlotLe(s[i], s[j])
  }

  /** Insert `x` after every element that is not after it (keeps equal keys in arrival order). */
  function InsertSlot(s: seq<Slot>, x: Slot): seq<Slot>
    decreases |s|
  {
    if |s| == 0 || SlotLe(s[|s| - 1], x) then s + [x]
    else InsertSlot(s[..|s| - 1], x) + [s[|s| - 1]]
  }

  lemma {:induction false} InsertSlotPermutes(s: seq<Slot>, x: Slot)
    ensures multiset(InsertSlot(s, x)) == multiset(s) + multiset{x}
    decreases |s|
  {
    if |s| > 0 && !SlotLe(s[|s| - 1], x) {
      assert s == s[..|s| - 1] + [s[|s| - 1]];
      InsertSlotPermutes(s[..|s| - 1], x);
    }
  }

  lemma {:induction false} InsertSlotSorted(s: seq<Slot>, x: Slot)
    requires SortedSlots(s)
    ensures SortedSlots(InsertSlot(s, x))
    decreases |s|
  {
    if |s| > 0 && !SlotLe(s[|s| - 1], x) {
      var init, last := s[..|s| - 1], s[|s| - 1];
      var a := InsertSlot(init, x);
      InsertSlotSorted(init, x);
      InsertSlotPermutes(init, x);
      forall k | 0 <= k < |a|
        ensures SlotLe(a[k], last)
      {
        assert a[k] in multiset(a);
        if a[k] != x {
          assert a[k] in multiset(init);
          var i :| 0 <= i < |init| && init[i] == a[k];
          assert s[i] == a[k];
        }
      }
      assert InsertSlot(s, x) == a + [last];
    }
  }

  /** `children.sort(...)` with a stable sort. */
  function SortSlots(s: seq<Slot>): (r: seq<Slot>)
    ensures SortedSlots(r)
    ensures multiset(r) == multiset(s)
    decreases |s|
  {
    if |s| == 0 then []
    else
      var init := SortSlots(s[..|s| - 1]);
      InsertSlotSorted(init, s[|s| - 1]);
      InsertSlotPermutes(init, s[|s| - 1]);
      assert s == s[..|s| - 1] + [s[|s| - 1]];
      InsertSlot(init, s[|s| - 1])
  }

  lemma SortedSlotsOrder(r: seq<Slot>)
    requires SortedSlots(r)
    ensures forall i, j :: 0 <= i < j < |r| && r[i].node.range.Some? && r[j].node.range.Some? ==>
      r[i].node.range.value.start <= r[j].node.range.value.start
    ensures forall i, j :: 0 <= i < j < |r| && r[j].node.range.None? ==> r[i].node.range.None?
  {
    forall i, j | 0 <= i < j < |r|
      ensures SlotLe(r[i], r[j])
    {
    }
  }

  lemma SameMultisetSmaller(r: seq<Slot>, raw: seq<Slot>, s: Slot)
    requires multiset(r) == multiset(raw)
    requires forall c :: c in raw ==> SlotWeight(c) < SlotWeight(s)
    ensures forall i :: 0 <= i < |r| ==> SlotWeight(r[i]) < SlotWeight(s)
  {
    forall i | 0 <= i < |r|
      ensures SlotWeight(r[i]) < SlotWeight(s)
    {
      assert r[i] in multiset(raw);
    }
  }

  /**
   * The children the visitor descends into, in visiting order: every child is
   * a discovered field of the node (never `range` or `errors`, which are not
   * nodes here), each is smaller than the parent, they are in non-decreasing
   * order of range start, and those without a range come first.
   */
  function Children(s: Slot, followTargets: bool): (r: seq<Slot>)
    ensures multiset(r) == multiset(RawSlots(s, followTargets))
    ensures forall i :: 0 <= i < |r| ==> SlotWeight(r[i]) < SlotWeight(s)
    ensures forall i, j :: 0 <= i < j < |r| && r[i].node.range.Some? && r[j].node.range.Some? ==>
      r[i].node.range.value.start <= r[j].node.range.value.start
    ensures forall i, j :: 0 <= i < j < |r| && r[j].node.range.None? ==> r[i].node.range.None?
  {
    var raw := RawSlots(s, followTargets);
    var r := SortSlots(raw);
    SortedSlotsOrder(r);
    SameMultisetSmaller(r, raw, s);
    r
  }

  /** Without targets every child slot is plain. */
  lemma ChildrenUntargeted(n: Node)
    ensures forall c :: c in Children(Slot(n, None), false) ==> c.target.None?
  {
    var raw := RawSlots(Slot(n, None), false);
    assert forall c :: c in raw ==> c.target.None? by {
      if HasNodeList(n.kind) {
        match n.kind
        case ObjectExpression(entries) => EntrySlotsSmaller(entries);
        case _ =>
      }
    }
    forall c | c in Children(Slot(n, None), false)
      ensures c.target.None?
    {
      assert c in multiset(raw);
    }
  }

  /**
   * `findRightMost(node)` paired with the target the found identifier has:
   * the right-most identifier of a dotted member chain, whose target is the
   * object of the member expression it is the property of.
   */
  function FindRightMost(n: Node, target: Option<Node>): (r: Option<Slot>)
    ensures r.Some? ==> r.value.node.kind.Identifier?
    ensures n.kind.Identifier? ==> r == Some(Slot(n, target))
    ensures !n.kind.Identifier? && !n.kind.MemberExpression? ==> r.None?
    ensures n.kind.MemberExpression? && n.kind.property.None? ==> r.None?
    ensures n.kind.MemberExpression? && n.kind.property.Some? ==>
      r == FindRightMost(n.kind.property.value, Some(n.kind.obj))
    ensures n.kind.MemberExpression? && n.kind.property.Some? && n.kind.property.value.kind.Identifier? ==>
      r == Some(Slot(n.kind.property.value, Some(n.kind.obj)))
    ensures r.Some? && !n.kind.Identifier? ==> r.value.target.Some? && SlotWeight(r.value) < Weight(n)
    decreases n
  {
    match n.kind
    case Identifier(_) => Some(Slot(n, target))
    case MemberExpression(o, p) => if p.Some? then FindRightMost(p.value, Some(o)) else None
    case _ => None
  }

  /** The range of a node whose `range` the engine reads; a missing one is a fault. */
  function RangeOf(n: Node): (r: Result<Range>)
    ensures r.Ok? <==> n.range.Some?
    ensures r.Ok? ==> r.value == n.range.value
  {
    if n.range.Some? then Ok(n.range.value) else Err(MissingRange)
  }

  /**
   * `afterDot(offset, memberExpr, contents)` on a member-expression node, with
   * the faults of reading a missing range in the order the code reads them:
   * the property's start (or the member's end), the member's range, and the
   * object's range only when the cursor is inside the member.
   */
  function AfterDotAt(offset: int, m: Node, contents: string): (r: Result<bool>)
    requires m.kind.MemberExpression?
    ensures r.Ok? && r.value ==>
      && m.range.Some? && m.kind.obj.range.Some?
      && (m.kind.property.Some? ==> m.kind.property.value.range.Some?)
      && AfterDot(offset, m.range.value, m.kind.obj.range.value,
                  if m.kind.property.Some? then m.kind.property.value.range else None, contents)
    ensures m.range.Some? && m.kind.obj.range.Some? && (m.kind.property.Some? ==> m.kind.property.value.range.Some?) ==>
      r == Ok(AfterDot(offset, m.range.value, m.kind.obj.range.value,
                       if m.kind.property.Some? then m.kind.property.value.range else None, contents))
    ensures r.Err? ==> r == Err(MissingRange)
    ensures m.range.None? ==> r == Err(MissingRange)
    ensures m.kind.property.Some? && m.kind.property.value.range.None? ==> r == Err(MissingRange)
    ensures m.range.Some? && InRange(offset, m.range.value) && m.kind.obj.range.None? ==> r == Err(MissingRange)
    ensures m.range.Some? && !InRange(offset, m.range.value) && (m.kind.property.Some? ==> m.kind.property.value.range.Some?) ==>
      r == Ok(false)
  {
    var o := m.kind.obj;
    var p := m.kind.property;
    if p.Some? && p.value.range.None? then Err(MissingRange)
    else if m.range.None? then Err(MissingRange)
    else if !InRange(offset, m.range.value) then Ok(false)
    else if o.range.None? then Err(MissingRange)
    else Ok(AfterDot(offset, m.range.value, o.range.value, if p.Some? then p.value.range else None, contents))
  }
}

=== FILE: bags.dfy ===
/**
 * A JavaScript object used as a property bag: string keys in insertion order,
 * each with one value. Assigning to an existing key keeps its position;
 * assigning to a new key appends it. `for (key in obj)` enumerates in this
 * order.
 */
module Bags {

  import opened Base

  type Bag<V> = seq<(string, V)>

  predicate UniqueKeys<V>(b: Bag<V>) {
    forall i, j :: 0 <= i < j < |b| ==> b[i].0 != b[j].0
  }

  predicate HasKey<V>(b: Bag<V>, k: string) {
    exists i :: 0 <= i < |b| && b[i].0 == k
  }

  /** `obj[k]` for an own key, nothing for an absent one. */
  function Get<V>(b: Bag<V>, k: string): (r: Option<V>)
    ensures r.Some? <==> HasKey(b, k)
    ensures r.Some? ==> exists i :: 0 <= i < |b| && b[i] == (k, r.value)
    decreases |b|
  {
    if |b| == 0 then None
    else if b[0].0 == k then Some(b[0].1)
    else
      var r := Get(b[1..], k);
      assert forall i :: 0 <= i < |b| - 1 ==> b[1..][i] == b[i + 1];
      r
  }

  /** `obj[k] = v`. */
  function Put<V>(b: Bag<V>, k: string, v: V): (r: Bag<V>)
    ensures HasKey(b, k) ==> |r| == |b|
    ensures !HasKey(b, k) ==> r == b + [(k, v)]
    ensures forall i :: 0 <= i < |b| ==> r[i].0 == b[i].0
    ensures forall i :: 0 <= i < |b| && b[i].0 != k ==> r[i] == b[i]
    decreases |b|
  {
    if |b| == 0 then [(k, v)]
    else if b[0].0 == k then [(k, v)] + b[1..]
    else [b[0]] + Put(b[1..], k, v)
  }

  lemma {:induction false} GetPutSame<V>(b: Bag<V>, k: string, v: V)
    ensures Get(Put(b, k, v), k) == Some(v)
    decreases |b|
  {
    if |b| > 0 && b[0].0 != k {
      GetPutSame(b[1..], k, v);
      assert Put(b, k, v)[1..] == Put(b[1..], k, v);
    }
  }

  lemma {:induction false} GetPutOther<V>(b: Bag<V>, k: string, v: V, k': string)
    requires k' != k
    ensures Get(Put(b, k, v), k') == Get(b, k')
    decreases |b|
  {
    if |b| > 0 {
      if b[0].0 == k {
        assert Put(b, k, v)[1..] == b[1..];
      } else if b[0].0 != k' {
        GetPutOther(b[1..], k, v, k');
        assert Put(b, k, v)[1..] == Put(b[1..], k, v);
      }
    }
  }

  lemma PutKeepsUniqueKeys<V>(b: Bag<V>, k: string, v: V)
    requires UniqueKeys(b)
    ensures UniqueKeys(Put(b, k, v))
  {
    var r := Put(b, k, v);
    if !HasKey(b, k) {
      forall i, j | 0 <= i < j < |r|
        ensures r[i].0 != r[j].0
      {
        if j == |b| {
          assert r[i].0 == b[i].0;
        }
      }
    }
  }
}

=== FILE: base.dfy ===
/**
 * Small datatypes shared by every module: optional values (JavaScript's
 * `undefined`/`null` for a missing field) and the faults the engine raises.
 *
 * The engine has no error channel of its own: it reads fields of missing
 * objects and recurses without bound, and the resulting JavaScript exceptions
 * are rethrown to the caller of `computeProposals`. Each such exception is a
 * `Fault` here, carried by `Result`.
 */
module Base {

  datatype Option<+T> = None | Some(value: T)

  datatype Fault =
    /** a node's `range` was read but the node has none */
    | MissingRange
    /** a type name was used as a key into the type registry but names no descriptor (or there was no name at all) */
    | MissingType(name: Option<string>)
    /** `$$args` was read on a descriptor that has none */
    | MissingArgs(typeName: string)
    /** unbounded recursion along a cyclic `$$prototype` chain */
    | StackOverflow

  datatype Result<+T> = Ok(value: T) | Err(fault: Fault)
}

=== FILE: catalog.dfy ===
/**
 * The built-in type catalog (`Types`, esprimaJsContentAssist.js:20-268): the
 * seed descriptors every completion request starts from.
 *
 * `Object` is the root and has no prototype; its members are stored under a
 * `$$` alias (`$$toString`, ...) so that they do not clash with the real
 * methods of the JavaScript object holding them. Every other seed descriptor
 * has prototype `Object`. A member whose value is JavaScript `null`
 * (`Date.setDay`, ...) is `None`. `Arguments` is the one seed without an
 * `$$args` table.
 */
module Catalog {

  import opened Base
  import opened Bags

  datatype Descriptor = Descriptor(
    /** member name to type name (`None` for `null`), in insertion order */
    members: Bag<Option<string>>,
    /** `$$args`: parameter names of callable members; `None` when the descriptor has no `$$args` */
    args: Option<map<string, seq<string>>>,
    /** `$$prototype`: the parent descriptor's name */
    proto: Option<string>)

  function Typed(names: seq<string>, t: string): Bag<Option<string>> {
    seq(|names|, i requires 0 <= i < |names| => (names[i], Some(t)))
  }

  function ObjectType(): Descriptor
  {
    Descriptor(
      [("$$toString", Some("String")), ("$$toLocaleString", Some("String")), ("$$valueOf", Some("Object")),
       ("$$hasOwnProperty", Some("boolean")), ("$$isPrototypeOf", Some("boolean")),
       ("$$propertyIsEnumerable", Some("boolean"))],
      Some(map["$$toString" := [], "$$toLocaleString" := [], "$$hasOwnProperty" := ["property"],
               "$$isPrototypeOf" := ["object"], "$$propertyIsEnumerable" := ["property"], "$$valueOf" := []]),
      None)
  }

  function GlobalType(): Descriptor
  {
    Descriptor([("this", Some("Global")), ("Math", Some("Math")), ("JSON", Some("JSON"))], Some(map[]), Some("Object"))
  }

  function StringType(): Descriptor
  {
    Descriptor(
      [("charAt", Some("String")), ("charCodeAt", Some("Number")), ("concat", Some("String")),
       ("indexOf", Some("Number")), ("lastIndexOf", Some("Number")), ("length", Some("Number")),
       ("localeCompare", Some("Number")), ("match", Some("Boolean")), ("replace", Some("String")),
       ("search", Some("String")), ("slice", Some("String")), ("split", Some("Array")),
       ("substring", Some("String")), ("toLocaleUpperCase", Some("String")), ("toLowerCase", Some("String")),
       ("toUpperCase", Some("String")), ("trim", Some("String"))],
      Some(map["charAt" := ["index"], "charCodeAt" := ["index"], "concat" := ["array"],
               "indexOf" := ["searchString"], "lastIndexOf" := ["searchString"], "localeCompare" := ["object"],
               "match" := ["regexp"], "replace" := ["searchValue", "replaceValue"], "search" := ["regexp"],
               "slice" := ["start", "end"], "split" := ["separator", "[limit]"], "substring" := ["start", "[end]"],
               "toLowerCase" := [], "toUpperCase" := [], "toLocaleUpperCase" := [], "trim" := []]),
      Some("Object"))
  }

  function ArrayType(): Descriptor
  {
    Descriptor(
      [("length", Some("Number")), ("sort", Some("Array")), ("concat", Some("Array")), ("slice", Some("Array"))],
      Some(map["sort" := ["[sorter]"], "concat" := ["left", "right"], "slice" := ["start", "end"]]),
      Some("Object"))
  }

  function DateType(): Descriptor
  {
    Descriptor(
      [("getDay", Some("Number")), ("getFullYear", Some("Number")), ("getHours", Some("Number")),
       ("getMinutes", Some("Number")), ("setDay", None), ("setFullYear", None), ("setHours", None),
       ("setMinutes", None), ("setTime", None)],
      Some(map["getDay" := [], "getFullYear" := [], "getHours" := [], "getMinutes" := [],
               "setDay" := ["dayOfWeek"], "setFullYear" := ["year"], "setHours" := ["hour"],
               "setMinutes" := ["minute"], "setTime" := ["millis"]]),
      Some("Object"))
  }

  function BooleanType(): Descriptor
  {
    Descriptor([], Some(map[]), Some("Object"))
  }

  function NumberType(): Descriptor
  {
    Descriptor(
      [("toExponential", Some("Number")), ("toFixed", Some("Number")), ("toPrecision", Some("Number"))],
      Some(map["toExponential" := ["digits"], "toFixed" := ["digits"], "toPrecision" := ["digits"]]),
      Some("Object"))
  }

  function FunctionType(): Descriptor
  {
    Descriptor(
      [("apply", Some("Object")), ("arguments", Some("Arguments")), ("bind", None), ("call", Some("Object")),
       ("caller", Some("Function")), ("length", Some("Number")), ("name", Some("String"))],
      Some(map["apply" := ["func", "[args]"], "bind" := [], "call" := ["func", "args"]]),
      Some("Object"))
  }

  function ArgumentsType(): Descriptor
  {
    Descriptor([("callee", Some("Function")), ("length", Some("Number"))], None, Some("Object"))
  }

  function RegExpType(): Descriptor
  {
    Descriptor(
      [("g", Some("Object")), ("i", Some("Object")), ("gi", Some("Object")), ("m", Some("Object")),
       ("exec", Some("Array")), ("test", Some("Array"))],
      Some(map["exec" := ["str"], "test" := ["str"]]),
      Some("Object"))
  }

  function ErrorType(): Descriptor
  {
    Descriptor([("name", Some("String")), ("message", Some("String")), ("stack", Some("String"))],
               Some(map[]), Some("Object"))
  }

  function MathType(): Descriptor
  {
    Descriptor(
      Typed(["E", "LN2", "LN10", "LOG2E", "LOG10E", "PI", "SQRT1_2", "SQRT2",
             "abs", "acos", "asin", "atan", "atan2", "ceil", "cos", "exp", "floor", "log", "max", "min",
             "pow", "random", "round", "sin", "sqrt", "tan"], "Number"),
      Some(map["abs" := ["val"], "acos" := ["val"], "asin" := ["val"], "atan" := ["val"],
               "atan2" := ["val1", "val2"], "ceil" := ["val"], "cos" := ["val"], "exp" := ["val"],
               "floor" := ["val"], "log" := ["val"], "max" := ["val1", "val2"], "min" := ["val1", "val2"],
               "pow" := ["x", "y"], "random" := [], "round" := ["val"], "sin" := ["val"], "sqrt" := ["val"],
               "tan" := ["val"]]),
      Some("Object"))
  }

  function JsonType(): Descriptor
  {
    Descriptor([("parse", Some("Object")), ("stringify", Some("String"))],
               Some(map["parse" := ["str"], "stringify" := ["obj"]]), Some("Object"))
  }

  /** `new Types()`: a fresh copy of the catalog for one completion request. */
  function Seed(): (types: map<string, Descriptor>)
    ensures types.Keys == {"Object", "Global", "String", "Array", "Date", "Boolean", "Number", "Function",
                           "Arguments", "RegExp", "Error", "Math", "JSON"}
    ensures types["Object"].proto.None?
    ensures forall t :: t in types && t != "Object" ==> types[t].proto == Some("Object")
  {
    var derived := map["Global" := GlobalType(), "String" := StringType(), "Array" := ArrayType(),
        "Date" := DateType(), "Boolean" := BooleanType(), "Number" := NumberType(), "Function" := FunctionType(),
        "Arguments" := ArgumentsType(), "RegExp" := RegExpType(), "Error" := ErrorType(), "Math" := MathType(),
        "JSON" := JsonType()];
    assert forall t :: t in derived ==> derived[t].proto == Some("Object");
    derived["Object" := ObjectType()]
  }
}

=== FILE: classifier.dfy ===
/**
 * The position classifier `shouldVisit(root, offset, prefix, contents)`
 * (esprimaJsContentAssist.js:453-544): a first walk over the tree that
 * collects the chain of nodes enclosing the cursor, then a decision on what
 * kind of completion the innermost one calls for.
 *
 * The walk (`findParent`) enters a node when its range touches the cursor
 * (the program is always entered) and pushes it on the parent stack; the
 * walk is left at the first identifier it enters, after a member expression
 * without a property when the cursor follows its dot, and when the
 * post-operation reaches the program or an entered block. Any other node is
 * popped again on the way out.
 *
 * For a completion at a new expression with an empty prefix, a synthetic
 * expression statement holding an empty identifier is appended to the
 * innermost program or block, so that the inference walk later finds an
 * identifier under the cursor.
 */
module Classifier {

  import opened Base
  import opened Offsets
  import opened Ast
  import opened Visitor
  import opened Proposals

  /** The nodes the walk has entered and not yet left, outermost first. */
  type Parents = seq<Node>

  /** `findParent` enters the node: its range touches the cursor, or it is the program. */
  predicate Enters(offset: int, n: Node) {
    (n.range.Some? && InRange(offset, n.range.value)) || n.kind.Program?
  }

  /** `parents.pop()`: popping an empty array leaves it empty. */
  function Pop(parents: Parents): (r: Parents)
    ensures |parents| > 0 ==> parents == r + [parents[|parents| - 1]]
    ensures |parents| == 0 ==> r == []
  {
    if |parents| == 0 then parents else parents[..|parents| - 1]
  }

  /**
   * The pre-operation of `findParent`. The check for completing on the word
   * `function` reads a misspelt field (`node.nody`) that no node has, so it
   * never fires and is not modelled.
   */
  function FindParentPre(offset: int, contents: string, s: Slot, parents: Parents): (r: Step<Parents>)
    ensures !Enters(offset, s.node) ==> r == Skip(parents)
    ensures Enters(offset, s.node) && s.node.kind.Identifier? ==> r == Halt(parents)
    ensures Enters(offset, s.node) && !s.node.kind.Identifier? ==> r.Crash? || r.state == parents + [s.node]
    ensures r.Halt? && !s.node.kind.Identifier? <==>
      Enters(offset, s.node) && s.node.kind.MemberExpression? && s.node.kind.property.None? &&
      AfterDotAt(offset, s.node, contents) == Ok(true)
    ensures (Enters(offset, s.node) && s.node.kind.MemberExpression? && s.node.kind.property.None? &&
             AfterDotAt(offset, s.node, contents) == Ok(true)) ==> r == Halt(parents + [s.node])
    ensures r.Crash? <==>
      Enters(offset, s.node) && s.node.kind.MemberExpression? && s.node.kind.property.None? &&
      AfterDotAt(offset, s.node, contents).Err?
    ensures r.Crash? ==> r.fault == MissingRange
    ensures r.Descend? <==>
      && Enters(offset, s.node) && !s.node.kind.Identifier?
      && !(s.node.kind.MemberExpression? && s.node.kind.property.None? && AfterDotAt(offset, s.node, contents) != Ok(false))
  {
    var n := s.node;
    if !Enters(offset, n) then Skip(parents)
    else if n.kind.Identifier? then Halt(parents)
    else
      var pushed := parents + [n];
      if n.kind.MemberExpression? && n.kind.property.None? then
        match AfterDotAt(offset, n, contents)
        case Err(f) => Crash(f)
        case Ok(b) => if b then Halt(pushed) else Descend(pushed)
      else Descend(pushed)
  }

  /** The post-operation of `findParent`: the walk ends at the program or at a block that touches the cursor. */
  function FindParentPost(offset: int, s: Slot, parents: Parents): (r: Outcome<Parents>)
    ensures s.node.kind.Program? ==> r == Stop(parents)
    ensures s.node.kind.BlockStatement? && s.node.range.None? ==> r == Failed(MissingRange)
    ensures s.node.kind.BlockStatement? && s.node.range.Some? ==>
      r == if InRange(offset, s.node.range.value) then Stop(parents) else Continue(Pop(parents))
    ensures !s.node.kind.Program? && !s.node.kind.BlockStatement? ==> r == Continue(Pop(parents))
  {
    var n := s.node;
    if n.kind.Program? then Stop(parents)
    else if n.kind.BlockStatement? then
      match RangeOf(n)
      case Err(f) => Failed(f)
      case Ok(range) => if InRange(offset, range) then Stop(parents) else Continue(Pop(parents))
    else Continue(Pop(parents))
  }

  function Pre(offset: int, contents: string): (Slot, Parents) -> Step<Parents> {
    (s, parents) => FindParentPre(offset, contents, s, parents)
  }

  function Post(offset: int): (Slot, Parents) -> Outcome<Parents> {
    (s, parents) => FindParentPost(offset, s, parents)
  }

  /** Node `c` is one of the children the walk visits below `p`. */
  predicate ChildOf(c: Node, p: Node) {
    Slot(c, None) in Children(Slot(p, None), false)
  }

  /** The stack starts at the root, and each entry is a child of the one before it. */
  predicate Linked(root: Node, parents: Parents) {
    && (|parents| > 0 ==> parents[0] == root)
    && forall i :: 0 < i < |parents| ==> ChildOf(parents[i], parents[i - 1])
  }

  /** Slot `s` is visited as the root when the stack is empty, otherwise as a child of the innermost entry. */
  predicate Below(root: Node, parents: Parents, s: Slot) {
    s.target.None? && if |parents| == 0 then s.node == root else ChildOf(s.node, parents[|parents| - 1])
  }

  /**
   * The walk below one slot: it fails only on a missing range, keeps the
   * stack linked, and, when it goes on, leaves the stack as it found it.
   */
  lemma {:induction false} FindParentVisit(root: Node, offset: int, contents: string, s: Slot, parents: Parents)
    requires Linked(root, parents) && Below(root, parents, s)
    ensures var r := Visit(s, parents, false, Pre(offset, contents), Post(offset));
      && (r.Failed? ==> r.fault == MissingRange)
      && (!r.Failed? ==> Linked(root, r.state))
      && (r.Continue? ==> r.state == parents)
    decreases SlotWeight(s), 1
  {
    var pre, post := Pre(offset, contents), Post(offset);
    var step := pre(s, parents);
    assert step == FindParentPre(offset, contents, s, parents);
    var pushed := parents + [s.node];
    assert Linked(root, pushed) by {
      forall i | 0 < i < |pushed|
        ensures ChildOf(pushed[i], pushed[i - 1])
      {
        if i < |parents| {
          assert pushed[i] == parents[i] && pushed[i - 1] == parents[i - 1];
        }
      }
    }
    if step.Descend? {
      var kids := Children(s, false);
      FindParentVisitFrom(root, offset, contents, s, kids, 0, pushed);
      var inner := VisitFrom(s, kids, 0, pushed, false, pre, post);
      if inner.Continue? {
        assert post(s, pushed) == FindParentPost(offset, s, pushed);
        assert Pop(pushed) == parents;
      }
    }
  }

  lemma {:induction false} FindParentVisitFrom(root: Node, offset: int, contents: string,
                                               parent: Slot, kids: seq<Slot>, i: nat, st: Parents)
    requires parent.target.None? && kids == Children(parent, false) && i <= |kids|
    requires Linked(root, st) && |st| > 0 && st[|st| - 1] == parent.node
    ensures var r := VisitFrom(parent, kids, i, st, false, Pre(offset, contents), Post(offset));
      && (r.Failed? ==> r.fault == MissingRange)
      && (!r.Failed? ==> Linked(root, r.state))
      && (r.Continue? ==> r.state == st)
    decreases SlotWeight(parent), 0, |kids| - i
  {
    if i < |kids| {
      var pre, post := Pre(offset, contents), Post(offset);
      KidBelow(root, parent, kids, i, st);
      FindParentVisit(root, offset, contents, kids[i], st);
      var r := Visit(kids[i], st, false, pre, post);
      if r.Continue? {
        FindParentVisitFrom(root, offset, contents, parent, kids, i + 1, st);
        assert VisitFrom(parent, kids, i, st, false, pre, post) == VisitFrom(parent, kids, i + 1, st, false, pre, post);
      } else {
        assert VisitFrom(parent, kids, i, st, false, pre, post) == r;
      }
    }
  }

  /** Each child slot of the innermost entry is visited below it. */
  lemma KidBelow(root: Node, parent: Slot, kids: seq<Slot>, i: nat, st: Parents)
    requires parent.target.None? && kids == Children(parent, false) && i < |kids|
    requires |st| > 0 && st[|st| - 1] == parent.node
    ensures Below(root, st, kids[i])
  {
    ChildrenUntargeted(parent.node);
    assert parent == Slot(parent.node, None);
    assert kids[i] in kids;
    assert kids[i] == Slot(kids[i].node, None);
  }

  /**
   * The parent stack once the `findParent` walk is over: it starts at the
   * root and links each entry to its child. Only a fault other than "done"
   * escapes, and the only one the walk can raise is a missing range.
   */
  function FindParent(root: Node, offset: int, contents: string): (r: Result<Parents>)
    ensures r.Err? ==> r.fault == MissingRange
    ensures r.Ok? ==> Linked(root, r.value)
  {
    FindParentVisit(root, offset, contents, Slot(root, None), []);
    match Visit(Slot(root, None), [], false, Pre(offset, contents), Post(offset))
    case Failed(f) => Err(f)
    case Continue(parents) => Ok(parents)
    case Stop(parents) => Ok(parents)
  }

  /** Every node left on the stack was entered, and none of them is an identifier. */
  predicate AllEntered(offset: int, parents: Parents) {
    forall i :: 0 <= i < |parents| ==> Enters(offset, parents[i]) && !parents[i].kind.Identifier?
  }

  lemma FindParentEntered(root: Node, offset: int, contents: string)
    requires FindParent(root, offset, contents).Ok?
    ensures AllEntered(offset, FindParent(root, offset, contents).value)
  {
    PreKeepsEntered(offset, contents);
    PostKeepsEntered(offset);
    VisitKeeps(Slot(root, None), [], false, Pre(offset, contents), Post(offset), EnteredInv(offset));
  }

  /** `AllEntered` as the invariant of a walk. */
  function EnteredInv(offset: int): Parents -> bool {
    (parents: Parents) => AllEntered(offset, parents)
  }

  /** Pushing a node happens only after entering it. */
  lemma PreKeepsEntered(offset: int, contents: string)
    ensures PreKeeps(Pre(offset, contents), EnteredInv(offset))
  {
    var pre, inv := Pre(offset, contents), EnteredInv(offset);
    forall s, parents | inv(parents) && !pre(s, parents).Crash?
      ensures inv(pre(s, parents).state)
    {
      assert pre(s, parents) == FindParentPre(offset, contents, s, parents);
    }
  }

  /** Popping keeps the rest of the stack. */
  lemma PostKeepsEntered(offset: int)
    ensures PostKeeps(Post(offset), EnteredInv(offset))
  {
    var post, inv := Post(offset), EnteredInv(offset);
    forall s, parents | inv(parents) && !post(s, parents).Failed?
      ensures inv(post(s, parents).state)
    {
      assert post(s, parents) == FindParentPost(offset, s, parents);
      if |parents| > 0 {
        assert forall i :: 0 <= i < |Pop(parents)| ==> Pop(parents)[i] == parents[i];
      }
    }
  }

  // ---------------------------------------------------------------------------
  // The synthetic statement

  /** `{type: "ExpressionStatement", range: [offset, offset+1], expression: {type: "Identifier", name: "", range: [offset, offset+1]}}`. */
  function EmptyStatement(offset: int): (n: Node)
    ensures n.kind.ExpressionStatement? && n.kind.expression.kind == Identifier("")
    ensures n.range == n.kind.expression.range == Some(Range(offset, offset + 1))
  {
    var range := Some(Range(offset, offset + 1));
    Node(SyntheticStatement, range, ExpressionStatement(Node(SyntheticIdentifier, range, Identifier(""))))
  }

  /** The identities of all nodes of a tree, declaring identifiers included. */
  function Ids(n: Node): set<NodeId>
    decreases n
  {
    {n.id} + match n.kind
      case Program(ss) => IdsSeq(ss)
      case BlockStatement(ss) => IdsSeq(ss)
      case ExpressionStatement(e) => Ids(e)
      case VariableDeclaration(ds) => IdsSeq(ds)
      case VariableDeclarator(id, init) => {id.id} + IdsOpt(init)
      case Identifier(_) => {}
      case ThisExpression => {}
      case Literal(_) => {}
      case ArrayExpression(es) => IdsSeq(es)
      case ObjectExpression(entries) => IdsEntries(entries)
      case Property(k, v) => Ids(k) + Ids(v)
      case FunctionDeclaration(id, params, body) => {id.id} + IdentIds(params) + Ids(body)
      case FunctionExpression(id, params, body) => (if id.Some? then {id.value.id} else {}) + IdentIds(params) + Ids(body)
      case MemberExpression(o, p) => Ids(o) + IdsOpt(p)
      case CallExpression(c, args) => Ids(c) + IdsSeq(args)
      case NewExpression(c, args) => Ids(c) + IdsSeq(args)
      case AssignmentExpression(l, r) => Ids(l) + Ids(r)
      case BinaryExpression(_, l, r) => Ids(l) + Ids(r)
      case UnaryExpression(a) => Ids(a)
      case UpdateExpression(a) => Ids(a)
      case CatchClause(param, body) => {param.id} + Ids(body)
      case Other(cs) => IdsSeq(cs)
  }

  function IdsSeq(ss: seq<Node>): set<NodeId>
    decreases ss
  {
    if |ss| == 0 then {} else Ids(ss[0]) + IdsSeq(ss[1..])
  }

  function IdsOpt(o: Option<Node>): set<NodeId>
    decreases o
  {
    if o.Some? then Ids(o.value) else {}
  }

  function IdsEntries(es: seq<Entry>): set<NodeId>
    decreases es
  {
    if |es| == 0 then {} else IdsEntry(es[0]) + IdsEntries(es[1..])
  }

  function IdsEntry(e: Entry): set<NodeId>
    decreases e
  {
    match e
    case PropertyNode(n) => Ids(n)
    case KeyValue(k, v) => Ids(k) + Ids(v)
  }

  function IdentIds(params: seq<Ident>): set<NodeId> {
    set i | 0 <= i < |params| :: params[i].id
  }

  /** `parent.body.push(stmt)` on the program or block with identity `at`, wherever it sits in the tree. */
  function Splice(n: Node, at: NodeId, stmt: Node): Node
    decreases n
  {
    Node(n.id, n.range, match n.kind
      case Program(ss) => Program(SpliceSeq(ss, at, stmt) + (if n.id == at then [stmt] else []))
      case BlockStatement(ss) => BlockStatement(SpliceSeq(ss, at, stmt) + (if n.id == at then [stmt] else []))
      case ExpressionStatement(e) => ExpressionStatement(Splice(e, at, stmt))
      case VariableDeclaration(ds) => VariableDeclaration(SpliceSeq(ds, at, stmt))
      case VariableDeclarator(id, init) => VariableDeclarator(id, SpliceOpt(init, at, stmt))
      case Identifier(_) => n.kind
      case ThisExpression => n.kind
      case Literal(_) => n.kind
      case ArrayExpression(es) => ArrayExpression(SpliceSeq(es, at, stmt))
      case ObjectExpression(entries) => ObjectExpression(SpliceEntries(entries, at, stmt))
      case Property(k, v) => Property(Splice(k, at, stmt), Splice(v, at, stmt))
      case FunctionDeclaration(id, params, body) => FunctionDeclaration(id, params, Splice(body, at, stmt))
      case FunctionExpression(id, params, body) => FunctionExpression(id, params, Splice(body, at, stmt))
      case MemberExpression(o, p) => MemberExpression(Splice(o, at, stmt), SpliceOpt(p, at, stmt))
      case CallExpression(c, args) => CallExpression(Splice(c, at, stmt), SpliceSeq(args, at, stmt))
      case NewExpression(c, args) => NewExpression(Splice(c, at, stmt), SpliceSeq(args, at, stmt))
      case AssignmentExpression(l, r) => AssignmentExpression(Splice(l, at, stmt), Splice(r, at, stmt))
      case BinaryExpression(op, l, r) => BinaryExpression(op, Splice(l, at, stmt), Splice(r, at, stmt))
      case UnaryExpression(a) => UnaryExpression(Splice(a, at, stmt))
      case UpdateExpression(a) => UpdateExpression(Splice(a, at, stmt))
      case CatchClause(param, body) => CatchClause(param, Splice(body, at, stmt))
      case Other(cs) => Other(SpliceSeq(cs, at, stmt)))
  }

  function SpliceSeq(ss: seq<Node>, at: NodeId, stmt: Node): seq<Node>
    decreases ss
  {
    if |ss| == 0 then [] else [Splice(ss[0], at, stmt)] + SpliceSeq(ss[1..], at, stmt)
  }

  function SpliceOpt(o: Option<Node>, at: NodeId, stmt: Node): Option<Node>
    decreases o
  {
    if o.Some? then Some(Splice(o.value, at, stmt)) else None
  }

  function SpliceEntries(es: seq<Entry>, at: NodeId, stmt: Node): seq<Entry>
    decreases es
  {
    if |es| == 0 then [] else [SpliceEntry(es[0], at, stmt)] + SpliceEntries(es[1..], at, stmt)
  }

  function SpliceEntry(e: Entry, at: NodeId, stmt: Node): Entry
    decreases e
  {
    match e
    case PropertyNode(n) => PropertyNode(Splice(n, at, stmt))
    case KeyValue(k, v) => KeyValue(Splice(k, at, stmt), Splice(v, at, stmt))
  }

  /** A tree without a node of identity `at` is left as it is. */
  lemma {:induction false} SpliceAbsent(n: Node, at: NodeId, stmt: Node)
    requires at !in Ids(n)
    ensures Splice(n, at, stmt) == n
    decreases n, 1
  {
    if HasNodeList(n.kind) {
      SpliceListAbsent(n, at, stmt);
    } else {
      SpliceFieldsAbsent(n, at, stmt);
    }
  }

  lemma {:induction false} SpliceListAbsent(n: Node, at: NodeId, stmt: Node)
    requires at !in Ids(n) && HasNodeList(n.kind)
    ensures Splice(n, at, stmt) == n
    decreases n, 0
  {
    match n.kind
    case Program(ss) => SpliceSeqAbsent(ss, at, stmt);
    case BlockStatement(ss) => SpliceSeqAbsent(ss, at, stmt);
    case VariableDeclaration(ds) => SpliceSeqAbsent(ds, at, stmt);
    case ArrayExpression(es) => SpliceSeqAbsent(es, at, stmt);
    case ObjectExpression(entries) => SpliceEntriesAbsent(entries, at, stmt);
    case CallExpression(c, args) => SpliceAbsent(c, at, stmt); SpliceSeqAbsent(args, at, stmt);
    case NewExpression(c, args) => SpliceAbsent(c, at, stmt); SpliceSeqAbsent(args, at, stmt);
    case Other(cs) => SpliceSeqAbsent(cs, at, stmt);
  }

  lemma {:induction false} SpliceFieldsAbsent(n: Node, at: NodeId, stmt: Node)
    requires at !in Ids(n) && !HasNodeList(n.kind)
    ensures Splice(n, at, stmt) == n
    decreases n, 0
  {
    match n.kind
    case ExpressionStatement(e) => SpliceAbsent(e, at, stmt);
    case VariableDeclarator(_, init) => SpliceOptAbsent(init, at, stmt);
    case Identifier(_) =>
    case ThisExpression =>
    case Literal(_) =>
    case Property(k, v) => SpliceAbsent(k, at, stmt); SpliceAbsent(v, at, stmt);
    case FunctionDeclaration(_, _, body) => SpliceAbsent(body, at, stmt);
    case FunctionExpression(_, _, body) => SpliceAbsent(body, at, stmt);
    case MemberExpression(o, p) => SpliceAbsent(o, at, stmt); SpliceOptAbsent(p, at, stmt);
    case AssignmentExpression(l, r) => SpliceAbsent(l, at, stmt); SpliceAbsent(r, at, stmt);
    case BinaryExpression(_, l, r) => SpliceAbsent(l, at, stmt); SpliceAbsent(r, at, stmt);
    case UnaryExpression(a) => SpliceAbsent(a, at, stmt);
    case UpdateExpression(a) => SpliceAbsent(a, at, stmt);
    case CatchClause(_, body) => SpliceAbsent(body, at, stmt);
  }

  lemma {:induction false} SpliceSeqAbsent(ss: seq<Node>, at: NodeId, stmt: Node)
    requires at !in IdsSeq(ss)
    ensures SpliceSeq(ss, at, stmt) == ss
    decreases ss
  {
    if |ss| > 0 {
      SpliceAbsent(ss[0], at, stmt);
      SpliceSeqAbsent(ss[1..], at, stmt);
    }
  }

  lemma {:induction false} SpliceOptAbsent(o: Option<Node>, at: NodeId, stmt: Node)
    requires at !in IdsOpt(o)
    ensures SpliceOpt(o, at, stmt) == o
    decreases o
  {
    if o.Some? {
      SpliceAbsent(o.value, at, stmt);
    }
  }

  lemma {:induction false} SpliceEntriesAbsent(es: seq<Entry>, at: NodeId, stmt: Node)
    requires at !in IdsEntries(es)
    ensures SpliceEntries(es, at, stmt) == es
    decreases es
  {
    if |es| > 0 {
      SpliceEntryAbsent(es[0], at, stmt);
      SpliceEntriesAbsent(es[1..], at, stmt);
    }
  }

  lemma {:induction false} SpliceEntryAbsent(e: Entry, at: NodeId, stmt: Node)
    requires at !in IdsEntry(e)
    ensures SpliceEntry(e, at, stmt) == e
    decreases e
  {
    match e
    case PropertyNode(n) => SpliceAbsent(n, at, stmt);
    case KeyValue(k, v) => SpliceAbsent(k, at, stmt); SpliceAbsent(v, at, stmt);
  }

  /**
   * Splicing at a program or block whose identity occurs nowhere else in the
   * tree appends the statement to its body and changes nothing else.
   */
  lemma SpliceAppends(n: Node, stmt: Node)
    requires n.kind.Program? || n.kind.BlockStatement?
    requires n.id !in IdsSeq(n.kind.statements)
    ensures Splice(n, n.id, stmt).id == n.id && Splice(n, n.id, stmt).range == n.range
    ensures Splice(n, n.id, stmt).kind.statements == n.kind.statements + [stmt]
    ensures n.kind.Program? <==> Splice(n, n.id, stmt).kind.Program?
  {
    SpliceSeqAbsent(n.kind.statements, n.id, stmt);
  }

  // ---------------------------------------------------------------------------
  // shouldVisit

  /** The cursor is on the property of member expression `m`, or just after its dot. */
  predicate MemberAt(offset: int, contents: string, m: Node)
    requires m.kind.MemberExpression?
  {
    || (m.kind.property.Some? && m.kind.property.value.range.Some? && InRange(offset, m.kind.property.value.range.value))
    || AfterDotAt(offset, m, contents) == Ok(true)
  }

  /** The innermost entered node is a program or block and the prefix is empty: the synthetic statement goes there. */
  predicate InsertsStatement(prefix: string, parents: Parents) {
    prefix == "" && |parents| > 0
    && (parents[|parents| - 1].kind.Program? || parents[|parents| - 1].kind.BlockStatement?)
  }

  /**
   * The decision `shouldVisit` takes once the walk has left `parents`. The
   * branches that would answer "no completion" sit inside the
   * program-or-block branch, where their conditions can never hold, so the
   * classifier always answers "member" or "top" unless it faults.
   */
  function Classify(parents: Parents, root: Node, offset: int, prefix: string, contents: string): (r: Result<(CompletionKind, Node)>)
    ensures r.Ok? && r.value.0 == MemberCompletion <==>
      && |parents| > 0
      && parents[|parents| - 1].kind.MemberExpression?
      && MemberAt(offset, contents, parents[|parents| - 1])
    ensures r.Ok? ==>
      r.value.1 == if InsertsStatement(prefix, parents)
                   then Splice(root, parents[|parents| - 1].id, EmptyStatement(offset))
                   else root
    ensures InsertsStatement(prefix, parents) ==> r.Ok? && r.value.0 == TopCompletion
    ensures |parents| == 0 || !parents[|parents| - 1].kind.MemberExpression? ==> r.Ok?
    ensures r.Err? ==> r == Err(MissingRange)
  {
    if |parents| == 0 then Ok((TopCompletion, root))
    else
      var parent := parents[|parents| - 1];
      match parent.kind
      case MemberExpression(o, p) =>
        if p.Some? && p.value.range.None? then Err(MissingRange)
        else if p.Some? && InRange(offset, p.value.range.value) then Ok((MemberCompletion, root))
        else if parent.range.None? then Err(MissingRange)
        else if !InRange(offset, parent.range.value) then Ok((TopCompletion, root))
        else
          (match AfterDotAt(offset, parent, contents)
           case Err(f) => Err(f)
           case Ok(b) => Ok((if b then MemberCompletion else TopCompletion, root)))
      case Program(_) =>
        Ok((TopCompletion, if prefix == "" then Splice(root, parent.id, EmptyStatement(offset)) else root))
      case BlockStatement(_) =>
        Ok((TopCompletion, if prefix == "" then Splice(root, parent.id, EmptyStatement(offset)) else root))
      case _ => Ok((TopCompletion, root))
  }

  /**
   * `shouldVisit(root, offset, prefix, contents)`: the completion kind and the
   * tree the inference walk runs on. It is a member completion exactly when
   * the innermost entered node is a member expression whose property holds
   * the cursor or whose dot the cursor follows, and then the cursor is inside
   * that member expression; the synthetic statement is spliced in exactly
   * when the prefix is empty at a program or block; the only fault is a
   * missing range, raised by the walk or by a member expression.
   */
  function ShouldVisit(root: Node, offset: int, prefix: string, contents: string): (r: Result<(CompletionKind, Node)>)
    ensures r.Err? ==> r == Err(MissingRange)
    ensures FindParent(root, offset, contents).Err? ==> r.Err?
    ensures FindParent(root, offset, contents).Ok? ==>
      var parents := FindParent(root, offset, contents).value;
      && (r.Err? ==> |parents| > 0 && parents[|parents| - 1].kind.MemberExpression?)
      && (r.Ok? && r.value.0 == MemberCompletion <==>
            |parents| > 0 && parents[|parents| - 1].kind.MemberExpression? && MemberAt(offset, contents, parents[|parents| - 1]))
      && (r.Ok? ==> r.value.1 == if InsertsStatement(prefix, parents)
                                 then Splice(root, parents[|parents| - 1].id, EmptyStatement(offset))
                                 else root)
      && (InsertsStatement(prefix, parents) ==> r.Ok? && r.value.0 == TopCompletion)
    ensures r.Ok? && r.value.0 == MemberCompletion ==>
      var parents := FindParent(root, offset, contents).value;
      && |parents| > 0
      && parents[|parents| - 1].kind.MemberExpression?
      && parents[|parents| - 1].range.Some?
      && InRange(offset, parents[|parents| - 1].range.value)
  {
    match FindParent(root, offset, contents)
    case Err(f) => Err(f)
    case Ok(parents) =>
      FindParentEntered(root, offset, contents);
      Classify(parents, root, offset, prefix, contents)
  }

  /** The innermost entered node is never an identifier: the walk stops before pushing one. */
  lemma ParentIsNeverIdentifier(root: Node, offset: int, contents: string)
    requires FindParent(root, offset, contents).Ok?
    requires |FindParent(root, offset, contents).value| > 0
    ensures !FindParent(root, offset, contents).value[|FindParent(root, offset, contents).value| - 1].kind.Identifier?
  {
    FindParentEntered(root, offset, contents);
  }

  /**
   * The inference walk's tree differs from the parsed one by exactly one
   * statement at the end of the innermost program, when that program's
   * identity occurs only once.
   */
  lemma TopLevelInsertion(root: Node, offset: int, contents: string)
    requires root.kind.Program? && root.id !in IdsSeq(root.kind.statements)
    requires FindParent(root, offset, contents) == Ok([root])
    ensures ShouldVisit(root, offset, "", contents).Ok?
    ensures var (kind, root') := ShouldVisit(root, offset, "", contents).value;
      && kind == TopCompletion
      && root'.kind == Program(root.kind.statements + [EmptyStatement(offset)])
  {
    SpliceAppends(root, EmptyStatement(offset));
  }
}

=== FILE: inference.dfy ===
/**
 * The inference walk and the entry point: `proposalCollector`
 * (esprimaJsContentAssist.js:551-640), `proposalCollectorPostOp` (:646-736)
 * and `computeProposals` (:755-977).
 *
 * The walk visits the tree the classifier hands over, with member properties
 * carrying their object as `target`. On the way in it opens scopes and
 * object types and declares functions, parameters and object-literal keys;
 * on the way out it closes scopes, gives every node an inferred type and
 * binds declared and assigned names. It collects proposals when it leaves a
 * member expression whose dot precedes the cursor, and when it leaves the
 * identifier under the cursor, where the walk ends. The proposals are then
 * sorted by description.
 */
module Inference {

  import opened Base
  import opened Strings
  import opened Offsets
  import opened Ast
  import opened Visitor
  import opened Catalog
  import opened TypeEnv
  import opened Proposals
  import opened Classifier

  /** The parts of the request the walk reads: `data.offset`, `data.contents` and what proposals are built from. */
  datatype Context = Context(offset: int, contents: string, req: Request)

  /**
   * The walk's state: the environment, the `inferredType` decorations of the
   * nodes (only truthy ones are kept), and `data.proposals`.
   */
  datatype Walk = Walk(env: Env, inferred: map<NodeId, string>, proposals: seq<Proposal>)

  /** `node.inferredType`, when truthy. */
  function InferredOf(w: Walk, id: NodeId): (t: Option<string>)
    ensures t.Some? <==> id in w.inferred
    ensures t.Some? ==> t.value == w.inferred[id]
  {
    if id in w.inferred then Some(w.inferred[id]) else None
  }

  /** `node.inferredType = v`: a falsy value leaves the node without a type. */
  function Decorate(w: Walk, id: NodeId, v: Option<string>): (r: Walk)
    ensures InferredOf(r, id) == if Truthy(v) then v else None
    ensures forall k :: k != id ==> InferredOf(r, k) == InferredOf(w, k)
    ensures r.env == w.env && r.proposals == w.proposals
  {
    if Truthy(v) then w.(inferred := w.inferred[id := v.value]) else w.(inferred := w.inferred - {id})
  }

  /** `node.target.inferredType`: the inferred type of the object whose property the node is. */
  function TargetType(w: Walk, s: Slot): (t: Option<string>)
    ensures s.target.None? ==> t.None?
  {
    if s.target.Some? then InferredOf(w, s.target.value.id) else None
  }

  /** `typeof value`, capitalised: `null` and regular expressions are objects. */
  function LiteralType(v: LiteralValue): (t: string)
    ensures v.StringLiteral? <==> t == "String"
    ensures v.NumberLiteral? <==> t == "Number"
    ensures v.BooleanLiteral? <==> t == "Boolean"
    ensures v.NullLiteral? || v.RegexLiteral? <==> t == "Object"
  {
    match v
    case StringLiteral => "String"
    case NumberLiteral => "Number"
    case BooleanLiteral => "Boolean"
    case NullLiteral => "Object"
    case RegexLiteral => "Object"
  }

  /** `property.key.name` of an object-literal element, when it has a key with a truthy name. */
  function KeyName(e: Entry): (r: Option<string>)
    ensures r.Some? ==> r.value != "" && EntryKeyValue(e).Some?
  {
    match EntryKeyValue(e)
    case Some((k, _)) => NameOf(k)
    case None => None
  }

  // ---------------------------------------------------------------------------
  // proposalCollector: the pre-operation

  /** The truthy key names of an object literal's elements, in order. */
  function KeyNames(entries: seq<Entry>): (r: seq<string>)
    ensures forall k :: k in r <==> exists j :: 0 <= j < |entries| && KeyName(entries[j]) == Some(k)
    decreases |entries|
  {
    if |entries| == 0 then []
    else
      var rest := KeyNames(entries[1..]);
      assert forall j :: 0 <= j < |entries| - 1 ==> entries[1..][j] == entries[j + 1];
      match KeyName(entries[0])
      case Some(k) => [k] + rest
      case None => rest
  }

  /** Each name declared, in turn, as an `Object` member of descriptor `s`. */
  function DeclareNames(e: Env, names: seq<string>, s: string, i: nat): (r: Env)
    requires s in e.types && i <= |names|
    ensures r.stack == e.stack && r.count == e.count && r.types.Keys == e.types.Keys
    ensures forall k :: Member(r.types[s], k) == if k in names[i..] then Some("Object") else Member(e.types[s], k)
    decreases |names| - i
  {
    if i == |names| then e
    else
      var e1 := AddVariable(e, names[i], Some(s), None).value;
      var r := DeclareNames(e1, names, s, i + 1);
      DeclareNamesStep(e, e1, r, names, s, i);
      r
  }

  /** One step of `DeclareNames`: declaring `names[i]` and then the rest declares `names[i..]`. */
  lemma DeclareNamesStep(e: Env, e1: Env, r: Env, names: seq<string>, s: string, i: nat)
    requires s in e.types && i < |names|
    requires AddVariable(e, names[i], Some(s), None) == Ok(e1)
    requires s in e1.types && s in r.types
    requires forall k :: Member(r.types[s], k) == if k in names[i + 1..] then Some("Object") else Member(e1.types[s], k)
    ensures forall k :: Member(r.types[s], k) == if k in names[i..] then Some("Object") else Member(e.types[s], k)
  {
    forall k
      ensures Member(r.types[s], k) == if k in names[i..] then Some("Object") else Member(e.types[s], k)
    {
      InSuffix(names, i, k);
    }
  }

  /** A name is in `names[i..]` exactly when it is `names[i]` or is in `names[i + 1..]`. */
  lemma InSuffix(names: seq<string>, i: nat, k: string)
    requires i < |names|
    ensures k in names[i..] <==> k == names[i] || k in names[i + 1..]
  {
    assert names[i..] == [names[i]] + names[i + 1..];
  }

  /** The parameter names recorded for a function: `params[i].name`. */
  function ParamNames(params: seq<Ident>): (r: seq<string>)
    ensures |r| == |params| && forall i :: 0 <= i < |params| ==> r[i] == params[i].name
  {
    seq(|params|, i requires 0 <= i < |params| => params[i].name)
  }

  /**
   * `data.addVariable(params[i].name, node.target)` for every parameter: each
   * is declared with type `Object`. Only the first call can fault, on a
   * scope without a descriptor.
   */
  function DeclareParams(e: Env, params: seq<Ident>, scope: Option<string>): (r: Result<Env>)
    ensures r.Err? <==> |params| > 0 && (scope.None? || scope.value !in e.types)
    ensures r.Ok? ==> r.value.stack == e.stack && r.value.count == e.count && r.value.types.Keys == e.types.Keys
    ensures r.Ok? && |params| > 0 ==> forall k ::
      Member(r.value.types[scope.value], k) == if k in ParamNames(params) then Some("Object") else Member(e.types[scope.value], k)
  {
    if |params| == 0 then Ok(e)
    else if scope.None? || scope.value !in e.types then Err(MissingType(scope))
    else
      var names := ParamNames(params);
      assert names[0..] == names;
      Ok(DeclareNames(e, names, scope.value, 0))
  }

  /**
   * The scope-opening part of a function declaration: a capitalised name (or
   * an empty one) is taken for a constructor and gets an object type, which
   * opens one scope; the function's own scope is opened after it. The object
   * type is the name itself, or a fresh `Object~<n>` for the empty name.
   */
  function EnterFunction(e: Env, name: string): (r: (Env, string))
    ensures |r.0.stack| == |e.stack| + (if FirstCharIsUpper(name) then 2 else 1)
    ensures r.0.stack[..|e.stack|] == e.stack
    ensures FirstCharIsUpper(name) && name != "" ==> r.1 == name
    ensures name == "" ==> r.1 == CounterName(e.count + 1)
    ensures !FirstCharIsUpper(name) ==> r.1 == "Function"
    ensures r.1 != ""
  {
    if FirstCharIsUpper(name) then
      EnterConstructor(e, name);
      var (e1, t) := NewObject(e, Some(name));
      (NewScope(e1).0, t)
    else
      (NewScope(e).0, "Function")
  }

  /** A constructor's entry: `newObject(name)` then `newScope()` push two scopes and name the type. */
  lemma EnterConstructor(e: Env, name: string)
    ensures var (e1, t) := NewObject(e, Some(name));
      var e2 := NewScope(e1).0;
      && |e2.stack| == |e.stack| + 2
      && e2.stack[..|e.stack|] == e.stack
      && (name != "" ==> t == name)
      && (name == "" ==> t == CounterName(e.count + 1))
      && t != ""
  {
    var (e1, t) := NewObject(e, Some(name));
    var e2 := NewScope(e1).0;
    assert e2.stack[..|e.stack|] == e.stack by {
      assert e2.stack[..|e1.stack|] == e1.stack && e1.stack[..|e.stack|] == e.stack;
    }
  }

  /** `proposalCollector` on a function declaration. */
  function FunctionPre(w: Walk, s: Slot, id: Ident, params: seq<Ident>): (r: Step<Walk>)
    ensures !r.Crash? ==> r.state.proposals == w.proposals
    ensures r.Descend? || r.Crash?
  {
    match AddFunction(w.env, id.name, ParamNames(params), Scope(w.env, TargetType(w, s)), Some("Function"))
    case Err(f) => Crash(f)
    case Ok(e1) =>
      var (e2, t) := EnterFunction(e1, id.name);
      var w1 := Decorate(w.(env := e2), s.node.id, Some(t));
      var scope := Scope(e2, TargetType(w1, s));
      match AddVariable(e2, "arguments", scope, Some("Arguments"))
      case Err(f) => Crash(f)
      case Ok(e3) =>
        match DeclareParams(e3, params, scope)
        case Err(f) => Crash(f)
        case Ok(e4) => Descend(w1.(env := e4))
  }

  /** `proposalCollector` on a catch clause: a new scope where the parameter is an `Error`. */
  /** The block-statement branch: `newScope()` becomes the block's type. */
  function BlockPre(w: Walk, id: NodeId): (r: Step<Walk>)
    ensures r.Descend? && r.state.proposals == w.proposals
  {
    var (e, scopeName) := NewScope(w.env);
    Descend(Decorate(w.(env := e), id, Some(scopeName)))
  }

  /** The object-literal branch: `newObject()`, then each truthy key declared as `Object` in it. */
  function ObjectPre(w: Walk, id: NodeId, entries: seq<Entry>): (r: Step<Walk>)
    ensures r.Descend? && r.state.proposals == w.proposals
  {
    var (e, typeName) := NewObject(w.env, None);
    Descend(Decorate(w.(env := DeclareNames(e, KeyNames(entries), typeName, 0)), id, Some(typeName)))
  }

  function CatchPre(w: Walk, s: Slot, param: Ident): (r: Step<Walk>)
    ensures !r.Crash? ==> r.state.proposals == w.proposals
    ensures r.Descend? || r.Crash?
  {
    var (e1, scopeName) := NewScope(w.env);
    var w1 := Decorate(Decorate(w.(env := e1), s.node.id, Some(scopeName)), param.id, Some("Error"));
    match AddVariable(e1, param.name, Scope(e1, TargetType(w1, s)), Some("Error"))
    case Err(f) => Crash(f)
    case Ok(e2) => Descend(w1.(env := e2))
  }

  /**
   * `proposalCollector(node, data)`. A variable declaration that starts
   * after the cursor is not entered; every other node is. Member
   * expressions hand their object to their property as its target, which
   * the visitor's slots already carry.
   */
  function PreOp(ctx: Context, s: Slot, w: Walk): (r: Step<Walk>)
    ensures !r.Crash? ==> r.state.proposals == w.proposals
    ensures r.Skip? <==> s.node.kind.VariableDeclaration? && IsBefore(ctx.offset, s.node.range)
    ensures r.Halt? ==> false
  {
    var n := s.node;
    if n.kind.FunctionDeclaration? then FunctionPre(w, s, n.kind.funId, n.kind.params)
    else if n.kind.ObjectExpression? then ObjectPre(w, n.id, n.kind.entries)
    else if n.kind.BlockStatement? then BlockPre(w, n.id)
    else if n.kind.CatchClause? then CatchPre(w, s, n.kind.param)
    else if n.kind.VariableDeclaration? then (if IsBefore(ctx.offset, n.range) then Skip(w) else Descend(w))
    else if n.kind.NewExpression? then Descend(Decorate(w, n.id, NameOf(n.kind.callee)))
    else if n.kind.Literal? then Descend(Decorate(w, n.id, Some(LiteralType(n.kind.literal))))
    else if n.kind.ArrayExpression? then Descend(Decorate(w, n.id, Some("Array")))
    else Descend(w)
  }

  // ---------------------------------------------------------------------------
  // proposalCollectorPostOp

  /** Every proposal from position `from` on is proper for the request. */
  predicate ProperFrom(req: Request, ps: seq<Proposal>, from: nat) {
    forall i :: from <= i < |ps| ==> Proper(req, ps[i])
  }

  /** `data.popScope()`. */
  function PopWalk(w: Walk): (r: Outcome<Walk>)
    ensures r.Continue? || r.Failed?
    ensures r.Continue? ==> PopScope(w.env).Ok? && r.state == w.(env := PopScope(w.env).value)
    ensures r.Failed? <==> PopScope(w.env).Err?
  {
    match PopScope(w.env)
    case Err(f) => Failed(f)
    case Ok(e) => Continue(w.(env := e))
  }

  /** `data.createProposals(targetType)` appended to the proposals. */
  function Propose(ctx: Context, w: Walk, targetType: Option<string>): (r: Result<Walk>)
    ensures r.Ok? ==> r.value.env == w.env && r.value.inferred == w.inferred
    ensures r.Ok? ==> w.proposals <= r.value.proposals && ProperFrom(ctx.req, r.value.proposals, |w.proposals|)
    ensures r.Ok? <==> CreateProposals(ctx.req, w.env, targetType).Ok?
  {
    match CreateProposals(ctx.req, w.env, targetType)
    case Err(f) => Err(f)
    case Ok(ps) =>
      var all := w.proposals + ps;
      assert forall i :: |w.proposals| <= i < |all| ==> all[i] == ps[i - |w.proposals|];
      Ok(w.(proposals := all))
  }

  /**
   * Leaving a member expression: completion right after its dot proposes the
   * members of the object's type; the expression takes the type of its
   * property (of its object when it has none).
   */
  function MemberPost(ctx: Context, w: Walk, n: Node): (r: Outcome<Walk>)
    requires n.kind.MemberExpression?
    ensures r.Continue? || r.Failed?
    ensures r.Continue? ==> w.proposals <= r.state.proposals && ProperFrom(ctx.req, r.state.proposals, |w.proposals|)
    ensures r.Continue? && AfterDotAt(ctx.offset, n, ctx.contents) == Ok(false) ==> r.state.proposals == w.proposals
  {
    var o, p := n.kind.obj, n.kind.property;
    match AfterDotAt(ctx.offset, n, ctx.contents)
    case Err(f) => Failed(f)
    case Ok(afterDot) =>
      var w1 := if afterDot then Propose(ctx, w, Scope(w.env, InferredOf(w, o.id))) else Ok(w);
      match w1
      case Err(f) => Failed(f)
      case Ok(w2) => Continue(Decorate(w2, n.id, InferredOf(w2, if p.Some? then p.value.id else o.id)))
  }

  /** The last position before `n` whose key has the truthy name `name`. */
  function KeyedBefore(entries: seq<Entry>, n: nat, name: string): (r: Option<nat>)
    requires n <= |entries|
    ensures r.Some? ==> r.value < n && KeyName(entries[r.value]) == Some(name)
    ensures r.Some? ==> forall l :: r.value < l < n ==> KeyName(entries[l]) != Some(name)
    ensures r.None? ==> forall l :: 0 <= l < n ==> KeyName(entries[l]) != Some(name)
  {
    if n == 0 then None
    else if KeyName(entries[n - 1]) == Some(name) then Some(n - 1)
    else KeyedBefore(entries, n - 1, name)
  }

  /** The key of `entry` is the node `id`. */
  predicate IsKey(entry: Entry, id: NodeId) {
    EntryKeyValue(entry).Some? && EntryKeyValue(entry).value.0.id == id
  }

  /** No key before position `n` is the node `id`. */
  predicate NoKeyBefore(entries: seq<Entry>, n: nat, id: NodeId)
    requires n <= |entries|
  {
    forall l :: 0 <= l < n ==> !IsKey(entries[l], id)
  }

  /**
   * Leaving an object literal: the elements are taken in order, and each key
   * with a truthy name takes the type of its value, in the key node and in
   * the literal's type. Names no element carries keep their members, and
   * nodes that are no key keep their types.
   */
  function RecordKeys(w: Walk, entries: seq<Entry>, objectId: NodeId, n: nat): (r: Result<Walk>)
    requires n <= |entries|
    ensures r.Ok? ==> r.value.proposals == w.proposals
    ensures r.Ok? ==> r.value.env.stack == w.env.stack && r.value.env.count == w.env.count
    ensures r.Ok? ==> r.value.env.types.Keys == w.env.types.Keys
    ensures r.Ok? ==> forall u, name :: u in w.env.types && KeyedBefore(entries, n, name) == None ==>
      Member(r.value.env.types[u], name) == Member(w.env.types[u], name)
    ensures r.Ok? ==> forall id :: NoKeyBefore(entries, n, id) ==> InferredOf(r.value, id) == InferredOf(w, id)
    decreases n
  {
    if n == 0 then Ok(w)
    else
      match RecordKeys(w, entries, objectId, n - 1)
      case Err(f) => Err(f)
      case Ok(w1) =>
        RecordKeyKeepsMembers(w1, entries[n - 1], objectId);
        RecordKeyKeepsTypes(w1, entries[n - 1], objectId);
        RecordKey(w1, entries[n - 1], objectId)
  }

  /** One element of an object literal. */
  function RecordKey(w: Walk, entry: Entry, objectId: NodeId): (r: Result<Walk>)
    ensures r.Ok? ==> r.value.proposals == w.proposals
    ensures r.Ok? ==> r.value.env.stack == w.env.stack && r.value.env.count == w.env.count
    ensures r.Ok? ==> r.value.env.types.Keys == w.env.types.Keys
  {
    match (EntryKeyValue(entry), KeyName(entry))
    case (Some((k, v)), Some(name)) =>
      var t := InferredOf(w, v.id);
      var w1 := Decorate(w, k.id, t);
      (match AddVariable(w1.env, name, Scope(w1.env, InferredOf(w1, objectId)), t)
       case Err(f) => Err(f)
       case Ok(e) => Ok(w1.(env := e)))
    case _ => Ok(w)
  }

  /** One element leaves the members of every name but its key's as they were. */
  lemma RecordKeyKeepsMembers(w: Walk, entry: Entry, objectId: NodeId)
    ensures var r := RecordKey(w, entry, objectId);
      r.Ok? ==> forall u, name :: u in w.env.types && KeyName(entry) != Some(name) ==>
        Member(r.value.env.types[u], name) == Member(w.env.types[u], name)
  {
  }

  /** One element changes the inferred type of its key node only. */
  lemma RecordKeyKeepsTypes(w: Walk, entry: Entry, objectId: NodeId)
    ensures var r := RecordKey(w, entry, objectId);
      r.Ok? ==> forall id :: !IsKey(entry, id) ==> InferredOf(r.value, id) == InferredOf(w, id)
  {
  }

  /**
   * An element with a truthy key name gives that name, in the literal's
   * type, the type of its value (`Object` when the value has none).
   */
  lemma RecordKeyBinds(w: Walk, entry: Entry, objectId: NodeId)
    requires KeyName(entry).Some? && !IsKey(entry, objectId)
    requires Truthy(InferredOf(w, objectId)) && InferredOf(w, objectId).value in w.env.types
    ensures var r := RecordKey(w, entry, objectId);
      && r.Ok?
      && Member(r.value.env.types[InferredOf(w, objectId).value], KeyName(entry).value)
           == Some(OrObject(InferredOf(w, EntryKeyValue(entry).value.1.id)))
  {
  }

  /** Leaving a variable declarator: the name is declared in the scope with the initialiser's type. */
  function DeclaratorPost(w: Walk, s: Slot, id: Ident, init: Option<Node>): (r: Outcome<Walk>)
    ensures r.Continue? || r.Failed?
    ensures r.Continue? ==> r.state.proposals == w.proposals
  {
    var t := if init.Some? then InferredOf(w, init.value.id) else Some("Object");
    var w1 := Decorate(w, s.node.id, t);
    match AddVariable(w1.env, id.name, Scope(w1.env, TargetType(w1, s)), t)
    case Err(f) => Failed(f)
    case Ok(e) => Continue(w1.(env := e))
  }

  /**
   * Leaving an assignment: it takes the type of its right side, which is
   * also assigned to the right-most identifier of the left side.
   */
  function AssignmentPost(w: Walk, n: Node, left: Node, right: Node): (r: Outcome<Walk>)
    ensures r.Continue? || r.Failed?
    ensures r.Continue? ==> r.state.proposals == w.proposals
  {
    var t := InferredOf(w, right.id);
    var w1 := Decorate(w, n.id, t);
    match FindRightMost(left, None)
    case None => Continue(w1)
    case Some(slot) =>
      match AddOrSetVariable(w1.env, slot.node.kind.name, Scope(w1.env, TargetType(w1, slot)), t)
      case Err(f) => Failed(f)
      case Ok(e) => Continue(w1.(env := e))
  }

  /**
   * Leaving an identifier: under the cursor it proposes the members of its
   * scope and ends the walk; elsewhere it takes the type its name is bound
   * to, or `Object`.
   */
  function IdentifierPost(ctx: Context, w: Walk, s: Slot, name: string): (r: Outcome<Walk>)
    ensures !r.Failed? ==> w.proposals <= r.state.proposals && ProperFrom(ctx.req, r.state.proposals, |w.proposals|)
    ensures r.Continue? ==> r.state.proposals == w.proposals
  {
    match RangeOf(s.node)
    case Err(f) => Failed(f)
    case Ok(range) =>
      if InRange(ctx.offset, range) then
        match Propose(ctx, w, Scope(w.env, TargetType(w, s)))
        case Err(f) => Failed(f)
        case Ok(w1) => Stop(w1)
      else
        match LookupName(w.env, name, Scope(w.env, TargetType(w, s)))
        case Err(f) => Failed(f)
        case Ok(v) => Continue(Decorate(w, s.node.id, Some(OrObject(v))))
  }

  /** The operators typed as numbers. */
  predicate Arithmetic(op: string) {
    op == "+" || op == "-" || op == "/" || op == "*"
  }

  /** The rule of `proposalCollectorPostOp` for each kind of node, before the `Object` default. */
  function PostRule(ctx: Context, s: Slot, w: Walk): (r: Outcome<Walk>)
    ensures !r.Failed? ==> w.proposals <= r.state.proposals && ProperFrom(ctx.req, r.state.proposals, |w.proposals|)
    ensures r.Stop? ==> s.node.kind.Identifier?
  {
    var n := s.node;
    match n.kind
    case BlockStatement(_) => PopWalk(w)
    case CatchClause(_, _) => PopWalk(w)
    case MemberExpression(_, _) => MemberPost(ctx, w, n)
    case CallExpression(callee, _) => Continue(Decorate(w, n.id, InferredOf(w, callee.id)))
    case ObjectExpression(entries) =>
      (match RecordKeys(w, entries, n.id, |entries|)
       case Err(f) => Failed(f)
       case Ok(w1) => PopWalk(w1))
    case BinaryExpression(op, _, _) => Continue(Decorate(w, n.id, Some(if Arithmetic(op) then "Number" else "Object")))
    case UnaryExpression(_) => Continue(Decorate(w, n.id, Some("Number")))
    case UpdateExpression(_) => Continue(Decorate(w, n.id, Some("Number")))
    case FunctionDeclaration(_, _, _) => PopWalk(w)
    case FunctionExpression(_, _, _) => PopWalk(w)
    case VariableDeclarator(id, init) => DeclaratorPost(w, s, id, init)
    case AssignmentExpression(left, right) => AssignmentPost(w, n, left, right)
    case Identifier(name) => IdentifierPost(ctx, w, s, name)
    case ThisExpression =>
      (match LookupName(w.env, "this", Top(w.env))
       case Err(f) => Failed(f)
       case Ok(v) => Continue(Decorate(w, n.id, v)))
    case _ => Continue(w)
  }

  /** `proposalCollectorPostOp(node, data)`: the node's rule, then `Object` for a node still without a type. */
  function PostOp(ctx: Context, s: Slot, w: Walk): (r: Outcome<Walk>)
    ensures !r.Failed? ==> w.proposals <= r.state.proposals && ProperFrom(ctx.req, r.state.proposals, |w.proposals|)
    ensures r.Continue? ==> s.node.id in r.state.inferred && r.state.inferred[s.node.id] != ""
    ensures r.Stop? ==> s.node.kind.Identifier?
  {
    match PostRule(ctx, s, w)
    case Continue(w1) =>
      Continue(if s.node.id in w1.inferred && w1.inferred[s.node.id] != "" then w1 else Decorate(w1, s.node.id, Some("Object")))
    case Stop(w1) => Stop(w1)
    case Failed(f) => Failed(f)
  }

  // ---------------------------------------------------------------------------
  // computeProposals

  function PreFn(ctx: Context): (Slot, Walk) -> Step<Walk> {
    (s, w) => PreOp(ctx, s, w)
  }

  function PostFn(ctx: Context): (Slot, Walk) -> Outcome<Walk> {
    (s, w) => PostOp(ctx, s, w)
  }

  /** The state the inference walk starts from: the catalog, the global scope, no decorations and no proposals. */
  function Start(): (w: Walk)
    ensures w.env == Initial() && w.proposals == []
  {
    Walk(Initial(), map[], [])
  }

  /** The inference walk over the classified tree; a fault other than "done" escapes. */
  function Collect(ctx: Context, root: Node): (r: Result<seq<Proposal>>)
    ensures r.Ok? ==> forall p :: p in r.value ==> Proper(ctx.req, p)
  {
    var outcome := Visit(Slot(root, None), Start(), true, PreFn(ctx), PostFn(ctx));
    CollectProper(ctx, root);
    match outcome
    case Failed(f) => Err(f)
    case Continue(w) => Ok(w.proposals)
    case Stop(w) => Ok(w.proposals)
  }

  /** Every proposal the walk collects is proper for the request. */
  lemma CollectProper(ctx: Context, root: Node)
    ensures var outcome := Visit(Slot(root, None), Start(), true, PreFn(ctx), PostFn(ctx));
      !outcome.Failed? ==> ProperFrom(ctx.req, outcome.state.proposals, 0)
  {
    PreKeepsProper(ctx);
    PostKeepsProper(ctx);
    VisitKeeps(Slot(root, None), Start(), true, PreFn(ctx), PostFn(ctx), ProperInv(ctx));
  }

  /** Every proposal made so far is proper, as the invariant of a walk. */
  function ProperInv(ctx: Context): Walk -> bool {
    (w: Walk) => ProperFrom(ctx.req, w.proposals, 0)
  }

  /** The pre-operation never touches the proposals. */
  lemma PreKeepsProper(ctx: Context)
    ensures PreKeeps(PreFn(ctx), ProperInv(ctx))
  {
    var pre, inv := PreFn(ctx), ProperInv(ctx);
    forall s, w | inv(w) && !pre(s, w).Crash?
      ensures inv(pre(s, w).state)
    {
      assert pre(s, w) == PreOp(ctx, s, w);
    }
  }

  /** The post-operation only appends proper proposals. */
  lemma PostKeepsProper(ctx: Context)
    ensures PostKeeps(PostFn(ctx), ProperInv(ctx))
  {
    var post, inv := PostFn(ctx), ProperInv(ctx);
    forall s, w | inv(w) && !post(s, w).Failed?
      ensures inv(post(s, w).state)
    {
      assert post(s, w) == PostOp(ctx, s, w);
      var ps := post(s, w).state.proposals;
      forall i | 0 <= i < |ps|
        ensures Proper(ctx.req, ps[i])
      {
        if i < |w.proposals| {
          assert ps[i] == w.proposals[i];
        }
      }
    }
  }

  /**
   * `computeProposals(prefix, buffer, selection)` on the parsed tree: classify
   * the position, run the inference walk, and sort what it proposed by
   * description. The replacement starts `|prefix|` characters before the
   * cursor.
   */
  function ComputeProposals(root: Node, offset: int, prefix: string, contents: string): (r: Result<seq<Proposal>>)
    ensures r.Ok? ==> ShouldVisit(root, offset, prefix, contents).Ok?
    ensures r.Ok? ==>
      var (kind, root') := ShouldVisit(root, offset, prefix, contents).value;
      var ctx := Context(offset, contents, Request(prefix, kind, offset - |prefix|));
      Collect(ctx, root').Ok? && multiset(r.value) == multiset(Collect(ctx, root').value)
    ensures r.Ok? ==> SortedByDescription(r.value)
    ensures r.Ok? ==> forall p :: p in r.value ==>
      Proper(Request(prefix, ShouldVisit(root, offset, prefix, contents).value.0, offset - |prefix|), p)
    ensures ShouldVisit(root, offset, prefix, contents).Err? ==> r == Err(ShouldVisit(root, offset, prefix, contents).fault)
  {
    match ShouldVisit(root, offset, prefix, contents)
    case Err(f) => Err(f)
    case Ok((kind, root')) =>
      var ctx := Context(offset, contents, Request(prefix, kind, offset - |prefix|));
      match Collect(ctx, root')
      case Err(f) => Err(f)
      case Ok(ps) =>
        var sorted := SortProposals(ps);
        assert forall p :: p in sorted ==> p in ps by {
          forall p | p in sorted
            ensures p in ps
          {
            assert p in multiset(sorted);
          }
        }
        Ok(sorted)
  }

  /** In a member completion the walk never proposes `this` (there is no `this.this`). */
  lemma MemberCompletionOmitsThis(root: Node, offset: int, prefix: string, contents: string)
    ensures var r := ComputeProposals(root, offset, prefix, contents);
      r.Ok? && ShouldVisit(root, offset, prefix, contents).value.0 == MemberCompletion ==>
        forall p :: p in r.value ==> p.proposal != "this"
  {
  }

  // ---------------------------------------------------------------------------
  // Scopes opened and closed by single steps

  /** Entering a block opens a fresh scope, which becomes the block's type. */
  lemma BlockOpensScope(ctx: Context, s: Slot, w: Walk)
    requires s.node.kind.BlockStatement?
    ensures PreOp(ctx, s, w).Descend?
    ensures var w' := PreOp(ctx, s, w).state;
      && w'.env.stack == w.env.stack + [CounterName(w.env.count)]
      && InferredOf(w', s.node.id) == Some(CounterName(w.env.count))
      && CounterName(w.env.count) in w'.env.types
  {
  }

  /** Leaving a block or a function closes the innermost scope, where `this` is then unbound. */
  lemma LeavingClosesScope(ctx: Context, s: Slot, w: Walk)
    requires s.node.kind.BlockStatement? || s.node.kind.CatchClause? || s.node.kind.FunctionDeclaration? || s.node.kind.FunctionExpression?
    requires |w.env.stack| > 0 && Top(w.env).value in w.env.types
    ensures PostOp(ctx, s, w).Continue?
    ensures var w' := PostOp(ctx, s, w).state;
      && w'.env.stack == w.env.stack[..|w.env.stack| - 1]
      && Member(w'.env.types[Top(w.env).value], "this") == None
      && w'.proposals == w.proposals
  {
  }

  /**
   * Entering a function declaration opens one scope, or two when the name is
   * taken for a constructor; the declaration's type is its own name for a
   * constructor, a fresh `Object~<n>` for an empty name, and `Function`
   * otherwise.
   */
  lemma FunctionDeclarationOpensScopes(ctx: Context, s: Slot, w: Walk)
    requires s.node.kind.FunctionDeclaration?
    requires PreOp(ctx, s, w).Descend?
    ensures var name := s.node.kind.funId.name;
      var w' := PreOp(ctx, s, w).state;
      && |w'.env.stack| == |w.env.stack| + (if FirstCharIsUpper(name) then 2 else 1)
      && w'.env.stack[..|w.env.stack|] == w.env.stack
      && (FirstCharIsUpper(name) && name != "" ==> InferredOf(w', s.node.id) == Some(name))
      && (name == "" ==> InferredOf(w', s.node.id) == Some(CounterName(w.env.count + 1)))
      && (!FirstCharIsUpper(name) ==> InferredOf(w', s.node.id) == Some("Function"))
  {
    var id, params := s.node.kind.funId, s.node.kind.params;
    PreOpOnFunction(ctx, s.node, id, params, s.node.kind.funBody, s.target, w);
    assert Slot(s.node, s.target) == s;
    FunctionPreScopes(w, s, id, params);
  }

  /** The same facts, stated of the function-declaration branch itself. */
  lemma FunctionPreScopes(w: Walk, s: Slot, id: Ident, params: seq<Ident>)
    requires s.node.kind.FunctionDeclaration?
    requires FunctionPre(w, s, id, params).Descend?
    ensures var name := id.name;
      var w' := FunctionPre(w, s, id, params).state;
      && |w'.env.stack| == |w.env.stack| + (if FirstCharIsUpper(name) then 2 else 1)
      && w'.env.stack[..|w.env.stack|] == w.env.stack
      && (FirstCharIsUpper(name) && name != "" ==> InferredOf(w', s.node.id) == Some(name))
      && (name == "" ==> InferredOf(w', s.node.id) == Some(CounterName(w.env.count + 1)))
      && (!FirstCharIsUpper(name) ==> InferredOf(w', s.node.id) == Some("Function"))
  {
    FunctionPreOpensScopes(w, s, id, params);
    var w' := FunctionPre(w, s, id, params).state;
    var e0 := AddFunction(w.env, id.name, ParamNames(params), Scope(w.env, TargetType(w, s)), Some("Function"));
    var e1 := e0.value;
    assert e1.stack == w.env.stack && e1.count == w.env.count;
    var (e2, t) := EnterFunction(e1, id.name);
    assert w'.env.stack == e2.stack;
    assert InferredOf(w', s.node.id) == Some(t);
    if id.name == "" {
      assert t == CounterName(e1.count + 1);
    }
  }

  /** `proposalCollector` hands a function declaration to its own branch. */
  lemma PreOpOnFunction(ctx: Context, n: Node, id: Ident, params: seq<Ident>, body: Node, target: Option<Node>, w: Walk)
    requires n.kind == FunctionDeclaration(id, params, body)
    ensures PreOp(ctx, Slot(n, target), w) == FunctionPre(w, Slot(n, target), id, params)
  {
  }

  /** Where the branch reads the declaration's scopes and type from. */
  lemma FunctionPreOpensScopes(w: Walk, s: Slot, id: Ident, params: seq<Ident>)
    requires FunctionPre(w, s, id, params).Descend?
    ensures var w' := FunctionPre(w, s, id, params).state;
      var (e2, t) := EnterFunction(AddFunction(w.env, id.name, ParamNames(params), Scope(w.env, TargetType(w, s)), Some("Function")).value, id.name);
      && AddFunction(w.env, id.name, ParamNames(params), Scope(w.env, TargetType(w, s)), Some("Function")).Ok?
      && w'.env.stack == e2.stack
      && InferredOf(w', s.node.id) == Some(t)
  {
  }

  /**
   * A constructor leaks a scope: when the body leaves the scopes as it found
   * them, leaving the declaration closes only one of the two scopes entering
   * it opened.
   */
  lemma ConstructorLeaksScope(ctx: Context, s: Slot, w: Walk, body: Walk)
    requires s.node.kind.FunctionDeclaration? && FirstCharIsUpper(s.node.kind.funId.name)
    ensures PreOp(ctx, s, w).Descend? && body.env.stack == PreOp(ctx, s, w).state.env.stack && PostOp(ctx, s, body).Continue? ==>
      && PostOp(ctx, s, body).state.env.stack == PreOp(ctx, s, w).state.env.stack[..|w.env.stack| + 1]
      && |PostOp(ctx, s, body).state.env.stack| == |w.env.stack| + 1
  {
    if PreOp(ctx, s, w).Descend? && body.env.stack == PreOp(ctx, s, w).state.env.stack && PostOp(ctx, s, body).Continue? {
      FunctionDeclarationOpensScopes(ctx, s, w);
      LeavingPops(ctx, s, body);
    }
  }

  /** Leaving a scope-opening node that continues has popped exactly the innermost scope. */
  lemma LeavingPops(ctx: Context, s: Slot, w: Walk)
    requires s.node.kind.BlockStatement? || s.node.kind.CatchClause? || s.node.kind.FunctionDeclaration? || s.node.kind.FunctionExpression?
    ensures PostOp(ctx, s, w).Continue? ==>
      |w.env.stack| > 0 && PostOp(ctx, s, w).state.env.stack == w.env.stack[..|w.env.stack| - 1]
  {
  }

  /** Entering a function expression opens no scope and changes nothing. */
  lemma FunctionExpressionOpensNoScope(ctx: Context, s: Slot, w: Walk)
    requires s.node.kind.FunctionExpression?
    ensures PreOp(ctx, s, w) == Descend(w)
  {
  }

  /**
   * A function expression in the global scope closes the global scope on
   * the way out, after which declaring the variable it initialises faults:
   * `var f = function () {};` at top level cannot be completed in.
   */
  lemma TopLevelFunctionExpressionFaults(ctx: Context, fun: Slot, decl: Slot, w: Walk)
    requires fun.node.kind.FunctionExpression?
    requires decl.node.kind.VariableDeclarator? && decl.target.None?
    requires w.env.stack == ["Global"] && "Global" in w.env.types
    ensures PostOp(ctx, fun, w).Continue?
    ensures PostOp(ctx, fun, w).state.env.stack == []
    ensures PostOp(ctx, decl, PostOp(ctx, fun, w).state) == Failed(MissingType(None))
  {
    DeclaratorWithoutScopeFaults(ctx, decl, PostOp(ctx, fun, w).state);
  }

  /** With no scope left, declaring a variable faults. */
  lemma DeclaratorWithoutScopeFaults(ctx: Context, decl: Slot, w: Walk)
    requires decl.node.kind.VariableDeclarator? && decl.target.None?
    requires w.env.stack == []
    ensures PostOp(ctx, decl, w) == Failed(MissingType(None))
  {
    assert PostRule(ctx, decl, w).Failed?;
  }

  // ---------------------------------------------------------------------------
  // Types given to expressions

  /** A binary expression is a `Number` exactly for the four arithmetic operators, and an `Object` otherwise. */
  lemma BinaryExpressionType(ctx: Context, s: Slot, w: Walk)
    requires s.node.kind.BinaryExpression?
    ensures PostOp(ctx, s, w).Continue?
    ensures InferredOf(PostOp(ctx, s, w).state, s.node.id) == Some("Number") <==> Arithmetic(s.node.kind.operator)
    ensures !Arithmetic(s.node.kind.operator) ==> InferredOf(PostOp(ctx, s, w).state, s.node.id) == Some("Object")
  {
  }

  /** Unary and update expressions are numbers. */
  lemma UnaryExpressionType(ctx: Context, s: Slot, w: Walk)
    requires s.node.kind.UnaryExpression? || s.node.kind.UpdateExpression?
    ensures PostOp(ctx, s, w).Continue?
    ensures InferredOf(PostOp(ctx, s, w).state, s.node.id) == Some("Number")
  {
  }

  /** A call has the type of its callee, or `Object` when the callee has none. */
  lemma CallExpressionType(ctx: Context, s: Slot, w: Walk)
    requires s.node.kind.CallExpression?
    ensures PostOp(ctx, s, w).Continue?
    ensures InferredOf(PostOp(ctx, s, w).state, s.node.id) == Some(OrObject(InferredOf(w, s.node.kind.callee.id)))
  {
  }

  /**
   * Leaving a variable declarator gives it the initialiser's type (`Object`
   * without one), and the declared name then resolves to that type in the
   * scope it was declared in.
   */
  lemma DeclaratorBindsName(ctx: Context, s: Slot, w: Walk)
    requires s.node.kind.VariableDeclarator? && s.target.None?
    ensures PostOp(ctx, s, w).Continue? <==> Top(w.env).Some? && Top(w.env).value in w.env.types
    ensures PostOp(ctx, s, w).Continue? ==>
      var init := s.node.kind.init;
      var t := OrObject(if init.Some? then InferredOf(w, init.value.id) else Some("Object"));
      var w' := PostOp(ctx, s, w).state;
      && Top(w.env).Some?
      && InferredOf(w', s.node.id) == Some(t)
      && LookupName(w'.env, s.node.kind.declId.name, Top(w.env)) == Ok(Some(t))
  {
    if Top(w.env).Some? && Top(w.env).value in w.env.types {
      var init, name := s.node.kind.init, s.node.kind.declId.name;
      var t := if init.Some? then InferredOf(w, init.value.id) else Some("Object");
      var scope := Top(w.env).value;
      var e := AddVariable(w.env, name, Some(scope), t).value;
      assert e.types == Bind(w.env.types, scope, name, Some(OrObject(t)));
      LookupAfterOwnBind(w.env.types, name, scope, ChainFuel(e), OrObject(t));
    }
  }

  /** An assignment has the type of its right side, or `Object`. */
  lemma AssignmentExpressionType(ctx: Context, s: Slot, w: Walk)
    requires s.node.kind.AssignmentExpression?
    requires PostOp(ctx, s, w).Continue?
    ensures InferredOf(PostOp(ctx, s, w).state, s.node.id) == Some(OrObject(InferredOf(w, s.node.kind.right.id)))
  {
  }

  /**
   * An identifier away from the cursor has the type its name resolves to
   * from its scope (its target's type for a property), or `Object`.
   */
  lemma IdentifierType(ctx: Context, s: Slot, w: Walk)
    requires s.node.kind.Identifier? && s.node.range.Some? && !InRange(ctx.offset, s.node.range.value)
    requires PostOp(ctx, s, w).Continue?
    ensures var v := LookupName(w.env, s.node.kind.name, Scope(w.env, TargetType(w, s)));
      v.Ok? && InferredOf(PostOp(ctx, s, w).state, s.node.id) == Some(OrObject(v.value))
  {
  }

  /**
   * The identifier under the cursor ends the walk with the members of its
   * scope (of its target's type, for a property) added to the proposals.
   */
  lemma IdentifierUnderCursorProposes(ctx: Context, s: Slot, w: Walk)
    requires s.node.kind.Identifier? && s.node.range.Some? && InRange(ctx.offset, s.node.range.value)
    ensures var ps := CreateProposals(ctx.req, w.env, Scope(w.env, TargetType(w, s)));
      PostOp(ctx, s, w) == if ps.Ok? then Stop(w.(proposals := w.proposals + ps.value)) else Failed(ps.fault)
  {
  }

  /**
   * Leaving a member expression right after its dot adds the members of the
   * object's type to the proposals; the expression then has its property's
   * type, or its object's when it has no property.
   */
  lemma MemberExpressionAfterDot(ctx: Context, s: Slot, w: Walk)
    requires s.node.kind.MemberExpression?
    requires AfterDotAt(ctx.offset, s.node, ctx.contents) == Ok(true)
    requires PostOp(ctx, s, w).Continue?
    ensures var o, p := s.node.kind.obj, s.node.kind.property;
      var ps := CreateProposals(ctx.req, w.env, Scope(w.env, InferredOf(w, o.id)));
      var w' := PostOp(ctx, s, w).state;
      && ps.Ok?
      && w'.proposals == w.proposals + ps.value
      && InferredOf(w', s.node.id) == Some(OrObject(InferredOf(w, if p.Some? then p.value.id else o.id)))
  {
    assert PostRule(ctx, s, w) == MemberPost(ctx, w, s.node);
    MemberPostAfterDot(ctx, w, s.node);
  }

  /** The same facts, stated of the member-expression rule itself. */
  lemma MemberPostAfterDot(ctx: Context, w: Walk, n: Node)
    requires n.kind.MemberExpression?
    requires AfterDotAt(ctx.offset, n, ctx.contents) == Ok(true)
    ensures var o, p := n.kind.obj, n.kind.property;
      var ps := CreateProposals(ctx.req, w.env, Scope(w.env, InferredOf(w, o.id)));
      MemberPost(ctx, w, n).Continue? ==>
        && ps.Ok?
        && MemberPost(ctx, w, n).state.proposals == w.proposals + ps.value
        && MemberPost(ctx, w, n).state.env == w.env
        && var v := InferredOf(w, if p.Some? then p.value.id else o.id);
           InferredOf(MemberPost(ctx, w, n).state, n.id) == if Truthy(v) then v else None
  {
  }

  /**
   * Entering an object literal opens a scope whose `this` is a fresh object
   * type, which becomes the literal's type and has every key with a truthy
   * name as an `Object` member.
   */
  lemma ObjectLiteralDeclaresKeys(ctx: Context, s: Slot, w: Walk)
    requires s.node.kind.ObjectExpression?
    ensures PreOp(ctx, s, w).Descend?
    ensures var w' := PreOp(ctx, s, w).state;
      var t := CounterName(w.env.count + 1);
      && InferredOf(w', s.node.id) == Some(t)
      && w'.env.stack == w.env.stack + [CounterName(w.env.count)]
      && t in w'.env.types
      && forall j :: 0 <= j < |s.node.kind.entries| && KeyName(s.node.kind.entries[j]).Some? ==>
           Member(w'.env.types[t], KeyName(s.node.kind.entries[j]).value) == Some("Object")
  {
    PreOpOnObject(ctx, s, w);
    ObjectPreDeclaresKeys(w, s.node.id, s.node.kind.entries);
  }

  /** `proposalCollector` hands an object literal to its own branch. */
  lemma PreOpOnObject(ctx: Context, s: Slot, w: Walk)
    requires s.node.kind.ObjectExpression?
    ensures PreOp(ctx, s, w) == ObjectPre(w, s.node.id, s.node.kind.entries)
  {
  }

  /** The same facts, stated of the object-literal branch itself. */
  lemma ObjectPreDeclaresKeys(w: Walk, id: NodeId, entries: seq<Entry>)
    ensures var w' := ObjectPre(w, id, entries).state;
      var t := CounterName(w.env.count + 1);
      && InferredOf(w', id) == Some(t)
      && w'.env.stack == w.env.stack + [CounterName(w.env.count)]
      && t in w'.env.types
      && forall j :: 0 <= j < |entries| && KeyName(entries[j]).Some? ==>
           Member(w'.env.types[t], KeyName(entries[j]).value) == Some("Object")
  {
  }

  // ---------------------------------------------------------------------------
  // Object-literal keys and assignments

  /**
   * Leaving an object literal gives each key name, in the literal's type, the
   * type of the value of the last element with that key (`Object` when the
   * value has none), provided no key is the literal itself or that value.
   */
  lemma {:induction false} RecordKeysTypesKey(w: Walk, entries: seq<Entry>, objectId: NodeId, n: nat, j: nat)
    requires j < n <= |entries| && KeyName(entries[j]).Some?
    requires KeyedBefore(entries, n, KeyName(entries[j]).value) == Some(j)
    requires Truthy(InferredOf(w, objectId)) && InferredOf(w, objectId).value in w.env.types
    requires NoKeyBefore(entries, n, objectId) && NoKeyBefore(entries, n, EntryKeyValue(entries[j]).value.1.id)
    ensures var t := InferredOf(w, objectId).value;
      var v := EntryKeyValue(entries[j]).value.1;
      RecordKeys(w, entries, objectId, n).Ok? ==>
      Member(RecordKeys(w, entries, objectId, n).value.env.types[t], KeyName(entries[j]).value) == Some(OrObject(InferredOf(w, v.id)))
    decreases n
  {
    var t, name, vid := InferredOf(w, objectId).value, KeyName(entries[j]).value, EntryKeyValue(entries[j]).value.1.id;
    if j < n - 1 {
      assert RecordKeys(w, entries, objectId, n).Ok? ==>
        Member(RecordKeys(w, entries, objectId, n).value.env.types[t], name) == Some(OrObject(InferredOf(w, vid))) by {
        KeyedBeforeDrop(entries, n, name, j);
        RecordKeysTypesKey(w, entries, objectId, n - 1, j);
        RecordKeysOtherKey(w, entries, objectId, n, t, name);
      }
    } else {
      assert RecordKeys(w, entries, objectId, n).Ok? ==>
        Member(RecordKeys(w, entries, objectId, n).value.env.types[t], name) == Some(OrObject(InferredOf(w, vid))) by {
        RecordKeysLastKey(w, entries, objectId, n);
        assert entries[j] == entries[n - 1];
      }
    }
  }

  /** Dropping an element after the last one keyed `name` leaves that position last. */
  lemma KeyedBeforeDrop(entries: seq<Entry>, n: nat, name: string, j: nat)
    requires n <= |entries| && j + 1 < n && KeyedBefore(entries, n, name) == Some(j)
    ensures KeyedBefore(entries, n - 1, name) == Some(j) && KeyName(entries[n - 1]) != Some(name)
  {
  }

  /** The last element binds its own key. */
  lemma RecordKeysLastKey(w: Walk, entries: seq<Entry>, objectId: NodeId, n: nat)
    requires 0 < n <= |entries| && KeyName(entries[n - 1]).Some?
    requires Truthy(InferredOf(w, objectId)) && InferredOf(w, objectId).value in w.env.types
    requires NoKeyBefore(entries, n, objectId) && NoKeyBefore(entries, n - 1, EntryKeyValue(entries[n - 1]).value.1.id)
    ensures var t := InferredOf(w, objectId).value;
      var v := EntryKeyValue(entries[n - 1]).value.1;
      RecordKeys(w, entries, objectId, n).Ok? ==>
      Member(RecordKeys(w, entries, objectId, n).value.env.types[t], KeyName(entries[n - 1]).value) == Some(OrObject(InferredOf(w, v.id)))
  {
    if RecordKeys(w, entries, objectId, n).Ok? {
      var vid := EntryKeyValue(entries[n - 1]).value.1.id;
      var w1 := RecordKeys(w, entries, objectId, n - 1).value;
      assert RecordKeys(w, entries, objectId, n) == RecordKey(w1, entries[n - 1], objectId);
      assert NoKeyBefore(entries, n - 1, objectId);
      assert InferredOf(w1, objectId) == InferredOf(w, objectId);
      assert InferredOf(w1, vid) == InferredOf(w, vid);
      RecordKeyBinds(w1, entries[n - 1], objectId);
    }
  }

  /** An element with another key leaves a key's type alone. */
  lemma RecordKeysOtherKey(w: Walk, entries: seq<Entry>, objectId: NodeId, n: nat, t: string, name: string)
    requires 0 < n <= |entries| && KeyName(entries[n - 1]) != Some(name) && t in w.env.types
    ensures RecordKeys(w, entries, objectId, n).Ok? ==>
      && RecordKeys(w, entries, objectId, n - 1).Ok?
      && Member(RecordKeys(w, entries, objectId, n).value.env.types[t], name)
         == Member(RecordKeys(w, entries, objectId, n - 1).value.env.types[t], name)
  {
    if RecordKeys(w, entries, objectId, n).Ok? {
      var w1 := RecordKeys(w, entries, objectId, n - 1).value;
      assert RecordKeys(w, entries, objectId, n) == RecordKey(w1, entries[n - 1], objectId);
      RecordKeyKeepsMembers(w1, entries[n - 1], objectId);
    }
  }

  /**
   * Leaving an assignment assigns the right side's type to the right-most
   * identifier of the left side, in the scope of its target (the current
   * scope for a plain name): the step fails exactly when that scope has no
   * descriptor, and otherwise the name then resolves to the assigned type
   * from that scope, except when a string property name is silently dropped.
   * A left side without a right-most identifier binds nothing.
   */
  lemma AssignmentRebindsRightMost(ctx: Context, s: Slot, w: Walk)
    requires s.node.kind.AssignmentExpression?
    requires var rm := FindRightMost(s.node.kind.left, None);
      rm.Some? && rm.value.target.Some? ==> rm.value.target.value.id != s.node.id
    ensures FindRightMost(s.node.kind.left, None).None? ==>
      PostOp(ctx, s, w).Continue? && PostOp(ctx, s, w).state.env == w.env
    ensures FindRightMost(s.node.kind.left, None).Some? ==>
      var slot := FindRightMost(s.node.kind.left, None).value;
      var name := slot.node.kind.name;
      var t := InferredOf(w, s.node.kind.right.id);
      var scope := Scope(w.env, TargetType(w, slot));
      && (PostOp(ctx, s, w).Continue? <==> scope.Some? && scope.value in w.env.types)
      && (PostOp(ctx, s, w).Continue? ==>
            var d := w.env.types[scope.value];
            var e' := PostOp(ctx, s, w).state.env;
            if !Truthy(Member(d, name)) && HasProto(d) && name in StringMembers then e' == w.env
            else LookupName(e', name, scope) == Ok(Some(OrObject(t))))
  {
    var n := s.node;
    var t := InferredOf(w, n.kind.right.id);
    var w1 := Decorate(w, n.id, t);
    assert PostRule(ctx, s, w) == AssignmentPost(w, n, n.kind.left, n.kind.right);
    if FindRightMost(n.kind.left, None).Some? {
      var slot := FindRightMost(n.kind.left, None).value;
      assert TargetType(w1, slot) == TargetType(w, slot);
    }
  }
}

=== FILE: offsets.dfy ===
/**
 * Offset arithmetic of the content-assist engine.
 *
 * A parser range `[start, end]` names the first character and the LAST
 * character of a node (both inclusive). A cursor offset "overlaps" a node when
 * it lies in `start .. end + 1`: the cursor may sit just after the node's last
 * character.
 */
module Offsets {

  import opened Base

  datatype Range = Range(start: int, end: int)

  /** `inRange(offset, range)`: the cursor touches the node, one position of slack after its end. */
  predicate InRange(offset: int, r: Range) {
    r.start <= offset && r.end + 1 >= offset
  }

  /** `isBefore(offset, range)`: a node without a range counts as lying after the cursor. */
  predicate IsBefore(offset: int, r: Option<Range>) {
    match r
    case None => true
    case Some(rr) => offset < rr.start
  }

  /** `isAfter(offset, range)`: a node without a range also counts as lying before the cursor. */
  predicate IsAfter(offset: int, r: Option<Range>) {
    match r
    case None => true
    case Some(rr) => offset > rr.end + 1
  }

  /** For a present range exactly one of the three position tests holds. */
  lemma PositionTrichotomy(offset: int, r: Range)
    ensures IsBefore(offset, Some(r)) || InRange(offset, r) || IsAfter(offset, Some(r))
    ensures !(IsBefore(offset, Some(r)) && InRange(offset, r))
    ensures !(InRange(offset, r) && IsAfter(offset, Some(r)))
    ensures !(IsBefore(offset, Some(r)) && IsAfter(offset, Some(r))) || r.end + 1 < r.start
  {
  }

  /** A missing range is both "before" and "after" every offset. */
  lemma MissingRangeIsBeforeAndAfter(offset: int)
    ensures IsBefore(offset, None) && IsAfter(offset, None)
  {
  }

  /** `contents.charAt(i)`: the character at `i`, or nothing (the empty string) outside the buffer. */
  function CharAt(s: string, i: int): (c: Option<char>)
    ensures c.Some? <==> 0 <= i < |s|
    ensures c.Some? ==> c.value == s[i]
  {
    if 0 <= i < |s| then Some(s[i]) else None
  }

  predicate IsDot(s: string, i: int) {
    CharAt(s, i) == Some('.')
  }

  /**
   * The loop of `afterDot`: starting at `i`, step right while the character is
   * not a dot and the index is below `end`.
   */
  function ScanDot(s: string, i: int, end: int): (d: int)
    ensures i <= d
    ensures d == i || d <= end
    ensures IsDot(s, d) || d >= end
    ensures forall k :: i <= k < d ==> !IsDot(s, k)
    decreases end - i
  {
    if !IsDot(s, i) && i < end then ScanDot(s, i + 1, end) else i
  }

  /** The index where `afterDot` stops looking for the dot: the property's start, or the member's end. */
  function DotSearchEnd(member: Range, property: Option<Range>): int {
    match property
    case Some(p) => p.start
    case None => member.end
  }

  /**
   * `afterDot(offset, memberExpr, contents)` once the three ranges are known:
   * the cursor is inside the member expression, outside its object, not past
   * the start of the property, and a dot was found strictly before the cursor.
   */
  function AfterDot(offset: int, member: Range, obj: Range, property: Option<Range>, contents: string): (r: bool)
    ensures !InRange(offset, member) ==> !r
    ensures InRange(offset, obj) ==> !r
    ensures offset < DotSearchEnd(member, property) ==> !r
    ensures r ==> exists d :: obj.end <= d < offset && IsDot(contents, d)
  {
    var end := DotSearchEnd(member, property);
    if !InRange(offset, member) || InRange(offset, obj) || offset < end then false
    else
      var d := ScanDot(contents, obj.end, end);
      IsDot(contents, d) && d < offset
  }

  /** The first dot at or after the object's last character, looking no further than the search end. */
  ghost predicate FirstDotAt(contents: string, obj: Range, end: int, d: int) {
    && obj.end <= d
    && (d == obj.end || d <= end)
    && IsDot(contents, d)
    && forall k :: obj.end <= k < d ==> !IsDot(contents, k)
  }

  /** `afterDot` holds exactly when the guards pass and the first dot after the object lies before the cursor. */
  lemma AfterDotCharacterised(offset: int, member: Range, obj: Range, property: Option<Range>, contents: string)
    ensures AfterDot(offset, member, obj, property, contents) <==>
      && InRange(offset, member)
      && !InRange(offset, obj)
      && offset >= DotSearchEnd(member, property)
      && exists d :: FirstDotAt(contents, obj, DotSearchEnd(member, property), d) && d < offset
  {
    var end := DotSearchEnd(member, property);
    var d := ScanDot(contents, obj.end, end);
    if AfterDot(offset, member, obj, property, contents) {
      assert FirstDotAt(contents, obj, end, d);
    }
    if InRange(offset, member) && !InRange(offset, obj) && offset >= end {
      if e :| FirstDotAt(contents, obj, end, e) && e < offset {
        ScanDotFindsFirstDot(contents, obj.end, end, e);
      }
    }
  }

  /** The scan stops exactly at the first dot when that dot is within reach. */
  lemma {:induction false} ScanDotFindsFirstDot(s: string, i: int, end: int, e: int)
    requires i <= e && (e == i || e <= end)
    requires IsDot(s, e)
    requires forall k :: i <= k < e ==> !IsDot(s, k)
    ensures ScanDot(s, i, end) == e
    decreases e - i
  {
    if i < e {
      ScanDotFindsFirstDot(s, i + 1, end, e);
    }
  }
}

=== FILE: proposals.dfy ===
/**
 * Proposal generation: `calculateFunctionProposal`, `createProposals` and the
 * final sort by description.
 *
 * `createProposals(targetType)` walks the prototype chain from `targetType`
 * and, at each descriptor, turns every member whose (decoded) name starts with
 * the prefix into a proposal: a function proposal when the descriptor's
 * `$$args` lists parameters for it, a property proposal otherwise.
 */
module Proposals {

  import opened Base
  import opened Strings
  import opened Catalog
  import opened TypeEnv

  /** `completionKind`: after a dot, or at the start of an expression. */
  datatype CompletionKind = MemberCompletion | TopCompletion

  /** A linked-editing position: where a parameter name lands in the buffer once the proposal is inserted. */
  datatype Position = Position(offset: int, length: nat)

  datatype Proposal =
    | PropertyProposal(proposal: string, description: string)
    | FunctionProposal(proposal: string, description: string, positions: seq<Position>, escapePosition: int)

  /** The parts of one request that proposal generation reads. */
  datatype Request = Request(prefix: string, kind: CompletionKind, replaceStart: int)

  // ---------------------------------------------------------------------------
  // calculateFunctionProposal

  /**
   * Position `k` marks parameter `k`: its length is the parameter's, and the
   * text at its offset less `offset + 1` is the parameter.
   */
  predicate Placed(text: string, params: seq<string>, ps: seq<Position>, offset: int) {
    && |ps| == |params|
    && forall k :: 0 <= k < |ps| ==>
      && ps[k].length == |params[k]|
      && 0 <= ps[k].offset - offset - 1
      && ps[k].offset - offset - 1 + ps[k].length <= |text|
      && text[ps[k].offset - offset - 1 .. ps[k].offset - offset - 1 + ps[k].length] == params[k]
  }

  lemma PlacedCons(text: string, p: string, params: seq<string>, here: Position, ps: seq<Position>, offset: int)
    requires Placed(text, params, ps, offset)
    requires here.length == |p| && 0 <= here.offset - offset - 1 && here.offset - offset - 1 + |p| <= |text|
    requires text[here.offset - offset - 1 .. here.offset - offset - 1 + |p|] == p
    ensures Placed(text, [p] + params, [here] + ps, offset)
  {
    var params', ps' := [p] + params, [here] + ps;
    forall k | 0 < k < |ps'|
      ensures ps'[k] == ps[k - 1] && params'[k] == params[k - 1]
    {
    }
  }

  lemma PlacedExtend(text: string, suffix: string, params: seq<string>, ps: seq<Position>, offset: int)
    requires Placed(text, params, ps, offset)
    ensures Placed(text + suffix, params, ps, offset)
  {
    forall k | 0 <= k < |ps|
      ensures (text + suffix)[ps[k].offset - offset - 1 .. ps[k].offset - offset - 1 + ps[k].length] == params[k]
    {
      var st := ps[k].offset - offset - 1;
      assert (text + suffix)[st..st + ps[k].length] == text[st..st + ps[k].length];
    }
  }

  /**
   * The loop of `calculateFunctionProposal` from parameter `i` on, with the
   * completion built so far: a separator before every parameter but the
   * first, and a position recorded just before each parameter is appended.
   */
  function TemplateFrom(completion: string, params: seq<string>, i: nat, offset: int): (r: (string, seq<Position>))
    requires i <= |params|
    ensures StartsWith(r.0, completion)
    ensures Placed(r.0, params[i..], r.1, offset)
    decreases |params| - i
  {
    if i == |params| then (completion, [])
    else
      var c := if i > 0 then completion + ", " else completion;
      var rest := TemplateFrom(c + params[i], params, i + 1, offset);
      var here := Position(offset + |c| + 1, |params[i]|);
      assert rest.0[..|c + params[i]|] == c + params[i];
      assert rest.0[|c|..|c| + |params[i]|] == params[i] by {
        assert (c + params[i])[|c|..|c| + |params[i]|] == params[i];
      }
      assert StartsWith(c + params[i], completion) by {
        assert (c + params[i])[..|completion|] == c[..|completion|];
      }
      StartsWithTransitive(rest.0, c + params[i], completion);
      PlacedCons(rest.0, params[i], params[i + 1..], here, rest.1, offset);
      assert [params[i]] + params[i + 1..] == params[i..];
      (rest.0, [here] + rest.1)
  }

  /** After `i` parameters the loop has built `head` followed by those parameters joined by `", "`. */
  lemma {:induction false} TemplateFromJoins(head: string, params: seq<string>, i: nat, offset: int)
    requires i <= |params|
    ensures TemplateFrom(head + Join(params[..i], ", "), params, i, offset).0 == head + Join(params, ", ")
    decreases |params| - i
  {
    if i == |params| {
      assert params[..i] == params;
    } else {
      var c := head + Join(params[..i], ", ");
      var next := head + Join(params[..i + 1], ", ");
      assert params[..i + 1][..i] == params[..i];
      if i > 0 {
        assert next == c + ", " + params[i];
      } else {
        assert next == c + params[i];
      }
      TemplateFromJoins(head, params, i + 1, offset);
    }
  }

  /**
   * `calculateFunctionProposal(name, params, offset)`: the call template
   * `name(p1, p2, ...)` and one position per parameter, in order, whose length
   * is the parameter's and whose offset, less `offset + 1`, is where the
   * parameter sits in the template.
   */
  function Template(name: string, params: seq<string>, offset: int): (r: (string, seq<Position>))
    ensures |params| == 0 ==> r == (name + "()", [])
    ensures r.0 == name + "(" + Join(params, ", ") + ")"
    ensures Placed(r.0, params, r.1, offset)
  {
    if |params| == 0 then (name + "()", [])
    else
      var built := TemplateFrom(name + "(", params, 0, offset);
      assert params[..0] == [] && params[0..] == params;
      TemplateFromJoins(name + "(", params, 0, offset);
      PlacedExtend(built.0, ")", params, built.1, offset);
      (built.0 + ")", built.1)
  }

  // ---------------------------------------------------------------------------
  // createProposals

  /** The proposed name of member `key`: the `$$` alias is decoded only at a descriptor without a prototype. */
  function Decoded(d: Descriptor, key: string): (n: string)
    ensures HasProto(d) ==> n == key
    ensures !HasProto(d) && StartsWith(key, "$$") ==> key == "$$" + n
    ensures !StartsWith(key, "$$") ==> n == key
  {
    if !HasProto(d) && StartsWith(key, "$$") then key[2..] else key
  }

  /** Whether member `key` of `d` yields a proposal. */
  predicate Shown(req: Request, d: Descriptor, key: string) {
    && key != "$$prototype" && key != "$$args"
    && !(req.kind == MemberCompletion && Decoded(d, key) == "this")
    && StartsWith(Decoded(d, key), req.prefix)
  }

  /** The proposal made for member `key` of `d`. */
  function ProposalFor(req: Request, d: Descriptor, key: string): Proposal
    requires d.args.Some?
  {
    var name := Decoded(d, key);
    if key in d.args.value then
      var (c, positions) := Template(name, d.args.value[key], req.replaceStart - 1);
      FunctionProposal(c, c + " (function)", positions, req.replaceStart + |c|)
    else
      PropertyProposal(name, name + " (property)")
  }

  /**
   * A well-formed proposal for the request: the completion and the
   * description start with the prefix, and in a member completion no
   * proposal completes to `this`.
   */
  predicate Proper(req: Request, p: Proposal) {
    && StartsWith(p.proposal, req.prefix)
    && StartsWith(p.description, req.prefix)
    && (req.kind == MemberCompletion ==> p.proposal != "this")
  }

  lemma ProposalForProper(req: Request, d: Descriptor, key: string)
    requires d.args.Some? && Shown(req, d, key)
    ensures Proper(req, ProposalFor(req, d, key))
  {
    var name := Decoded(d, key);
    if key in d.args.value {
      TemplateKeepsPrefix(req.prefix, name, d.args.value[key], req.replaceStart - 1);
    } else {
      assert name[..|name|] == name;
      DescribedFrom(req.prefix, name, name, " (property)");
    }
  }

  /** A call template keeps the prefix of its name, in itself and in its description, and is never `this`. */
  lemma TemplateKeepsPrefix(prefix: string, name: string, params: seq<string>, offset: int)
    requires StartsWith(name, prefix)
    ensures var c := Template(name, params, offset).0;
      StartsWith(c, prefix) && StartsWith(c + " (function)", prefix) && c != "this"
  {
    var c := Template(name, params, offset).0;
    var tail := "(" + Join(params, ", ") + ")";
    assert c == name + tail;
    assert c[..|name|] == name;
    DescribedFrom(prefix, name, c, " (function)");
    assert c[|c| - 1] == ')';
  }

  /** A completion that extends the name, and a description that extends the completion, keep the name's prefix. */
  lemma DescribedFrom(prefix: string, name: string, completion: string, suffix: string)
    requires StartsWith(name, prefix) && StartsWith(completion, name)
    ensures StartsWith(completion, prefix) && StartsWith(completion + suffix, prefix)
  {
    StartsWithTransitive(completion, name, prefix);
    StartsWithConcat(completion, suffix, prefix);
  }

  /**
   * The `for (prop in type)` loop over the members of descriptor `t` from
   * member `i` on. Reading `$$args[prop]` of a descriptor without `$$args`
   * (only `Arguments`) is a fault, raised as soon as a member passes the
   * filters.
   */
  function OwnFrom(req: Request, t: string, d: Descriptor, i: nat): (r: Result<seq<Proposal>>)
    requires i <= |d.members|
    ensures r.Err? <==> d.args.None? && exists j :: i <= j < |d.members| && Shown(req, d, d.members[j].0)
    ensures r.Err? ==> r.fault == MissingArgs(t)
    ensures r.Ok? ==> forall p :: p in r.value <==>
      exists j :: i <= j < |d.members| && Shown(req, d, d.members[j].0) && d.args.Some? && p == ProposalFor(req, d, d.members[j].0)
    decreases |d.members| - i
  {
    if i == |d.members| then Ok([])
    else
      var key := d.members[i].0;
      if !Shown(req, d, key) then OwnFrom(req, t, d, i + 1)
      else if d.args.None? then Err(MissingArgs(t))
      else
        match OwnFrom(req, t, d, i + 1)
        case Err(f) => Err(f)
        case Ok(rest) => Ok([ProposalFor(req, d, key)] + rest)
  }

  /** The recursion of `createProposals` along the prototype chain, with at most `fuel` steps. */
  function Candidates(req: Request, types: Types, t: string, fuel: nat): (r: Result<seq<Proposal>>)
    ensures t !in types ==> r == Err(MissingType(Some(t)))
    ensures t in types && OwnFrom(req, t, types[t], 0).Err? ==> r == OwnFrom(req, t, types[t], 0)
    ensures r.Ok? ==> t in types && OwnFrom(req, t, types[t], 0).Ok?
    ensures r.Ok? ==> OwnFrom(req, t, types[t], 0).value <= r.value
    ensures r.Ok? && !HasProto(types[t]) ==> r.value == OwnFrom(req, t, types[t], 0).value
    ensures r.Ok? && HasProto(types[t]) ==>
      && fuel > 0
      && Candidates(req, types, types[t].proto.value, fuel - 1).Ok?
      && r.value == OwnFrom(req, t, types[t], 0).value + Candidates(req, types, types[t].proto.value, fuel - 1).value
    decreases fuel
  {
    if t !in types then Err(MissingType(Some(t)))
    else
      match OwnFrom(req, t, types[t], 0)
      case Err(f) => Err(f)
      case Ok(own) =>
        if !HasProto(types[t]) then Ok(own)
        else if fuel == 0 then Err(StackOverflow)
        else
          match Candidates(req, types, types[t].proto.value, fuel - 1)
          case Err(f) => Err(f)
          case Ok(rest) => Ok(own + rest)
  }

  /** Every proposal the chain walk makes is proper for the request. */
  lemma {:induction false} CandidatesProper(req: Request, types: Types, t: string, fuel: nat)
    requires Candidates(req, types, t, fuel).Ok?
    ensures forall p :: p in Candidates(req, types, t, fuel).value ==> Proper(req, p)
    decreases fuel
  {
    var d := types[t];
    var own := OwnFrom(req, t, d, 0).value;
    forall p | p in own
      ensures Proper(req, p)
    {
      var j :| 0 <= j < |d.members| && Shown(req, d, d.members[j].0) && d.args.Some? && p == ProposalFor(req, d, d.members[j].0);
      ProposalForProper(req, d, d.members[j].0);
    }
    if HasProto(d) {
      CandidatesProper(req, types, d.proto.value, fuel - 1);
    }
  }

  /** `p` is the proposal for member `j` of the `k`-th descriptor on the chain from `t`. */
  ghost predicate ProposedAt(req: Request, types: Types, t: string, k: nat, j: int, p: Proposal) {
    && ChainAt(types, t, k).Some?
    && var d := types[ChainAt(types, t, k).value];
    && 0 <= j < |d.members|
    && Shown(req, d, d.members[j].0)
    && d.args.Some?
    && p == ProposalFor(req, d, d.members[j].0)
  }

  /**
   * The chain walk proposes exactly the shown members of every descriptor on
   * the prototype chain, inherited ones included.
   */
  lemma {:induction false} CandidatesAlongChain(req: Request, types: Types, t: string, fuel: nat)
    ensures var r := Candidates(req, types, t, fuel);
      r.Ok? ==> forall p :: p in r.value <==> exists k: nat, j :: ProposedAt(req, types, t, k, j, p)
    decreases fuel, 1
  {
    if Candidates(req, types, t, fuel).Ok? {
      if !HasProto(types[t]) {
        AlongChainHead(req, types, t, fuel);
      } else {
        AlongChainStep(req, types, t, types[t].proto.value, fuel, fuel - 1);
      }
    }
  }

  /** A descriptor without a prototype is the whole of its chain. */
  lemma AlongChainHead(req: Request, types: Types, t: string, fuel: nat)
    requires Candidates(req, types, t, fuel).Ok? && !HasProto(types[t])
    ensures forall p :: p in Candidates(req, types, t, fuel).value <==> exists k: nat, j :: ProposedAt(req, types, t, k, j, p)
  {
    var r := Candidates(req, types, t, fuel);
    assert r.value == OwnFrom(req, t, types[t], 0).value;
    forall p
      ensures p in r.value <==> exists k: nat, j :: ProposedAt(req, types, t, k, j, p)
    {
      OwnProposed(req, types, t, p);
      assert forall k: nat, j :: ProposedAt(req, types, t, k, j, p) ==> k == 0;
    }
  }

  /** With a prototype, the chain is the descriptor's own proposals followed by the prototype's chain. */
  lemma {:induction false} AlongChainStep(req: Request, types: Types, t: string, q: string, fuel: nat, rest: nat)
    requires Candidates(req, types, t, fuel).Ok? && HasProto(types[t])
    requires q == types[t].proto.value && fuel == rest + 1
    ensures forall p :: p in Candidates(req, types, t, fuel).value <==> exists k: nat, j :: ProposedAt(req, types, t, k, j, p)
    decreases fuel, 0
  {
    CandidatesAlongChain(req, types, q, rest);
    var r := Candidates(req, types, t, fuel);
    assert r.value == OwnFrom(req, t, types[t], 0).value + Candidates(req, types, q, rest).value;
    forall p
      ensures p in r.value <==> exists k: nat, j :: ProposedAt(req, types, t, k, j, p)
    {
      OwnProposed(req, types, t, p);
      ProposedAtShift(req, types, t, p);
    }
  }

  /** The own proposals of `t` are those made at the head of its chain. */
  lemma OwnProposed(req: Request, types: Types, t: string, p: Proposal)
    requires t in types && OwnFrom(req, t, types[t], 0).Ok?
    ensures p in OwnFrom(req, t, types[t], 0).value <==> exists j :: ProposedAt(req, types, t, 0, j, p)
  {
    var d := types[t];
    assert ChainAt(types, t, 0) == Some(t);
    if p in OwnFrom(req, t, d, 0).value {
      var j :| 0 <= j < |d.members| && Shown(req, d, d.members[j].0) && d.args.Some? && p == ProposalFor(req, d, d.members[j].0);
      assert ProposedAt(req, types, t, 0, j, p);
    }
  }

  /** A proposal past the head of the chain from `t` is one made along the chain from its prototype. */
  lemma ProposedAtShift(req: Request, types: Types, t: string, p: Proposal)
    requires t in types && HasProto(types[t])
    ensures (exists k: nat, j :: ProposedAt(req, types, t, k, j, p)) <==>
      (exists j :: ProposedAt(req, types, t, 0, j, p)) || (exists k: nat, j :: ProposedAt(req, types, types[t].proto.value, k, j, p))
  {
    var q := types[t].proto.value;
    ChainAtShift(types, t);
    if exists k: nat, j :: ProposedAt(req, types, q, k, j, p) {
      var k: nat, j :| ProposedAt(req, types, q, k, j, p);
      assert ProposedAt(req, types, t, k + 1, j, p);
    }
    if exists k: nat, j :: ProposedAt(req, types, t, k, j, p) {
      var k: nat, j :| ProposedAt(req, types, t, k, j, p);
      if k > 0 {
        assert ProposedAt(req, types, q, k - 1, j, p);
      }
    }
  }

  /**
   * A member shown at the root `Object` is proposed at every type directly
   * under it whose descriptor has `$$args`.
   */
  lemma InheritedFromObject(req: Request, types: Types, t: string, fuel: nat, j: int)
    requires fuel > 0 && t in types && "Object" in types
    requires types[t].proto == Some("Object") && types[t].args.Some?
    requires !HasProto(types["Object"]) && types["Object"].args.Some?
    requires 0 <= j < |types["Object"].members| && Shown(req, types["Object"], types["Object"].members[j].0)
    ensures var r := Candidates(req, types, t, fuel);
      r.Ok? && ProposalFor(req, types["Object"], types["Object"].members[j].0) in r.value
  {
    var p := ProposalFor(req, types["Object"], types["Object"].members[j].0);
    assert ChainAt(types, t, 1) == Some("Object");
    assert ProposedAt(req, types, t, 1, j, p);
    CandidatesAlongChain(req, types, t, fuel);
  }

  /** The root's `$$hasOwnProperty` is shown, decoded, as `hasOwnProperty(property)`. */
  lemma HasOwnPropertyProposal(req: Request)
    requires req.prefix == ""
    ensures var d := ObjectType();
      d.members[3].0 == "$$hasOwnProperty" && Shown(req, d, d.members[3].0)
      && ProposalFor(req, d, d.members[3].0).proposal == "hasOwnProperty(property)"
  {
    var d := ObjectType();
    var key := d.members[3].0;
    assert key[..2] == "$$";
    assert Decoded(d, key) == "hasOwnProperty";
    assert Join(["property"], ", ") == "property";
  }

  /**
   * Completing after the dot of a number proposes the inherited
   * `hasOwnProperty(property)` of `Object`, decoded from its `$$` alias.
   */
  lemma NumberProposesHasOwnProperty(replaceStart: int, fuel: nat)
    requires fuel > 0
    ensures var r := Candidates(Request("", MemberCompletion, replaceStart), Seed(), "Number", fuel);
      r.Ok? && exists p :: p in r.value && p.proposal == "hasOwnProperty(property)"
  {
    var req := Request("", MemberCompletion, replaceStart);
    var types := Seed();
    assert types["Object"] == ObjectType();
    assert types["Number"].args.Some?;
    HasOwnPropertyProposal(req);
    InheritedFromObject(req, types, "Number", fuel, 3);
  }

  /** `createProposals(targetType)`: a falsy target type means the current scope. */
  function CreateProposals(req: Request, e: Env, targetType: Option<string>): (r: Result<seq<Proposal>>)
    ensures Truthy(targetType) ==> r == Candidates(req, e.types, targetType.value, ChainFuel(e))
    ensures !Truthy(targetType) && |e.stack| == 0 ==> r == Err(MissingType(None))
    ensures !Truthy(targetType) && |e.stack| > 0 ==> r == Candidates(req, e.types, Top(e).value, ChainFuel(e))
    ensures r.Ok? ==> forall p :: p in r.value ==> Proper(req, p)
    ensures r.Ok? ==>
      var t := if Truthy(targetType) then targetType.value else Top(e).value;
      forall p :: p in r.value <==> exists k: nat, j :: ProposedAt(req, e.types, t, k, j, p)
  {
    var t := if Truthy(targetType) then targetType else Top(e);
    if t.None? then Err(MissingType(None))
    else
      var r := Candidates(req, e.types, t.value, ChainFuel(e));
      assert r.Ok? ==> forall p :: p in r.value <==> exists k: nat, j :: ProposedAt(req, e.types, t.value, k, j, p) by {
        CandidatesAlongChain(req, e.types, t.value, ChainFuel(e));
      }
      assert r.Ok? ==> forall p :: p in r.value ==> Proper(req, p) by {
        if r.Ok? {
          CandidatesProper(req, e.types, t.value, ChainFuel(e));
        }
      }
      r
  }

  /**
   * `createProposals` lists the resolved type's own proposals first and then
   * appends its prototype's whole result, duplicates included.
   */
  lemma CreateProposalsOrder(req: Request, e: Env, targetType: Option<string>)
    ensures var r := CreateProposals(req, e, targetType);
      r.Ok? ==>
        var t := if Truthy(targetType) then targetType.value else Top(e).value;
        && t in e.types
        && OwnFrom(req, t, e.types[t], 0).value <= r.value
        && (!HasProto(e.types[t]) ==> r.value == OwnFrom(req, t, e.types[t], 0).value)
        && (HasProto(e.types[t]) ==>
              r.value == OwnFrom(req, t, e.types[t], 0).value + Candidates(req, e.types, e.types[t].proto.value, e.count).value)
  {
    var r := CreateProposals(req, e, targetType);
    if r.Ok? {
      var t := if Truthy(targetType) then targetType.value else Top(e).value;
      assert r == Candidates(req, e.types, t, e.count + 1);
    }
  }

  /**
   * A member shadowed in a subtype is proposed twice: the prototype's
   * proposals are appended after the own ones and nothing removes the
   * duplicate, so both copies survive into the sorted result.
   */
  lemma ShadowedMemberProposedTwice(fuel: nat)
    requires fuel > 0
    ensures var a := Descriptor([("x", Some("Number"))], Some(map[]), Some("B"));
      var b := Descriptor([("x", Some("Number"))], Some(map[]), None);
      var req := Request("", TopCompletion, 0);
      var p := ProposalFor(req, b, "x");
      var r := Candidates(req, map["A" := a, "B" := b], "A", fuel);
      && p == PropertyProposal("x", "x (property)")
      && r == Ok([p, p])
      && multiset(SortProposals(r.value))[p] == 2
  {
    var a := Descriptor([("x", Some("Number"))], Some(map[]), Some("B"));
    var b := Descriptor([("x", Some("Number"))], Some(map[]), None);
    var req := Request("", TopCompletion, 0);
    var types := map["A" := a, "B" := b];
    var p := ProposalFor(req, b, "x");
    assert Candidates(req, types, "B", fuel - 1) == Ok([p]) by {
      assert Shown(req, b, "x") && b.members[0].0 == "x";
      assert OwnFrom(req, "B", b, 1) == Ok([]);
      assert [p] + [] == [p];
      assert types["B"] == b && !HasProto(b);
    }
    assert OwnFrom(req, "A", a, 0) == Ok([p]) by {
      assert Shown(req, a, "x") && a.members[0].0 == "x";
      assert ProposalFor(req, a, "x") == p;
      assert OwnFrom(req, "A", a, 1) == Ok([]);
      assert [p] + [] == [p];
    }
    assert types["A"] == a && HasProto(a);
    assert Candidates(req, types, "A", fuel) == Ok([p] + [p]);
    assert [p] + [p] == [p, p];
  }

  /**
   * Completing on `arguments.` crashes: the `Arguments` descriptor has no
   * `$$args`, and its first member passes the empty prefix.
   */
  lemma ArgumentsMemberCompletionFaults(replaceStart: int, fuel: nat)
    ensures Candidates(Request("", MemberCompletion, replaceStart), Seed(), "Arguments", fuel)
      == Err(MissingArgs("Arguments"))
  {
    var req := Request("", MemberCompletion, replaceStart);
    var d := Seed()["Arguments"];
    assert d == ArgumentsType();
    assert Shown(req, d, d.members[0].0);
  }

  // ---------------------------------------------------------------------------
  // Sorting by description

  /** JavaScript `a < b` is false: `a` may come after `b`. */
  predicate NotBefore(a: Proposal, b: Proposal) {
    !LexLess(a.description, b.description)
  }

  /** Ascending by description, as the comparator of `computeProposals` orders them. */
  predicate SortedByDescription(s: seq<Proposal>) {
    forall i, j :: 0 <= i < j < |s| ==> NotBefore(s[j], s[i])
  }

  lemma NotBeforeTransitive(a: Proposal, b: Proposal, c: Proposal)
    requires NotBefore(a, b) && NotBefore(b, c)
    ensures NotBefore(a, c)
  {
    if LexLess(a.description, c.description) {
      if a.description == b.description {
      } else if b.description == c.description {
      } else {
        LexLessTotal(a.description, b.description);
        LexLessTotal(b.description, c.description);
        LexLessTransitive(c.description, b.description, a.description);
        LexLessAsymmetric(c.description, a.description);
      }
    }
  }

  lemma NotBeforeFlip(a: Proposal, b: Proposal)
    requires !NotBefore(a, b)
    ensures NotBefore(b, a)
  {
    LexLessAsymmetric(a.description, b.description);
  }

  /** Insert `x` after every element it is not before. */
  function InsertProposal(s: seq<Proposal>, x: Proposal): seq<Proposal>
    decreases |s|
  {
    if |s| == 0 || NotBefore(x, s[|s| - 1]) then s + [x]
    else InsertProposal(s[..|s| - 1], x) + [s[|s| - 1]]
  }

  lemma {:induction false} InsertProposalPermutes(s: seq<Proposal>, x: Proposal)
    ensures multiset(InsertProposal(s, x)) == multiset(s) + multiset{x}
    decreases |s|
  {
    if |s| > 0 && !NotBefore(x, s[|s| - 1]) {
      assert s == s[..|s| - 1] + [s[|s| - 1]];
      InsertProposalPermutes(s[..|s| - 1], x);
    }
  }

  lemma {:induction false} InsertProposalSorted(s: seq<Proposal>, x: Proposal)
    requires SortedByDescription(s)
    ensures SortedByDescription(InsertProposal(s, x))
    decreases |s|
  {
    if |s| > 0 {
      var init, last := s[..|s| - 1], s[|s| - 1];
      if NotBefore(x, last) {
        forall i | 0 <= i < |s|
          ensures NotBefore(x, s[i])
        {
          if i < |s| - 1 {
            NotBeforeTransitive(x, last, s[i]);
          }
        }
      } else {
        NotBeforeFlip(x, last);
        var a := InsertProposal(init, x);
        InsertProposalSorted(init, x);
        InsertProposalPermutes(init, x);
        forall k | 0 <= k < |a|
          ensures NotBefore(last, a[k])
        {
          assert a[k] in multiset(a);
          if a[k] != x {
            assert a[k] in multiset(init);
            var i :| 0 <= i < |init| && init[i] == a[k];
            assert s[i] == a[k];
          }
        }
        assert InsertProposal(s, x) == a + [last];
      }
    }
  }

  /** `proposals.sort(...)` by description, as a stable insertion sort. */
  function SortProposals(s: seq<Proposal>): (r: seq<Proposal>)
    ensures SortedByDescription(r)
    ensures multiset(r) == multiset(s)
    decreases |s|
  {
    if |s| == 0 then []
    else
      var init := SortProposals(s[..|s| - 1]);
      InsertProposalSorted(init, s[|s| - 1]);
      InsertProposalPermutes(init, s[|s| - 1]);
      assert s == s[..|s| - 1] + [s[|s| - 1]];
      InsertProposal(init, s[|s| - 1])
  }
}

=== FILE: strings.dfy ===
/**
 * String helpers shared by the content-assist model: prefix tests, the
 * lexicographic order JavaScript's `<` uses on strings, decimal rendering of
 * the fresh-name counter, and the "first character is upper case" test used
 * to recognise constructors.
 *
 * Characters are compared by their value; for text in the Basic Multilingual
 * Plane this is the UTF-16 code-unit order JavaScript uses.
 */
module Strings {

  /** `s.indexOf(p) === 0`: `p` is a prefix of `s` (the empty string is a prefix of everything). */
  predicate StartsWith(s: string, p: string) {
    |p| <= |s| && s[..|p|] == p
  }

  lemma StartsWithConcat(a: string, b: string, p: string)
    requires StartsWith(a, p)
    ensures StartsWith(a + b, p)
  {
    assert (a + b)[..|p|] == a[..|p|];
  }

  lemma StartsWithTransitive(s: string, m: string, p: string)
    requires StartsWith(s, m) && StartsWith(m, p)
    ensures StartsWith(s, p)
  {
    assert s[..|p|] == m[..|p|];
  }

  /** JavaScript `a < b` on strings: the first differing character decides, a proper prefix is smaller. */
  predicate LexLess(a: string, b: string)
    decreases |a|
  {
    if |a| == 0 then |b| > 0
    else if |b| == 0 then false
    else if a[0] == b[0] then LexLess(a[1..], b[1..])
    else a[0] < b[0]
  }

  lemma {:induction false} LexLessIrreflexive(a: string)
    ensures !LexLess(a, a)
    decreases |a|
  {
    if |a| > 0 {
      LexLessIrreflexive(a[1..]);
    }
  }

  lemma {:induction false} LexLessTransitive(a: string, b: string, c: string)
    requires LexLess(a, b) && LexLess(b, c)
    ensures LexLess(a, c)
    decreases |a|
  {
    if |a| > 0 && |b| > 0 && |c| > 0 && a[0] == b[0] && b[0] == c[0] {
      LexLessTransitive(a[1..], b[1..], c[1..]);
    }
  }

  /** Two different strings are always ordered one way or the other. */
  lemma {:induction false} LexLessTotal(a: string, b: string)
    requires a != b
    ensures LexLess(a, b) || LexLess(b, a)
    decreases |a|
  {
    if |a| > 0 && |b| > 0 && a[0] == b[0] {
      assert a == [a[0]] + a[1..] && b == [b[0]] + b[1..];
      LexLessTotal(a[1..], b[1..]);
    }
  }

  lemma {:induction false} LexLessAsymmetric(a: string, b: string)
    requires LexLess(a, b)
    ensures !LexLess(b, a)
  {
    if LexLess(b, a) {
      LexLessTransitive(a, b, a);
      LexLessIrreflexive(a);
    }
  }

  /** The decimal digit for `d < 10`. */
  function Digit(d: nat): (c: char)
    requires d < 10
    ensures '0' <= c <= '9'
  {
    "0123456789"[d]
  }

  /** `String(n)` for a non-negative integer: its decimal representation. */
  function NatToString(n: nat): (s: string)
    ensures 1 <= |s|
    ensures n < 10 <==> |s| == 1
    ensures forall i :: 0 <= i < |s| ==> '0' <= s[i] <= '9'
    decreases n
  {
    if n < 10 then [Digit(n)] else NatToString(n / 10) + [Digit(n % 10)]
  }

  lemma DigitInjective(a: nat, b: nat)
    requires a < 10 && b < 10 && Digit(a) == Digit(b)
    ensures a == b
  {
  }

  /** Different counters render to different strings, so counter-built names are fresh. */
  lemma {:induction false} NatToStringInjective(a: nat, b: nat)
    requires NatToString(a) == NatToString(b)
    ensures a == b
    decreases a
  {
    var sa, sb := NatToString(a), NatToString(b);
    if a >= 10 && b >= 10 {
      assert sa[|sa| - 1] == Digit(a % 10) && sb[|sb| - 1] == Digit(b % 10);
      DigitInjective(a % 10, b % 10);
      assert sa[..|sa| - 1] == NatToString(a / 10);
      assert sb[..|sb| - 1] == NatToString(b / 10);
      NatToStringInjective(a / 10, b / 10);
    } else if a < 10 && b < 10 {
      DigitInjective(a, b);
    }
  }

  /** `s.toUpperCase()` on one character; only ASCII letters change case in this model. */
  function UpperChar(c: char): (u: char)
    ensures 'a' <= c <= 'z' ==> 'A' <= u <= 'Z'
    ensures !('a' <= c <= 'z') ==> u == c
  {
    if 'a' <= c <= 'z' then (c as int - 32) as char else c
  }

  /**
   * `name.charAt(0) === name.charAt(0).toUpperCase()`: true for an empty name
   * (`charAt(0)` is then the empty string) and for every first character that
   * is not a lower-case letter.
   */
  predicate FirstCharIsUpper(name: string) {
    |name| == 0 || UpperChar(name[0]) == name[0]
  }

  lemma FirstCharIsUpperMeaning(name: string)
    ensures FirstCharIsUpper(name) <==> (|name| == 0 || !('a' <= name[0] <= 'z'))
  {
  }

  /** The elements of `parts` separated by `sep`. */
  function Join(parts: seq<string>, sep: string): (r: string)
    ensures |parts| == 0 ==> r == ""
    ensures |parts| == 1 ==> r == parts[0]
    decreases |parts|
  {
    if |parts| == 0 then ""
    else if |parts| == 1 then parts[0]
    else Join(parts[..|parts| - 1], sep) + sep + parts[|parts| - 1]
  }
}

=== FILE: typeenv.dfy ===
/**
 * The type environment of one completion request (the `data` record of
 * `computeProposals`): the descriptors by type name, the stack of scope type
 * names, and the counter behind fresh names `Object~<n>`.
 *
 * A JavaScript `TypeError` raised by one of these operations (reading a
 * member of an undefined descriptor, of an undefined `$$args` table) is a
 * `Fault`; the prototype walks carry a step budget and report `StackOverflow`
 * when it runs out, which under `Valid` happens only on a prototype cycle.
 */
module TypeEnv {

  import opened Base
  import opened Strings
  import opened Bags
  import opened Catalog

  type Types = map<string, Descriptor>

  datatype Env = Env(types: Types, stack: seq<string>, count: nat)

  /** JavaScript truthiness of a string-or-null value. */
  predicate Truthy(v: Option<string>) {
    v.Some? && v.value != ""
  }

  /** `type ? type : "Object"` */
  function OrObject(v: Option<string>): (t: string)
    ensures t != ""
    ensures Truthy(v) ==> t == v.value
    ensures !Truthy(v) ==> t == "Object"
  {
    if Truthy(v) then v.value else "Object"
  }

  /** Whether a descriptor's `$$prototype` is truthy. */
  predicate HasProto(d: Descriptor) {
    Truthy(d.proto)
  }

  /** `type[name]` for an own member: `None` when absent or `null`. */
  function Member(d: Descriptor, name: string): (v: Option<string>)
    ensures v.Some? ==> Get(d.members, name) == Some(v)
  {
    match Get(d.members, name)
    case None => None
    case Some(v) => v
  }

  /** The state every request starts from: the seed catalog and the scope stack `["Global"]`. */
  function Initial(): (e: Env)
    ensures e.stack == ["Global"] && e.count == 0
    ensures "Global" in e.types && "Object" in e.types
  {
    Env(Seed(), ["Global"], 0)
  }

  /** `"Object~" + n` */
  function CounterName(n: nat): (s: string)
    ensures '~' in s
  {
    var s := "Object~" + NatToString(n);
    assert s[6] == '~';
    s
  }

  lemma CounterNameInjective(j: nat, k: nat)
    requires CounterName(j) == CounterName(k)
    ensures j == k
  {
    var a, b := CounterName(j), CounterName(k);
    assert NatToString(j) == a[7..] == b[7..] == NatToString(k);
    NatToStringInjective(j, k);
  }

  /** `typeStack[typeStack.length - 1]`: undefined on an empty stack. */
  function Top(e: Env): (t: Option<string>)
    ensures t.Some? <==> |e.stack| > 0
    ensures t.Some? ==> t.value == e.stack[|e.stack| - 1]
  {
    if |e.stack| == 0 then None else Some(e.stack[|e.stack| - 1])
  }

  /** `scope(target)`: the target's truthy inferred type, otherwise the current scope. */
  function Scope(e: Env, targetType: Option<string>): (s: Option<string>)
    ensures Truthy(targetType) ==> s == targetType
    ensures !Truthy(targetType) ==> s == Top(e)
    ensures !Truthy(targetType) && |e.stack| > 0 ==> s == Some(e.stack[|e.stack| - 1])
    ensures s.None? <==> !Truthy(targetType) && |e.stack| == 0
  {
    if Truthy(targetType) then targetType else Top(e)
  }

  /** `types[scope][name] = value` on a descriptor known to exist. */
  function Bind(types: Types, s: string, name: string, value: Option<string>): (r: Types)
    requires s in types
    ensures r.Keys == types.Keys
    ensures Member(r[s], name) == value
    ensures forall k :: k != name ==> Member(r[s], k) == Member(types[s], k)
    ensures r[s].proto == types[s].proto && r[s].args == types[s].args
    ensures forall t :: t in types && t != s ==> r[t] == types[t]
  {
    var d := types[s];
    var d' := d.(members := Put(d.members, name, value));
    GetPutSame(d.members, name, value);
    forall k | k != name
      ensures Member(d', k) == Member(d, k)
    {
      GetPutOther(d.members, name, value, k);
    }
    types[s := d']
  }

  /** Same type names, same prototypes: only members and `$$args` may differ. */
  predicate SameShape(a: Types, b: Types) {
    a.Keys == b.Keys && forall t :: t in a ==> a[t].proto == b[t].proto
  }

  // ---------------------------------------------------------------------------
  // Scope operations

  /** `newScope()`: a fresh type whose prototype is the current scope, pushed on the stack. */
  function NewScope(e: Env): (r: (Env, string))
    ensures r.1 == CounterName(e.count)
    ensures r.0.stack == e.stack + [r.1]
    ensures r.0.count == e.count + 1
    ensures r.0.types.Keys == e.types.Keys + {r.1}
    ensures r.0.types[r.1] == Descriptor([], Some(map[]), Top(e))
    ensures forall t :: t in e.types && t != r.1 ==> r.0.types[t] == e.types[t]
  {
    var name := CounterName(e.count);
    (Env(e.types[name := Descriptor([], Some(map[]), Top(e))], e.stack + [name], e.count + 1), name)
  }

  /**
   * `newObject(name)`: a new scope, then the object type (`name`, or a fresh
   * name when `name` is falsy) created with prototype `Object` and no members
   * (replacing any descriptor of that name), then `this` bound to the object
   * type in the new scope.
   */
  function NewObject(e: Env, name: Option<string>): (r: (Env, string))
    ensures Truthy(name) ==> r.1 == name.value
    ensures !Truthy(name) ==> r.1 == CounterName(e.count + 1)
    ensures r.0.stack == e.stack + [CounterName(e.count)]
    ensures r.0.count == e.count + (if Truthy(name) then 1 else 2)
    ensures r.0.types.Keys == e.types.Keys + {CounterName(e.count), r.1}
    ensures Member(r.0.types[CounterName(e.count)], "this") == Some(r.1)
    ensures r.1 != CounterName(e.count) ==>
      && r.0.types[CounterName(e.count)].proto == Top(e)
      && r.0.types[r.1] == Descriptor([], Some(map[]), Some("Object"))
    ensures forall t :: t in e.types && t != CounterName(e.count) && t != r.1 ==> r.0.types[t] == e.types[t]
  {
    var (e1, s) := NewScope(e);
    var n := if Truthy(name) then name.value else CounterName(e1.count);
    var count := if Truthy(name) then e1.count else e1.count + 1;
    var types := e1.types[n := Descriptor([], Some(map[]), Some("Object"))];
    (Env(Bind(types, s, "this", Some(n)), e1.stack, count), n)
  }

  /** `popScope()`: `this` becomes `null` in the current scope, which is then popped; no descriptor is deleted. */
  function PopScope(e: Env): (r: Result<Env>)
    ensures |e.stack| == 0 ==> r == Err(MissingType(None))
    ensures |e.stack| > 0 ==> (r.Ok? <==> Top(e).value in e.types)
    ensures r.Err? ==> r.fault == MissingType(Top(e))
    ensures r.Ok? ==>
      && r.value.stack == e.stack[..|e.stack| - 1]
      && r.value.count == e.count
      && SameShape(e.types, r.value.types)
      && Member(r.value.types[Top(e).value], "this") == None
      && (forall k :: k != "this" ==> Member(r.value.types[Top(e).value], k) == Member(e.types[Top(e).value], k))
      && (forall t :: t in e.types && t != Top(e).value ==> r.value.types[t] == e.types[t])
  {
    match Top(e)
    case None => Err(MissingType(None))
    case Some(s) =>
      if s !in e.types then Err(MissingType(Some(s)))
      else Ok(Env(Bind(e.types, s, "this", None), e.stack[..|e.stack| - 1], e.count))
  }

  /** `addVariable(name, target, type)` once `scope(target)` is known. */
  function AddVariable(e: Env, name: string, scope: Option<string>, t: Option<string>): (r: Result<Env>)
    ensures r.Err? <==> scope.None? || scope.value !in e.types
    ensures r.Err? ==> r.fault == MissingType(scope)
    ensures r.Ok? ==>
      && r.value.stack == e.stack && r.value.count == e.count
      && SameShape(e.types, r.value.types)
      && Member(r.value.types[scope.value], name) == Some(OrObject(t))
      && (forall k :: k != name ==> Member(r.value.types[scope.value], k) == Member(e.types[scope.value], k))
      && (forall u :: u in e.types && u != scope.value ==> r.value.types[u] == e.types[u])
  {
    if scope.None? || scope.value !in e.types then Err(MissingType(scope))
    else Ok(e.(types := Bind(e.types, scope.value, name, Some(OrObject(t)))))
  }

  /** `addFunction(name, args, target, type)`: binds the member and records its parameter names in `$$args`. */
  function AddFunction(e: Env, name: string, params: seq<string>, scope: Option<string>, t: Option<string>): (r: Result<Env>)
    ensures scope.None? || scope.value !in e.types ==> r == Err(MissingType(scope))
    ensures scope.Some? && scope.value in e.types && e.types[scope.value].args.None? ==> r == Err(MissingArgs(scope.value))
    ensures r.Ok? <==> scope.Some? && scope.value in e.types && e.types[scope.value].args.Some?
    ensures r.Ok? ==>
      && r.value.stack == e.stack && r.value.count == e.count
      && SameShape(e.types, r.value.types)
      && Member(r.value.types[scope.value], name) == Some(OrObject(t))
      && (forall k :: k != name ==> Member(r.value.types[scope.value], k) == Member(e.types[scope.value], k))
      && r.value.types[scope.value].args == Some(e.types[scope.value].args.value[name := params])
      && (forall u :: u in e.types && u != scope.value ==> r.value.types[u] == e.types[u])
  {
    if scope.None? || scope.value !in e.types then Err(MissingType(scope))
    else
      var s := scope.value;
      var d := e.types[s];
      if d.args.None? then Err(MissingArgs(s))
      else
        var types := Bind(e.types, s, name, Some(OrObject(t)));
        var d' := types[s].(args := Some(d.args.value[name := params]));
        assert forall k :: Member(d', k) == Member(types[s], k);
        Ok(e.(types := types[s := d']))
  }

  // ---------------------------------------------------------------------------
  // addOrSetVariable

  /**
   * The names a non-empty JavaScript string answers with a truthy property of
   * its own or of `String.prototype` (section 15.5.4 and Annex B.2.3 of
   * ECMA-262 5.1), without those every plain object already has through
   * `Object.prototype`.
   */
  const StringMembers: set<string> := {
    "length", "charAt", "charCodeAt", "concat", "indexOf", "lastIndexOf", "localeCompare", "match",
    "replace", "search", "slice", "split", "substr", "substring", "toLowerCase", "toLocaleLowerCase",
    "toUpperCase", "toLocaleUpperCase", "trim"}

  /**
   * `addOrSetVariable(name, target, type)` as written. The search loop moves
   * `current` from the starting descriptor to its `$$prototype`, which is a
   * type NAME, so only the starting descriptor is really searched. When that
   * descriptor has no truthy binding but a prototype, the second round reads
   * `name` on the prototype's name string: for a string property that is
   * truthy, the assignment to the string is dropped, and nothing changes;
   * otherwise the name is bound in the starting descriptor.
   */
  function AddOrSetVariable(e: Env, name: string, scope: Option<string>, t: Option<string>): (r: Result<Env>)
    ensures r.Err? <==> scope.None? || scope.value !in e.types
    ensures r.Err? ==> r.fault == MissingType(scope)
    ensures r.Ok? ==>
      && r.value.stack == e.stack && r.value.count == e.count
      && SameShape(e.types, r.value.types)
      && (forall u :: u in e.types && u != scope.value ==> r.value.types[u] == e.types[u])
      && (forall k :: k != name ==> Member(r.value.types[scope.value], k) == Member(e.types[scope.value], k))
      && r.value.types[scope.value].args == e.types[scope.value].args
    ensures r.Ok? ==>
      var d := e.types[scope.value];
      if !Truthy(Member(d, name)) && HasProto(d) && name in StringMembers then r.value == e
      else Member(r.value.types[scope.value], name) == Some(OrObject(t))
  {
    if scope.None? || scope.value !in e.types then Err(MissingType(scope))
    else
      var d := e.types[scope.value];
      if !Truthy(Member(d, name)) && HasProto(d) && name in StringMembers then Ok(e)
      else AddVariable(e, name, scope, t)
  }

  /** The first descriptor on the chain from `t` with a truthy own member `name`. */
  function OwnerFrom(types: Types, name: string, t: string, fuel: nat): (r: Result<Option<string>>)
    ensures r.Ok? ==> t in types
    ensures r.Ok? && r.value.Some? ==> r.value.value in types && Truthy(Member(types[r.value.value], name))
    decreases fuel
  {
    if t !in types then Err(MissingType(Some(t)))
    else if Truthy(Member(types[t], name)) then Ok(Some(t))
    else if !HasProto(types[t]) then Ok(None)
    else if fuel == 0 then Err(StackOverflow)
    else OwnerFrom(types, name, types[t].proto.value, fuel - 1)
  }

  /**
   * `addOrSetVariable` as its documentation describes it: the binding is
   * replaced where the prototype hierarchy has one, and otherwise added to
   * the scope.
   */
  function AddOrSetIntended(e: Env, name: string, scope: Option<string>, t: Option<string>): (r: Result<Env>)
    ensures scope.None? ==> r == Err(MissingType(None))
    ensures scope.Some? && scope.value !in e.types ==> r == Err(MissingType(scope))
    ensures r.Ok? ==> r.value.stack == e.stack && r.value.count == e.count && SameShape(e.types, r.value.types)
  {
    if scope.None? then Err(MissingType(None))
    else match OwnerFrom(e.types, name, scope.value, ChainFuel(e))
      case Err(f) => Err(f)
      case Ok(owner) =>
        var s := if owner.Some? then owner.value else scope.value;
        var types := Bind(e.types, s, name, Some(OrObject(t)));
        assert SameShape(e.types, types) by {
          forall u | u in e.types
            ensures e.types[u].proto == types[u].proto
          {
          }
        }
        Ok(e.(types := types))
  }

  // ---------------------------------------------------------------------------
  // Prototype chains

  /** The prototype chain from `t` reaches a prototype-less descriptor within `f` descriptors, all present. */
  predicate ChainEnds(types: Types, t: string, f: nat)
    decreases f
  {
    f > 0 && t in types && (!HasProto(types[t]) || ChainEnds(types, types[t].proto.value, f - 1))
  }

  /** The `k`-th descriptor name on the prototype chain from `t` (`t` itself is the 0-th). */
  function ChainAt(types: Types, t: string, k: nat): (r: Option<string>)
    ensures r.Some? ==> r.value in types
    decreases k
  {
    if t !in types then None
    else if k == 0 then Some(t)
    else if HasProto(types[t]) then ChainAt(types, types[t].proto.value, k - 1)
    else None
  }

  /** How many prototype steps a walk may take: enough for every chain of a `Valid` environment. */
  function ChainFuel(e: Env): nat {
    e.count + 1
  }

  /**
   * What `innerLookup` finds at one descriptor: a truthy own member, or, at a
   * descriptor without a prototype only, a truthy `"$$" + name` alias.
   */
  function Binding(d: Descriptor, name: string): (v: Option<string>)
    ensures v.Some? ==> v.value != ""
    ensures Truthy(Member(d, name)) ==> v == Member(d, name)
    ensures !Truthy(Member(d, name)) && HasProto(d) ==> v == None
    ensures !Truthy(Member(d, name)) && !HasProto(d) ==>
      v == if Truthy(Member(d, "$$" + name)) then Member(d, "$$" + name) else None
  {
    if Truthy(Member(d, name)) then Member(d, name)
    else if !HasProto(d) && Truthy(Member(d, "$$" + name)) then Member(d, "$$" + name)
    else None
  }

  /** `innerLookup(name, types[t], types)`, with at most `fuel` prototype steps. */
  function LookupFrom(types: Types, name: string, t: string, fuel: nat): (r: Result<Option<string>>)
    ensures r.Ok? && r.value.Some? ==> r.value.value != ""
    ensures t in types && Binding(types[t], name).Some? ==> r == Ok(Binding(types[t], name))
    ensures t !in types ==> r == Err(MissingType(Some(t)))
    decreases fuel
  {
    if t !in types then Err(MissingType(Some(t)))
    else
      var d := types[t];
      if Binding(d, name).Some? then Ok(Binding(d, name))
      else if !HasProto(d) then Ok(None)
      else if fuel == 0 then Err(StackOverflow)
      else LookupFrom(types, name, d.proto.value, fuel - 1)
  }

  /** `lookupName(name, target)` once `scope(target)` is known. */
  function LookupName(e: Env, name: string, scope: Option<string>): (r: Result<Option<string>>)
    ensures scope.None? ==> r == Err(MissingType(None))
    ensures r.Ok? && r.value.Some? ==> r.value.value != ""
  {
    if scope.None? then Err(MissingType(None)) else LookupFrom(e.types, name, scope.value, ChainFuel(e))
  }

  /** `k` is the first position on the chain from `t` whose descriptor binds `name`. */
  ghost predicate FirstBindingAt(types: Types, name: string, t: string, k: nat) {
    && ChainAt(types, t, k).Some?
    && Binding(types[ChainAt(types, t, k).value], name).Some?
    && forall j: nat :: j < k ==> ChainAt(types, t, j).Some? && Binding(types[ChainAt(types, t, j).value], name).None?
  }

  /** No descriptor on the chain from `t` binds `name`. */
  ghost predicate Unbound(types: Types, name: string, t: string) {
    forall k: nat :: ChainAt(types, t, k).Some? ==> Binding(types[ChainAt(types, t, k).value], name).None?
  }

  lemma ChainAtShift(types: Types, t: string)
    requires t in types && HasProto(types[t])
    ensures forall k: nat :: ChainAt(types, t, k + 1) == ChainAt(types, types[t].proto.value, k)
  {
  }

  /** A lookup on a chain that ends within `f + 1` descriptors does not fault. */
  lemma {:induction false} LookupTerminates(types: Types, name: string, t: string, f: nat)
    requires ChainEnds(types, t, f + 1)
    ensures LookupFrom(types, name, t, f).Ok?
    decreases f
  {
    if Binding(types[t], name).None? && HasProto(types[t]) {
      LookupTerminates(types, name, types[t].proto.value, f - 1);
    }
  }

  /** The lookup yields `null` exactly when no descriptor on the chain binds the name. */
  lemma {:induction false} LookupNoneIffUnbound(types: Types, name: string, t: string, f: nat)
    requires ChainEnds(types, t, f + 1)
    ensures LookupFrom(types, name, t, f) == Ok(None) <==> Unbound(types, name, t)
    decreases f
  {
    assert ChainAt(types, t, 0) == Some(t);
    if Binding(types[t], name).None? {
      if !HasProto(types[t]) {
        forall k: nat | ChainAt(types, t, k).Some?
          ensures k == 0
        {
        }
      } else {
        var p := types[t].proto.value;
        LookupNoneIffUnbound(types, name, p, f - 1);
        ChainAtShift(types, t);
        assert LookupFrom(types, name, t, f) == LookupFrom(types, name, p, f - 1);
        if Unbound(types, name, p) {
          forall k: nat | ChainAt(types, t, k).Some?
            ensures Binding(types[ChainAt(types, t, k).value], name).None?
          {
            if k > 0 {
              assert ChainAt(types, t, k) == ChainAt(types, p, k - 1);
            }
          }
        }
        if Unbound(types, name, t) {
          forall k: nat | ChainAt(types, p, k).Some?
            ensures Binding(types[ChainAt(types, p, k).value], name).None?
          {
            assert ChainAt(types, t, k + 1) == ChainAt(types, p, k);
          }
        }
      }
    }
  }

  /**
   * `lookupName` returns the first truthy binding found walking the prototype
   * links: a lookup yields `v` exactly when the first descriptor on the chain
   * that binds the name binds it to `v`.
   */
  lemma {:induction false} LookupFindsFirstBinding(types: Types, name: string, t: string, f: nat, v: string)
    requires ChainEnds(types, t, f + 1)
    ensures LookupFrom(types, name, t, f) == Ok(Some(v)) <==>
      exists k: nat :: FirstBindingAt(types, name, t, k) && Binding(types[ChainAt(types, t, k).value], name) == Some(v)
    decreases f
  {
    assert ChainAt(types, t, 0) == Some(t);
    if Binding(types[t], name).Some? {
      assert FirstBindingAt(types, name, t, 0);
      forall k: nat | FirstBindingAt(types, name, t, k)
        ensures k == 0
      {
        if k > 0 {
          assert Binding(types[ChainAt(types, t, 0).value], name).None?;
        }
      }
    } else if !HasProto(types[t]) {
      forall k: nat | ChainAt(types, t, k).Some?
        ensures k == 0
      {
      }
    } else {
      var p := types[t].proto.value;
      LookupFindsFirstBinding(types, name, p, f - 1, v);
      ChainAtShift(types, t);
      assert LookupFrom(types, name, t, f) == LookupFrom(types, name, p, f - 1);
      forall k: nat | FirstBindingAt(types, name, p, k)
        ensures FirstBindingAt(types, name, t, k + 1)
      {
        forall j: nat | j < k + 1
          ensures ChainAt(types, t, j).Some? && Binding(types[ChainAt(types, t, j).value], name).None?
        {
          if j > 0 {
            assert ChainAt(types, t, j) == ChainAt(types, p, j - 1);
          }
        }
      }
      forall k: nat | FirstBindingAt(types, name, t, k)
        ensures k > 0 && FirstBindingAt(types, name, p, k - 1)
      {
        forall j: nat | j < k - 1
          ensures ChainAt(types, p, j).Some? && Binding(types[ChainAt(types, p, j).value], name).None?
        {
          assert ChainAt(types, t, j + 1) == ChainAt(types, p, j);
        }
      }
    }
  }

  /** Rebinding the name at its owner makes every lookup that walks through the owner find the new type. */
  lemma {:induction false} LookupAfterOwnerRebind(types: Types, name: string, t: string, fuel: nat, owner: string, v: string)
    requires OwnerFrom(types, name, t, fuel) == Ok(Some(owner))
    requires v != ""
    ensures LookupFrom(Bind(types, owner, name, Some(v)), name, t, fuel) == Ok(Some(v))
    decreases fuel
  {
    var types' := Bind(types, owner, name, Some(v));
    if t != owner {
      assert types'[t] == types[t];
      LookupAfterOwnerRebind(types, name, types[t].proto.value, fuel - 1, owner, v);
    }
  }

  /**
   * The documented behaviour: after `x = e` (an `AssignmentExpression` whose
   * right-most identifier is `x`), looking `x` up from the same scope yields
   * the assigned type.
   */
  lemma IntendedReassigns(e: Env, name: string, scope: Option<string>, t: Option<string>)
    requires AddOrSetIntended(e, name, scope, t).Ok?
    ensures LookupName(AddOrSetIntended(e, name, scope, t).value, name, scope) == Ok(Some(OrObject(t)))
  {
    var e' := AddOrSetIntended(e, name, scope, t).value;
    assert ChainFuel(e') == ChainFuel(e);
    IntendedRebinds(e, name, scope, t, e'.types);
  }

  lemma IntendedRebinds(e: Env, name: string, scope: Option<string>, t: Option<string>, types: Types)
    requires AddOrSetIntended(e, name, scope, t).Ok?
    requires types == AddOrSetIntended(e, name, scope, t).value.types
    ensures LookupFrom(types, name, scope.value, ChainFuel(e)) == Ok(Some(OrObject(t)))
  {
    var s := scope.value;
    var owner := OwnerFrom(e.types, name, s, ChainFuel(e)).value;
    var v := OrObject(t);
    if owner.Some? {
      assert types == Bind(e.types, owner.value, name, Some(v));
      LookupAfterOwnerRebind(e.types, name, s, ChainFuel(e), owner.value, v);
    } else {
      assert types == Bind(e.types, s, name, Some(v));
      LookupAfterOwnBind(e.types, name, s, ChainFuel(e), v);
    }
  }

  lemma LookupAfterOwnBind(types: Types, name: string, s: string, fuel: nat, v: string)
    requires s in types && v != ""
    ensures LookupFrom(Bind(types, s, name, Some(v)), name, s, fuel) == Ok(Some(v))
  {
    var types' := Bind(types, s, name, Some(v));
    assert Binding(types'[s], name) == Some(v);
  }

  /** When the scope itself binds the name, the code as written does what the documentation says. */
  lemma AsWrittenAgreesOnOwnBinding(e: Env, name: string, s: string, t: Option<string>)
    requires s in e.types && Truthy(Member(e.types[s], name))
    ensures AddOrSetVariable(e, name, Some(s), t) == AddOrSetIntended(e, name, Some(s), t)
  {
  }

  /**
   * As written, assigning to a string-property name (`length = 3`) in a scope
   * that has a prototype and no binding of it changes nothing, while the
   * documented behaviour makes the name resolve to the assigned type.
   */
  lemma AsWrittenDropsStringNames(e: Env, name: string, s: string, t: Option<string>)
    requires s in e.types && HasProto(e.types[s]) && !Truthy(Member(e.types[s], name))
    requires name in StringMembers
    ensures AddOrSetVariable(e, name, Some(s), t) == Ok(e)
    ensures AddOrSetIntended(e, name, Some(s), t).Ok? ==>
      LookupName(AddOrSetIntended(e, name, Some(s), t).value, name, Some(s)) == Ok(Some(OrObject(t)))
  {
    if AddOrSetIntended(e, name, Some(s), t).Ok? {
      IntendedReassigns(e, name, Some(s), t);
    }
  }

  /**
   * As written, assigning to a name the scope inherits from its prototype
   * binds it in the scope and leaves the prototype's binding untouched; the
   * documented behaviour rebinds it in the prototype.
   */
  lemma AsWrittenShadowsInheritedBinding(e: Env, name: string, s: string, t: Option<string>)
    requires s in e.types && HasProto(e.types[s]) && !Truthy(Member(e.types[s], name))
    requires name !in StringMembers
    requires e.types[s].proto.value in e.types && Truthy(Member(e.types[e.types[s].proto.value], name))
    ensures var p := e.types[s].proto.value;
      && AddOrSetVariable(e, name, Some(s), t).Ok?
      && AddOrSetVariable(e, name, Some(s), t).value.types[p] == e.types[p]
      && Member(AddOrSetVariable(e, name, Some(s), t).value.types[s], name) == Some(OrObject(t))
      && AddOrSetIntended(e, name, Some(s), t).Ok?
      && Member(AddOrSetIntended(e, name, Some(s), t).value.types[p], name) == Some(OrObject(t))
      && AddOrSetIntended(e, name, Some(s), t).value.types[s] == e.types[s]
  {
    var p := e.types[s].proto.value;
    assert OwnerFrom(e.types, name, p, ChainFuel(e) - 1) == Ok(Some(p));
  }

  /**
   * `function Object() {}` makes `Object` its own prototype: a lookup that no
   * descriptor answers then never ends, which JavaScript reports as a stack
   * overflow.
   */
  lemma {:induction false} SelfPrototypedObjectOverflows(types: Types, name: string, fuel: nat)
    requires "Object" in types && types["Object"].proto == Some("Object")
    requires Binding(types["Object"], name).None?
    ensures LookupFrom(types, name, "Object", fuel) == Err(StackOverflow)
    decreases fuel
  {
    if fuel > 0 {
      SelfPrototypedObjectOverflows(types, name, fuel - 1);
    }
  }

  /** A capitalised function named `Object` is what installs that cycle. */
  lemma ObjectConstructorMakesCycle(e: Env)
    requires CounterName(e.count) != "Object"
    ensures var (e', n) := NewObject(e, Some("Object"));
      n == "Object" && e'.types["Object"].proto == Some("Object")
  {
  }

  // ---------------------------------------------------------------------------
  // The environment invariant

  /**
   * `Object` is the root, every chain ends within `count + 2` descriptors, no
   * fresh name is taken yet, only `Object` and generated scopes lack a
   * prototype, and every scope on the stack has a descriptor.
   */
  ghost predicate Valid(e: Env) {
    && "Object" in e.types && !HasProto(e.types["Object"])
    && (forall t :: t in e.types ==> ChainEnds(e.types, t, e.count + 2))
    && (forall k: nat :: k >= e.count ==> CounterName(k) !in e.types)
    && (forall t :: t in e.types && !HasProto(e.types[t]) ==> t == "Object" || '~' in t)
    && (forall i :: 0 <= i < |e.stack| ==> e.stack[i] in e.types)
  }

  lemma {:induction false} ChainEndsMonotone(types: Types, t: string, f: nat, g: nat)
    requires ChainEnds(types, t, f) && f <= g
    ensures ChainEnds(types, t, g)
    decreases f
  {
    if HasProto(types[t]) {
      ChainEndsMonotone(types, types[t].proto.value, f - 1, g - 1);
    }
  }

  lemma {:induction false} SameShapeKeepsChain(a: Types, b: Types, t: string, f: nat)
    requires SameShape(a, b) && ChainEnds(a, t, f)
    ensures ChainEnds(b, t, f)
    decreases f
  {
    if HasProto(a[t]) {
      SameShapeKeepsChain(a, b, a[t].proto.value, f - 1);
    }
  }

  /** Adding a descriptor under a new name leaves every existing chain as it was. */
  lemma {:induction false} FreshNameKeepsChain(types: Types, x: string, d: Descriptor, t: string, f: nat)
    requires x !in types && ChainEnds(types, t, f)
    ensures ChainEnds(types[x := d], t, f)
    decreases f
  {
    if HasProto(types[t]) {
      FreshNameKeepsChain(types, x, d, types[t].proto.value, f - 1);
    }
  }

  /**
   * Re-rooting a descriptor that had a prototype (or did not exist) directly
   * under `Object` shortens or keeps every chain through it.
   */
  lemma {:induction false} RerootKeepsChain(types: Types, x: string, d: Descriptor, t: string, f: nat)
    requires x != "Object" && "Object" in types && !HasProto(types["Object"])
    requires x !in types || HasProto(types[x])
    requires d.proto == Some("Object")
    requires ChainEnds(types, t, f)
    ensures ChainEnds(types[x := d], t, f)
    decreases f
  {
    var types' := types[x := d];
    if t == x {
      assert ChainEnds(types', "Object", f - 1);
    } else if HasProto(types[t]) {
      RerootKeepsChain(types, x, d, types[t].proto.value, f - 1);
    }
  }

  lemma SeedChainsEnd()
    ensures forall t :: t in Seed() ==> ChainEnds(Seed(), t, 2)
  {
    var types := Seed();
    assert ChainEnds(types, "Object", 1);
  }

  lemma SeedNamesAreNotCounterNames(k: nat)
    ensures CounterName(k) !in Seed()
  {
    var c := CounterName(k);
    assert |c| >= 8 && c[0] == 'O';
    assert c !in {"Object", "Global", "String", "Array", "Date", "Boolean", "Number", "Function",
                  "Arguments", "RegExp", "Error", "Math", "JSON"};
  }

  lemma RerootAllChains(types: Types, x: string, d: Descriptor, f: nat, types': Types)
    requires x != "Object" && "Object" in types && !HasProto(types["Object"])
    requires x !in types || HasProto(types[x])
    requires d.proto == Some("Object") && f >= 2
    requires forall t :: t in types ==> ChainEnds(types, t, f)
    requires types' == types[x := d]
    ensures forall t :: t in types' ==> ChainEnds(types', t, f)
  {
    forall t | t in types'
      ensures ChainEnds(types', t, f)
    {
      if t == x {
        RerootKeepsChain(types, x, d, "Object", f - 1);
      } else {
        RerootKeepsChain(types, x, d, t, f);
      }
    }
  }

  lemma InitialValid()
    ensures Valid(Initial())
  {
    SeedChainsEnd();
    forall k: nat
      ensures CounterName(k) !in Seed()
    {
      SeedNamesAreNotCounterNames(k);
    }
  }

  /** The name `newScope` pushes was not a type name before. */
  lemma NewScopeFresh(e: Env)
    requires Valid(e)
    ensures NewScope(e).1 !in e.types
  {
  }

  lemma ValidNewScope(e: Env)
    requires Valid(e)
    ensures Valid(NewScope(e).0)
  {
    var (e', n) := NewScope(e);
    var d := Descriptor([], Some(map[]), Top(e));
    assert e'.types == e.types[n := d];
    forall t | t in e'.types
      ensures ChainEnds(e'.types, t, e'.count + 2)
    {
      if t == n {
        if HasProto(d) {
          FreshNameKeepsChain(e.types, n, d, d.proto.value, e.count + 2);
        }
      } else {
        FreshNameKeepsChain(e.types, n, d, t, e.count + 2);
        ChainEndsMonotone(e'.types, t, e.count + 2, e'.count + 2);
      }
    }
    forall k: nat | k >= e'.count
      ensures CounterName(k) !in e'.types
    {
      if CounterName(k) == n {
        CounterNameInjective(k, e.count);
      }
    }
  }

  /** Installing a fresh or re-rooted object type with prototype `Object` keeps the invariant. */
  lemma ValidReroot(e: Env, n: string, count: nat)
    requires Valid(e)
    requires n != "Object" && (n !in e.types || HasProto(e.types[n]))
    requires count == e.count || (count == e.count + 1 && n == CounterName(e.count))
    requires count == e.count ==> '~' !in n
    ensures Valid(Env(e.types[n := Descriptor([], Some(map[]), Some("Object"))], e.stack, count))
  {
    var d := Descriptor([], Some(map[]), Some("Object"));
    var types := e.types[n := d];
    RerootAllChains(e.types, n, d, e.count + 2, types);
    forall t | t in types
      ensures ChainEnds(types, t, count + 2)
    {
      ChainEndsMonotone(types, t, e.count + 2, count + 2);
    }
    forall k: nat | k >= count
      ensures CounterName(k) !in types
    {
      if CounterName(k) == n {
        CounterNameInjective(k, e.count);
      }
    }
  }

  lemma ValidBind(e: Env, s: string, name: string, value: Option<string>)
    requires Valid(e) && s in e.types
    ensures Valid(e.(types := Bind(e.types, s, name, value)))
  {
    var types := Bind(e.types, s, name, value);
    forall t | t in e.types
      ensures e.types[t].proto == types[t].proto
    {
      if t != s {
        assert types[t] == e.types[t];
      }
    }
    ValidSameShape(e, e.(types := types));
  }

  /** `newObject` keeps the invariant for every name an identifier can have, except `Object`. */
  lemma ValidNewObject(e: Env, name: Option<string>)
    requires Valid(e)
    requires Truthy(name) ==> name.value != "Object" && '~' !in name.value
    ensures Valid(NewObject(e, name).0)
  {
    ValidNewScope(e);
    var (e1, s) := NewScope(e);
    var n := if Truthy(name) then name.value else CounterName(e1.count);
    var count := if Truthy(name) then e1.count else e1.count + 1;
    var e2 := Env(e1.types[n := Descriptor([], Some(map[]), Some("Object"))], e1.stack, count);
    ValidReroot(e1, n, count);
    ValidBind(e2, s, "this", Some(n));
    assert NewObject(e, name).0 == e2.(types := Bind(e2.types, s, "this", Some(n)));
  }

  /** An operation that keeps the shape, the counter and a stack inside the type names keeps the invariant. */
  lemma ValidSameShape(e: Env, e': Env)
    requires Valid(e) && SameShape(e.types, e'.types) && e'.count == e.count
    requires forall i :: 0 <= i < |e'.stack| ==> e'.stack[i] in e'.types
    ensures Valid(e')
  {
    forall t | t in e'.types
      ensures ChainEnds(e'.types, t, e'.count + 2)
    {
      SameShapeKeepsChain(e.types, e'.types, t, e.count + 2);
    }
  }

  lemma ValidPopScope(e: Env)
    requires Valid(e) && PopScope(e).Ok?
    ensures Valid(PopScope(e).value)
  {
    ValidSameShape(e, PopScope(e).value);
  }

  lemma ValidAddVariable(e: Env, name: string, scope: Option<string>, t: Option<string>)
    requires Valid(e) && AddVariable(e, name, scope, t).Ok?
    ensures Valid(AddVariable(e, name, scope, t).value)
  {
    ValidSameShape(e, AddVariable(e, name, scope, t).value);
  }

  lemma ValidAddFunction(e: Env, name: string, params: seq<string>, scope: Option<string>, t: Option<string>)
    requires Valid(e) && AddFunction(e, name, params, scope, t).Ok?
    ensures Valid(AddFunction(e, name, params, scope, t).value)
  {
    ValidSameShape(e, AddFunction(e, name, params, scope, t).value);
  }

  /** In a valid environment a lookup from an existing type name never faults. */
  lemma ValidLookupSucceeds(e: Env, name: string, s: string)
    requires Valid(e) && s in e.types
    ensures LookupName(e, name, Some(s)).Ok?
  {
    LookupTerminates(e.types, name, s, ChainFuel(e));
  }
}

=== FILE: visitor.dfy ===
/**
 * The generic AST visitor `visit(node, data, operation, postoperation)`.
 *
 * The operation runs first; when it says to descend, the children are visited
 * in the order `Ast.Children` gives, and the post-operation runs after them.
 * When the operation says not to descend, neither the children nor the
 * post-operation run. The engine leaves a walk early by throwing the string
 * "done", and any other exception escapes the walk as well: both are explicit
 * outcomes here, and once one of them happens no further node is visited.
 */
module Visitor {

  import opened Base
  import opened Ast

  /** What the pre-operation decided. */
  datatype Step<S> =
    | Descend(state: S)    // returned truthy
    | Skip(state: S)       // returned falsy
    | Halt(state: S)       // threw "done"
    | Crash(fault: Fault)  // threw anything else

  /** How a walk (or a post-operation) ended. */
  datatype Outcome<S> =
    | Continue(state: S)
    | Stop(state: S)
    | Failed(fault: Fault)

  /**
   * `visit(node, data, operation, postoperation)`: a falsy operation skips the
   * subtree and the walk goes on; "done" and any other exception end it; the
   * post-operation runs on the state the children leave.
   */
  function Visit<S>(s: Slot, st: S, followTargets: bool,
                    pre: (Slot, S) -> Step<S>, post: (Slot, S) -> Outcome<S>): (r: Outcome<S>)
    ensures pre(s, st).Skip? ==> r == Continue(pre(s, st).state)
    ensures pre(s, st).Halt? ==> r == Stop(pre(s, st).state)
    ensures pre(s, st).Crash? ==> r == Failed(pre(s, st).fault)
    ensures pre(s, st).Descend? ==>
      var inner := VisitFrom(s, Children(s, followTargets), 0, pre(s, st).state, followTargets, pre, post);
      r == if inner.Continue? then post(s, inner.state) else inner
    decreases SlotWeight(s), 1
  {
    match pre(s, st)
    case Skip(st1) => Continue(st1)
    case Halt(st1) => Stop(st1)
    case Crash(f) => Failed(f)
    case Descend(st1) =>
      var kids := Children(s, followTargets);
      match VisitFrom(s, kids, 0, st1, followTargets, pre, post)
      case Continue(st2) => post(s, st2)
      case Stop(st2) => Stop(st2)
      case Failed(f) => Failed(f)
  }

  /** Visit `kids[i..]` in order, stopping at the first child whose walk does not continue. */
  function VisitFrom<S>(parent: Slot, kids: seq<Slot>, i: nat, st: S, followTargets: bool,
                        pre: (Slot, S) -> Step<S>, post: (Slot, S) -> Outcome<S>): (r: Outcome<S>)
    requires kids == Children(parent, followTargets)
    requires i <= |kids|
    ensures i == |kids| ==> r == Continue(st)
    decreases SlotWeight(parent), 0, |kids| - i
  {
    if i == |kids| then Continue(st)
    else
      match Visit(kids[i], st, followTargets, pre, post)
      case Continue(st1) => VisitFrom(parent, kids, i + 1, st1, followTargets, pre, post)
      case Stop(st1) => Stop(st1)
      case Failed(f) => Failed(f)
  }

  // ---------------------------------------------------------------------------
  // Where the post-operation runs

  /** `x` is `s` itself or one of the slots the walk from `s` can descend to. */
  ghost predicate Reaches(s: Slot, x: Slot, followTargets: bool)
    decreases SlotWeight(s), 1
  {
    s == x || ReachesBelow(s, x, followTargets)
  }

  /** `x` is reached from one of the children of `s`: a proper descendant of `s`. */
  ghost predicate ReachesBelow(s: Slot, x: Slot, followTargets: bool)
    decreases SlotWeight(s), 0
  {
    exists c :: c in Children(s, followTargets) && Reaches(c, x, followTargets)
  }

  /** Every slot reached from `s` is no heavier than `s`, and a proper descendant is lighter. */
  lemma {:induction false} ReachesLighter(s: Slot, x: Slot, followTargets: bool)
    requires Reaches(s, x, followTargets)
    ensures SlotWeight(x) <= SlotWeight(s)
    ensures ReachesBelow(s, x, followTargets) ==> SlotWeight(x) < SlotWeight(s)
    decreases SlotWeight(s)
  {
    if ReachesBelow(s, x, followTargets) {
      var c :| c in Children(s, followTargets) && Reaches(c, x, followTargets);
      ReachesLighter(c, x, followTargets);
    }
  }

  /** No slot is its own proper descendant, so the walk below a node never comes back to it. */
  lemma NotBelowItself(s: Slot, followTargets: bool)
    ensures !ReachesBelow(s, s, followTargets)
  {
    if ReachesBelow(s, s, followTargets) {
      ReachesLighter(s, s, followTargets);
    }
  }

  /** `post` and `post2` agree, in every state, on `s` and every slot it reaches. */
  ghost predicate AgreeWithin<S(!new)>(post: (Slot, S) -> Outcome<S>, post2: (Slot, S) -> Outcome<S>,
                                       s: Slot, followTargets: bool) {
    forall x, y :: Reaches(s, x, followTargets) ==> post(x, y) == post2(x, y)
  }

  /** `post` and `post2` agree, in every state, on every proper descendant of `s`. */
  ghost predicate AgreeBelow<S(!new)>(post: (Slot, S) -> Outcome<S>, post2: (Slot, S) -> Outcome<S>,
                                      s: Slot, followTargets: bool) {
    forall x, y :: ReachesBelow(s, x, followTargets) ==> post(x, y) == post2(x, y)
  }

  /** Agreement on a node's proper descendants covers each child and what it reaches. */
  lemma AgreeBelowChild<S(!new)>(post: (Slot, S) -> Outcome<S>, post2: (Slot, S) -> Outcome<S>,
                                 parent: Slot, c: Slot, followTargets: bool)
    requires c in Children(parent, followTargets)
    requires AgreeBelow(post, post2, parent, followTargets)
    ensures AgreeWithin(post, post2, c, followTargets)
  {
    forall x, y | Reaches(c, x, followTargets) ensures post(x, y) == post2(x, y) {
      assert ReachesBelow(parent, x, followTargets);
    }
  }

  /** A walk runs the post-operation only on the node and its descendants. */
  lemma {:induction false} VisitPostLocal<S(!new)>(s: Slot, st: S, followTargets: bool, pre: (Slot, S) -> Step<S>,
                                                   post: (Slot, S) -> Outcome<S>, post2: (Slot, S) -> Outcome<S>)
    requires AgreeWithin(post, post2, s, followTargets)
    ensures Visit(s, st, followTargets, pre, post2) == Visit(s, st, followTargets, pre, post)
    decreases SlotWeight(s), 1
  {
    if pre(s, st).Descend? {
      VisitFromPostLocal(s, Children(s, followTargets), 0, pre(s, st).state, followTargets, pre, post, post2);
    }
  }

  /**
   * Walking the children runs the post-operation only on the parent's proper
   * descendants, never on the parent itself.
   */
  lemma {:induction false} VisitFromPostLocal<S(!new)>(parent: Slot, kids: seq<Slot>, i: nat, st: S, followTargets: bool,
                                                       pre: (Slot, S) -> Step<S>,
                                                       post: (Slot, S) -> Outcome<S>, post2: (Slot, S) -> Outcome<S>)
    requires kids == Children(parent, followTargets)
    requires i <= |kids|
    requires AgreeBelow(post, post2, parent, followTargets)
    ensures VisitFrom(parent, kids, i, st, followTargets, pre, post2) == VisitFrom(parent, kids, i, st, followTargets, pre, post)
    decreases SlotWeight(parent), 0, |kids| - i
  {
    if i < |kids| {
      AgreeBelowChild(post, post2, parent, kids[i], followTargets);
      VisitPostLocal(kids[i], st, followTargets, pre, post, post2);
      var r := Visit(kids[i], st, followTargets, pre, post);
      if r.Continue? {
        VisitFromPostLocal(parent, kids, i + 1, r.state, followTargets, pre, post, post2);
      }
    }
  }

  /**
   * Unless the operation descends and the children's walk goes on to the end,
   * the node's post-operation does not run: any post-operation that agrees on
   * the node's proper descendants gives the same outcome.
   */
  lemma VisitSkipsOwnPost<S(!new)>(s: Slot, st: S, followTargets: bool, pre: (Slot, S) -> Step<S>,
                                   post: (Slot, S) -> Outcome<S>, post2: (Slot, S) -> Outcome<S>)
    requires AgreeBelow(post, post2, s, followTargets)
    ensures !(pre(s, st).Descend? &&
              VisitFrom(s, Children(s, followTargets), 0, pre(s, st).state, followTargets, pre, post).Continue?) ==>
      Visit(s, st, followTargets, pre, post2) == Visit(s, st, followTargets, pre, post)
  {
    if pre(s, st).Descend? {
      VisitFromPostLocal(s, Children(s, followTargets), 0, pre(s, st).state, followTargets, pre, post, post2);
    }
  }

  // ---------------------------------------------------------------------------
  // Invariants of a walk

  /** The pre-operation keeps `inv` in every state it hands on. */
  ghost predicate PreKeeps<S(!new)>(pre: (Slot, S) -> Step<S>, inv: S -> bool) {
    forall s, st :: inv(st) && !pre(s, st).Crash? ==> inv(pre(s, st).state)
  }

  /** The post-operation keeps `inv` in every state it hands on. */
  ghost predicate PostKeeps<S(!new)>(post: (Slot, S) -> Outcome<S>, inv: S -> bool) {
    forall s, st :: inv(st) && !post(s, st).Failed? ==> inv(post(s, st).state)
  }

  /** A property every step of the walk keeps holds of the state the walk ends in. */
  lemma {:induction false} VisitKeeps<S(!new)>(s: Slot, st: S, followTargets: bool,
                                         pre: (Slot, S) -> Step<S>, post: (Slot, S) -> Outcome<S>, inv: S -> bool)
    requires inv(st) && PreKeeps(pre, inv) && PostKeeps(post, inv)
    ensures !Visit(s, st, followTargets, pre, post).Failed? ==> inv(Visit(s, st, followTargets, pre, post).state)
    decreases SlotWeight(s), 1
  {
    var step := pre(s, st);
    if step.Descend? {
      var kids := Children(s, followTargets);
      var inner := VisitFrom(s, kids, 0, step.state, followTargets, pre, post);
      VisitFromKeeps(s, kids, 0, step.state, followTargets, pre, post, inv);
      if inner.Continue? {
        assert Visit(s, st, followTargets, pre, post) == post(s, inner.state);
      } else {
        assert Visit(s, st, followTargets, pre, post) == inner;
      }
    }
  }

  lemma {:induction false} VisitFromKeeps<S(!new)>(parent: Slot, kids: seq<Slot>, i: nat, st: S, followTargets: bool,
                                             pre: (Slot, S) -> Step<S>, post: (Slot, S) -> Outcome<S>, inv: S -> bool)
    requires kids == Children(parent, followTargets)
    requires i <= |kids|
    requires inv(st) && PreKeeps(pre, inv) && PostKeeps(post, inv)
    ensures !VisitFrom(parent, kids, i, st, followTargets, pre, post).Failed? ==>
      inv(VisitFrom(parent, kids, i, st, followTargets, pre, post).state)
    decreases SlotWeight(parent), 0, |kids| - i
  {
    if i < |kids| {
      var r := Visit(kids[i], st, followTargets, pre, post);
      VisitKeeps(kids[i], st, followTargets, pre, post, inv);
      if r.Continue? {
        VisitFromKeeps(parent, kids, i + 1, r.state, followTargets, pre, post, inv);
        assert VisitFrom(parent, kids, i, st, followTargets, pre, post)
            == VisitFrom(parent, kids, i + 1, r.state, followTargets, pre, post);
      }
    }
  }
}
